=== FILE: README.md ===
# Chemistry lab simulator: the reaction-outcome engine

A model of the logic behind an interactive chemistry-lab web application.
A user selects one of the shipped reactions, or works in free mode. They put
chemicals into a test tube, set the temperature and pressure, and start the
reaction. After a delay the simulator writes a reaction result: colour, final
temperature, bubbles, smoke, precipitate, fire, ice, glow, explosion, gas,
intensity, sound and a formula line. The model covers:

- the simulation session (`SimulationContext.tsx`): selecting a reaction,
  adding and removing chemicals, clearing the tube, starting and stopping a
  reaction, and the delayed completion that writes the result, modelled as an
  explicit `Complete` event over a queue of snapshots;
- the two result rules: the template of a predefined reaction and the
  category rules of free mode. Each is a pure function of the snapshot, the
  temperature, the pressure and an explicit sequence of random draws;
- the formula composer, the reaction equation line, intensity and sound;
- the colour codec (`#RRGGBB` as in section 5.2 of CSS Color Module Level 4,
  `rgba()` as in section 5.1), the colour blender, `lightenColor` and
  `getColorWithOpacity`;
- the test-tube layer stacking, the high-temperature glow and the colour of
  a broken tube;
- the simulation area: the state description, the reactant details, the
  substances handed to the tube, automatic and sequential filling, and its
  start handler, beside the start/stop button of the reaction controls;
- the filters of the reactions page, the elementary reactions page and the
  chemical picker;
- the shipped chemical and reaction tables as constants, with concrete
  lemmas about them.

Modules, in dependency order:

- `Text`, `Seqs`: string and sequence helpers;
- `Colors`, `Catalogue`, `Tables`: colours, entities and data;
- `Mixing`, `Formulas`, `Outcomes`, `Predefined`, `FreeMode`: result rules;
- `Session`, `Tube`, `Area`, `Filters`: state machine, tube and UI logic;
- `Fixtures`: concrete facts about the shipped tables.

Behaviours of the code that a reader might not expect, which the model
keeps as written:

- The search of `Reactions.tsx` looks for the lowercased query in the Arabic
  texts too, not the raw query (`Filters.MatchesQuery`).
- `clearTestTube` and `selectReaction` do not cancel a completion that is
  already scheduled (`Session.ClearDoesNotCancel`).
- `handleStartReaction` of the simulation area lets a single chemical
  through, but `startReaction` still requires two (`Area.StartHandlerGate`).
  Nothing in the component calls this handler.
- The start/stop button of the reaction controls calls `startReaction` with
  no guard of its own; it is disabled exactly when a press would do nothing
  (`Area.ToggleGate`).
- When none of a selected reaction's reactants is in the chemical table,
  sequential pouring ends with the tube still empty and begins again, over
  and over (`Area.PouringRestarts`). Every shipped reaction lists a chemical
  the table has, so this needs another table.

## Model

| member | source | states |
|---|---|---|
| Catalogue.FindChemical | src/context/SimulationContext.tsx:158 | the lookup returns a table chemical with the id asked for, and fails exactly when no chemical has that id |
| Catalogue.FindReaction | src/context/SimulationContext.tsx:143 | the reaction lookup returns a table reaction with that id, and fails exactly when none has it |
| Catalogue.FindChemicalIsFirst | src/context/SimulationContext.tsx:158 | the chemical found is the first in table order with that id: every chemical before it has another id |
| Catalogue.FindReactionIsFirst | src/context/SimulationContext.tsx:143 | the reaction found is the first in table order with that id |
| Catalogue.Resolve | src/components/SimulationArea.tsx:188-197 | the chemicals a list of ids names are no more than the ids, all from the table and named by the list; when every id is known there is one per id, each the chemical its id finds |
| Session.InitialInv | src/context/SimulationContext.tsx:127-132 | the initial session satisfies the session invariant |
| Session.SelectReaction | src/context/SimulationContext.tsx:141-155 | an unknown id changes nothing; a known one selects that reaction and empties the tube, result and running flag; temperature, pressure and scheduled completions stay; the invariant is kept |
| Session.AddChemical | src/context/SimulationContext.tsx:157-174 | only the tube changes; it grows by at most one chemical, at the end, keeping its prefix; it grows exactly when the id is known and, in free mode, not already present; the new chemical is the table's; the invariant is kept |
| Session.RemoveChemical | src/context/SimulationContext.tsx:176-179 | only the tube changes; it keeps exactly the chemicals with another id, as an order-preserving subsequence; the invariant is kept |
| Session.ClearTestTube | src/context/SimulationContext.tsx:181-186 | the tube, result and running flag are reset; the reaction, temperature, pressure and scheduled completions remain |
| Session.StartReaction | src/context/SimulationContext.tsx:188-199 | with fewer than two chemicals nothing changes; otherwise the reaction runs at once, one completion is scheduled over a snapshot of the current reaction, tube, temperature and pressure, and the result is untouched |
| Session.StopReaction | src/context/SimulationContext.tsx:458-461 | only the running flag changes, to false |
| Session.SetConditions | src/context/SimulationContext.tsx:130-131 | only the temperature and pressure change |
| Session.Resolution | src/context/SimulationContext.tsx:196-454 | a predefined completion takes the reaction's colour; a free one has gas whenever it has bubbles, and ice exactly below 5 degrees |
| Session.Deliver | src/context/SimulationContext.tsx:272 | writing a result sets it and drops the oldest completion; nothing else changes |
| Session.Complete | src/context/SimulationContext.tsx:196-454 | the timer firing writes the oldest completion's result and nothing else; with none scheduled nothing happens; the invariant holds after |
| Session.OnlyCompleteWritesResult | src/context/SimulationContext.tsx:141-199 | no user operation writes a result: each leaves it as it was or empties it |
| Session.ClearDoesNotCancel | src/context/SimulationContext.tsx:181-199 | clearing the tube after a start leaves the completion scheduled, and when it fires it writes a result into the cleared, stopped session |
| Session.CompletionUsesSnapshot | src/context/SimulationContext.tsx:188-199 | adding a chemical after the start does not change the result the completion writes |
| Session.SelectIdempotent | src/context/SimulationContext.tsx:141-155 | selecting the same reaction twice is selecting it once |
| Session.RemoveUndoesAdd | src/context/SimulationContext.tsx:157-179 | removing the id just added gives the same tube as removing it without the add |
| Session.AddAll | src/components/SimulationArea.tsx:188-197 | adding a list of ids in turn changes only the tube and keeps the invariant |
| Session.AutoFillResolves | src/components/SimulationArea.tsx:188-197 | with a reaction selected, the automatic fill appends exactly the resolvable reactants, in order |
| Outcomes.Chance | src/context/SimulationContext.tsx:226-229 | `cond && Math.random() > p` holds exactly when the condition holds and the draw exceeds `p`; it draws only when the condition holds |
| Outcomes.OrChance | src/context/SimulationContext.tsx:235-240 | `prev \|\| (cond && Math.random() > p)` short-circuits: no draw when `prev` holds or the condition fails |
| Outcomes.BaseIntensity | src/context/SimulationContext.tsx:463-484 | the base intensity lies between 1 and 5 |
| Outcomes.IntensityTiers | src/context/SimulationContext.tsx:470-484 | the base intensity is 5 with an explosion, else 4 with fire, else on a rise 3 above 100 degrees, 2 above 60 and 1.5 otherwise, and 1 without a rise |
| Outcomes.ScaledTiers | src/context/SimulationContext.tsx:463-487 | an explosion's intensity is 5 times `sqrt(totalQuantity / 2)`, a fire's without explosion 4 times it |
| Outcomes.IntensityPriority | src/context/SimulationContext.tsx:470-484 | an explosion never lowers the base intensity and fire never lowers it without one; it is 1 exactly when there is no explosion, no fire and no rise |
| Outcomes.IntensityMonotoneInTemperature | src/context/SimulationContext.tsx:476-484 | a hotter final temperature never gives a smaller base intensity |
| Outcomes.Intensity | src/context/SimulationContext.tsx:463-488 | with a positive quantity and a square root that is positive on positives, the intensity is positive |
| Outcomes.DefaultQuantityIsBase | src/context/SimulationContext.tsx:486-487 | with the default total quantity 2 the intensity equals the base intensity |
| Outcomes.IntensityMonotoneInQuantity | src/context/SimulationContext.tsx:486-487 | a larger total quantity never gives a smaller intensity |
| Outcomes.SoundEffect | src/context/SimulationContext.tsx:490-500 | the sound draws only when there is no explosion, fire or bubbles |
| Outcomes.SoundPriority | src/context/SimulationContext.tsx:490-500 | the sound is that of the first of explosion, fire and bubbles that holds; fizzing happens exactly when none holds and the draw exceeds 0.5 |
| Predefined.PredefinedHeat | src/context/SimulationContext.tsx:209-223 | the final temperature uses at most one draw |
| Predefined.PredefinedHeatDirection | src/context/SimulationContext.tsx:209-223 | with no change the final temperature is the nominal one; a rise never ends below it; a fall never ends above it |
| Predefined.PrecipitateDraw | src/context/SimulationContext.tsx:257-258 | a precipitate appears exactly when authored or when the draw exceeds 0.8 with a solid present; the draw is taken only when not authored |
| Predefined.Hazards | src/context/SimulationContext.tsx:226-230 | authored explosion and fire are kept; an unauthored explosion needs a rise past 130 degrees and unauthored fire a rise past 90 |
| Predefined.Fumes | src/context/SimulationContext.tsx:235-242 | authored smoke is kept and authored bubbles bring gas |
| Predefined.PredefinedHeatEffects | src/context/SimulationContext.tsx:209-240 | explosion or fire forces smoke; authored effects are kept; ice holds exactly when authored or when a fall ends below 5 degrees |
| Predefined.PredefinedLateEffects | src/context/SimulationContext.tsx:254-263 | authored bubbles, precipitate and glow are kept; a precipitate needs authoring or a solid |
| Predefined.PredefinedOutcome | src/context/SimulationContext.tsx:199-273 | the result copies the authored colour, temperature direction and glow colour; its formula is the authored one or the composed one; at most 11 draws are used |
| Predefined.PredefinedKeepsAuthoredEffects | src/context/SimulationContext.tsx:226-263 | every authored effect shows in the result, and explosion or fire brings smoke |
| Predefined.PredefinedEffectConditions | src/context/SimulationContext.tsx:226-258 | an effect that is not authored appears only under its condition: ice exactly when a fall ends below 5, explosion above 130, fire above 90, a precipitate with a solid |
| Predefined.PredefinedIntensityAndSound | src/context/SimulationContext.tsx:244-246 | the intensity uses the default quantity 2, so it is 5 with an explosion and 4 with fire but no explosion; the sound follows explosion, fire and bubbles in that order |
| Predefined.PredefinedDrawIndependent | src/context/SimulationContext.tsx:202-265 | colour, temperature direction, glow colour and formula are the same whatever the draws |
| Predefined.BubblesWithoutGas | src/context/SimulationContext.tsx:240-256 | for an unheated reaction authoring neither bubbles nor gas at low pressure, a failing first draw and a passing third give bubbles without gas |
| FreeMode.TotalQuantity | src/context/SimulationContext.tsx:291 | the total of `quantity \|\| 1` over well-formed chemicals is non-negative, and positive for a non-empty tube |
| FreeMode.QuantityFactor | src/context/SimulationContext.tsx:326 | the quantity factor never exceeds 3; it is positive for a positive total, and is either 3 or half the total |
| FreeMode.TotalQuantityAppend | src/context/SimulationContext.tsx:291 | one more chemical adds its quantity, or 1 when it has none, to the total quantity |
| FreeMode.TraitsAppend | src/context/SimulationContext.tsx:277-291 | every category and state flag of a tube with one more chemical is the flag of the tube or of that chemical, and the totals add, so the traits do not depend on the order of adding |
| FreeMode.MixedColor | src/context/SimulationContext.tsx:300-321 | acid with base gives `#e6f7ff`; with two or more chemicals the colour is a lower-case `#rrggbb` |
| FreeMode.Rise | src/context/SimulationContext.tsx:330-356 | a temperature draw consumes one draw and its scaled value lies between the scaled bounds of the range |
| FreeMode.FreeHeat | src/context/SimulationContext.tsx:328-357 | the temperature rule uses at most two draws |
| FreeMode.FreeTemperature | src/context/SimulationContext.tsx:328-367 | the final temperature, with the pressure adjustment, uses at most two draws |
| FreeMode.FreeHeatDirection | src/context/SimulationContext.tsx:328-357 | before the pressure adjustment a rise ends above the start, a fall ends no higher than the larger of the start and 0, and no change keeps the start |
| FreeMode.PressureAdjustRaises | src/context/SimulationContext.tsx:359-367 | the pressure adjustment never lowers the temperature, and raises it exactly for a rise under high pressure or a hot liquid under low pressure |
| FreeMode.FreeTemperatureDirection | src/context/SimulationContext.tsx:328-367 | a rise ends above the start; a fall ends no higher than the larger of the start and 0 at every pressure |
| FreeMode.BubblesAndGas | src/context/SimulationContext.tsx:369-380 | bubbles imply gas, and gas holds exactly with bubbles, a gas, a liquid above 85 degrees, or pressure below 0.7 |
| FreeMode.Smoke | src/context/SimulationContext.tsx:381-388 | above 85 degrees or with highly reactive chemicals there is smoke |
| FreeMode.Precipitate | src/context/SimulationContext.tsx:389-393 | acid with base always gives a precipitate |
| FreeMode.Fire | src/context/SimulationContext.tsx:394-399 | an alkali metal with water always burns; fire needs one of its listed conditions |
| FreeMode.Glow | src/context/SimulationContext.tsx:402-407 | hydrogen peroxide with a chloride always glows without a draw; no glow means the last, unconditional draw was at most 0.85 |
| FreeMode.GlowColor | src/context/SimulationContext.tsx:408-419 | the glow colour is always a lower-case `#rrggbb`; copper gives cyan, and the yellow default holds exactly when no listed metal is present |
| FreeMode.Explosion | src/context/SimulationContext.tsx:421-427 | above 140 degrees there is always an explosion |
| FreeMode.FreeFlags | src/context/SimulationContext.tsx:369-427 | bubbles imply gas; above 140 degrees an explosion; acid with base a precipitate; above 85 degrees or highly reactive, smoke |
| FreeMode.FreeOutcome | src/context/SimulationContext.tsx:276-454 | the free result has gas whenever it has bubbles, ice exactly below 5 degrees, an explosion above 140, the temperature change and final temperature of the free temperature rules, an intensity of 5 times `sqrt(totalQuantity / 2)` with an explosion and 4 times it with fire alone, a well-formed glow colour, the mixed colour, and the reactants' formula with the spontaneous narrative |
| FreeMode.FreeResultDirection | src/context/SimulationContext.tsx:328-367 | the written result's temperature ends above the start after an increase, no higher than the larger of the start and 0 after a decrease, and at the start with no change at normal pressure |
| FreeMode.FreeIntensityAndSound | src/context/SimulationContext.tsx:428-430 | for a non-empty tube the intensity is positive and the sound follows explosion, fire, bubbles |
| FreeMode.MixedColorFallsBackToBlend | src/context/SimulationContext.tsx:300-321 | without a recognised pairing the colour is the blend, which lies channel by channel between the chemicals' colours |
| Formulas.ChemicalFormula | src/context/SimulationContext.tsx:81-86 | no chemicals give the empty text; otherwise every chemical's label occurs in it |
| Formulas.SpontaneousTail | src/context/SimulationContext.tsx:104-121 | the spontaneous narrative always contains the arrow |
| Formulas.SpontaneousTailIsFirstMatch | src/context/SimulationContext.tsx:104-121 | the `if` chain is the first matching entry of a pattern table, else the fallback |
| Formulas.FirstMatchWins | src/context/SimulationContext.tsx:104-121 | a matching pattern wins over every later one |
| Formulas.ReactionFormula | src/context/SimulationContext.tsx:88-124 | the formula starts with the reactants; with products it is reactants, arrow, products; with none and spontaneous it ends in the narrative; it is the reactants alone exactly when there are no products and it is not spontaneous |
| Formulas.FormulaMentionsEverything | src/context/SimulationContext.tsx:88-124 | every reactant's and every product's label occurs in the formula |
| Formulas.ChemicalEquation | src/components/SimulationArea.tsx:269-283 | no reaction gives the empty text; otherwise the line contains the arrow |
| Formulas.ResolvedLabels | src/components/SimulationArea.tsx:272-275 | when every id resolves, the labels of the resolved chemicals are the labels of the ids |
| Formulas.EquationIsFormula | src/components/SimulationArea.tsx:269-283 | with resolvable reactants and products the equation line is the reaction formula; without products it ends in the bare arrow |
| Colors.Hex2 | src/context/SimulationContext.tsx:527 | a channel prints as two lower-case hex digits that read back as that channel |
| Colors.EncodeHex | src/context/SimulationContext.tsx:527 | an encoded colour is a lower-case `#rrggbb` |
| Colors.DecodeEncode | src/context/SimulationContext.tsx:516-527 | decoding an encoded colour gives the colour back |
| Colors.EncodeDecode | src/context/SimulationContext.tsx:516-527 | re-encoding a decoded `#RRGGBB` gives its lower-case spelling |
| Colors.ParseHexSlice | src/components/TestTube.tsx:249-251 | two hex digits read as their value; a digit followed by a non-digit reads as that digit; `0x` is NaN; a leading white-space character or plus sign is skipped; a number is read only when the slice holds a hex digit |
| Colors.AddCapped | src/components/TestTube.tsx:253-255 | lightening never darkens a channel, and a NaN channel stays NaN |
| Colors.LightenIsBrighten | src/components/TestTube.tsx:247-260 | on a well-formed colour `lightenColor` is the lower-case encoding of each channel raised by `amount` and capped at 255 |
| Colors.LightenTwice | src/components/TestTube.tsx:247-260 | lightening by `a` then `b` is lightening by `a + b` |
| Colors.LightenByZero | src/components/TestTube.tsx:247-260 | lightening by 0 only lower-cases the spelling |
| Colors.NonHexPassesThrough | src/components/TestTube.tsx:237-260 | text not starting with `#` passes through both helpers unchanged |
| Colors.WithOpacityIsRgba | src/components/TestTube.tsx:237-245 | on a well-formed colour the output is `rgba(r, g, b, a)` of its decoded channels |
| Colors.WithOpacityRoundTrip | src/components/TestTube.tsx:237-245 | parsing the `rgba()` text back gives the decoded colour and the opacity |
| Mixing.FirstWithColor | src/context/SimulationContext.tsx:512 | the lookup by colour returns the first selected chemical of that colour, and fails only when none has it |
| Mixing.ColorWeightPositive | src/context/SimulationContext.tsx:512-514 | every colour's weight is positive for well-formed chemicals |
| Mixing.SumBetween | src/context/SimulationContext.tsx:515-520 | with positive weights the weighted sum lies between the smallest and largest value times the total weight |
| Mixing.AverageChannel | src/context/SimulationContext.tsx:523-525 | a rounded weighted channel average lies between the smallest and largest input channel |
| Mixing.AverageColor | src/context/SimulationContext.tsx:516-525 | the averaged colour lies channel by channel between the inputs |
| Mixing.BlendColors | src/context/SimulationContext.tsx:502-528 | no colours give `#FFFFFF`, one is returned unchanged, two or more give a lower-case `#rrggbb` lying channel by channel between the inputs |
| Mixing.BlendIsOwnWeightBlend | src/context/SimulationContext.tsx:511-514 | when chemicals of one colour share a weight, the first-of-colour lookup gives the blend that weighs each chemical by its own density and quantity |
| Mixing.BlendIsAverage | src/context/SimulationContext.tsx:502-528 | the blend decodes to the weighted average colour under the source's weights |
| Mixing.BlendChannel | src/context/SimulationContext.tsx:515-525 | each channel of the blend is the rounded weighted average of that channel |
| Mixing.EqualWeightsGiveMean | src/context/SimulationContext.tsx:515-525 | two chemicals of equal weight blend to the rounded mean of their channels |
| Tube.Insert | src/components/TestTube.tsx:221 | insertion into a density-sorted list keeps it sorted, adds one element and brings in nothing but the inserted portion |
| Tube.InsertPermutes | src/components/TestTube.tsx:221 | insertion adds exactly the inserted portion |
| Tube.SortByDensity | src/components/TestTube.tsx:221 | the sorted portions are in ascending density and are a permutation of the input |
| Tube.SortIsStable | src/components/TestTube.tsx:221 | portions of equal density keep their relative order |
| Tube.SortKeepsVolume | src/components/TestTube.tsx:221-223 | sorting keeps the total volume |
| Tube.SortKeepsNonNegative | src/components/TestTube.tsx:221 | sorting keeps every volume non-negative |
| Tube.ShareAdds | src/components/TestTube.tsx:227 | shares of one total add like their volumes |
| Tube.ShareWhole | src/components/TestTube.tsx:227 | the whole total is the whole 80 percent |
| Tube.Height | src/components/TestTube.tsx:227 | a layer's height is its share capped at 80, and lies in [0, 80] for a portion of the total |
| Tube.StackFrom | src/components/TestTube.tsx:225-234 | one layer per portion, each top 100 minus the running height through it |
| Tube.StackHeights | src/components/TestTube.tsx:225-234 | the heights of a stack add up to its volume's share |
| Tube.PortionWithinTotal | src/components/TestTube.tsx:223 | one non-negative portion never exceeds the total |
| Tube.Layers | src/components/TestTube.tsx:221-235 | the layers are the portions sorted by density, one layer per portion; they are undefined exactly when there are portions but no volume |
| Tube.LayersFillTheTube | src/components/TestTube.tsx:221-235 | with a positive total every height lies in [0, 80], the heights add up to 80, the tops never rise and the last is at 20 |
| Tube.StackFillsEighty | src/components/TestTube.tsx:225-234 | a stack of its whole total fills exactly 80 percent |
| Tube.HighTempGlow | src/components/TestTube.tsx:262-264 | the glow shows exactly above 60 degrees, its intensity is at most 1, and its hue lies in [10, 30) when shown |
| Tube.GlowMonotone | src/components/TestTube.tsx:262-264 | a hotter tube glows at least as strongly and at least as red |
| Area.DescribedState | src/components/SimulationArea.tsx:98-112 | no state unless a result exists and the reaction runs; then gas exactly with gas or bubbles; solid only with a precipitate or ice |
| Area.ResultState | src/components/SimulationArea.tsx:391 | the reacting tube's substance is gas exactly with gas, and solid exactly with a precipitate and no gas |
| Area.DescriptionDiverges | src/components/SimulationArea.tsx:98-112 | the description and the tube disagree exactly for bubbles without gas, or ice without gas or precipitate |
| Area.FreeDescriptionDiverges | src/components/SimulationArea.tsx:98-112 | after a free-mode completion they disagree exactly for ice without gas or precipitate |
| Area.Details | src/components/SimulationArea.tsx:285-298 | the details are no more than the ids and only of listed ids |
| Area.ReactantDetails | src/components/SimulationArea.tsx:285-298 | no reaction gives no details; otherwise at most one per reactant |
| Area.DetailsFollowResolve | src/components/SimulationArea.tsx:285-298 | the details are those of the resolved chemicals, one each, in order; with every id known there is one per reactant |
| Area.ReactedVolume | src/components/SimulationArea.tsx:396 | the reacting volume is non-negative, and positive for a non-empty tube |
| Area.TubeSubstances | src/components/SimulationArea.tsx:383-398 | while reacting with a result the tube shows one density-1 substance of the result's colour; otherwise one portion per chemical |
| Area.ReactedVolumeIsTotal | src/components/SimulationArea.tsx:383-398 | the synthetic portion holds exactly the volume the separate portions held together |
| Area.TubeLayersFill | src/components/SimulationArea.tsx:383-398 | a non-empty tube's substances always have layers that fill the tube |
| Area.BrokenTubeColor | src/components/SimulationArea.tsx:376-380 | the broken tube's colour is never empty and is the result's colour when it has one |
| Area.BrokenTubeKeepsColor | src/components/SimulationArea.tsx:376-398 | the broken tube takes the same colour the reacting tube's last substance shows |
| Area.BeginPouring | src/components/SimulationArea.tsx:118-127 | the walk starts at index 0 exactly under its guard and is otherwise untouched |
| Area.PourStep | src/components/SimulationArea.tsx:130-151 | a known reactant is poured; a missing one is skipped; past the last the walk goes idle |
| Area.PourComplete | src/components/SimulationArea.tsx:154-162 | a finished pour adds that chemical and moves to the next reactant |
| Area.EventsKeepConsistent | src/components/SimulationArea.tsx:118-162 | each pouring event keeps the index in range and the poured chemical the one its reactant names |
| Area.Walk | src/components/SimulationArea.tsx:118-162 | the walk ends idle and changes nothing but the tube |
| Area.WalkAddsTheRest | src/components/SimulationArea.tsx:130-162 | from any point the rest of the walk adds exactly the chemical being poured and the remaining known reactants, in order |
| Area.SequentialPouringFills | src/components/SimulationArea.tsx:118-197 | sequential pouring into an empty tube leaves exactly the resolvable reactants in order, the same tube the automatic fill gives |
| Area.PouringRestarts | src/components/SimulationArea.tsx:118-162 | after a walk the begin effect starts a new one exactly when no reactant resolved, and then from the same empty tube, so the walk repeats without end |
| Area.HandleStartReaction | src/components/SimulationArea.tsx:303-318 | the handler, which nothing calls, changes nothing without a reaction or with an empty tube; the invariant is kept |
| Area.StartHandlerGate | src/components/SimulationArea.tsx:303-318 | the handler changes the session exactly when a reaction is selected and the tube holds two or more chemicals, and then the reaction runs |
| Area.ToggleReaction | src/components/ReactionControls.tsx:132-163 | the start/stop button stops a running reaction and otherwise calls `startReaction` unguarded; the invariant is kept |
| Area.ToggleGate | src/components/ReactionControls.tsx:132-200 | a press stops a running reaction and changes nothing else; on an idle session it starts exactly with two or more chemicals, whether or not a reaction is selected; a press changes the session exactly when `canStartReaction` or a running reaction enables the button; two presses leave the session as it was but for the scheduled completion |
| Area.Settle | src/components/SimulationArea.tsx:199-223 | when the reaction is not running the broken tube is cleared; while it runs the flag stays |
| Area.BreakTimer | src/components/SimulationArea.tsx:199-218 | the 1.5 s timer breaks the tube exactly when the session is running an explosive result, and touches nothing else |
| Area.StopTimer | src/components/SimulationArea.tsx:199-223 | the 8 s timer stops an exploding reaction, which clears the broken tube; otherwise it has been cleared and does nothing |
| Area.ExplosionKeepsBrokenWhileReacting | src/components/SimulationArea.tsx:199-223 | every session event and both timers keep the tube broken only while a reaction runs; an unbroken tube breaks exactly on an explosive running result, and the explosion animation (:402) gives way to the broken tube |
| Area.ExplosionRunsItsCourse | src/components/SimulationArea.tsx:199-223 | left alone, an explosion breaks the tube, then stops the reaction with its result kept and the tube whole again; the start/stop button ends it the same way |
| Seqs.Keep | src/pages/Reactions.tsx:160-161 | a filter keeps exactly the elements satisfying the predicate, as an order-preserving subsequence |
| Seqs.KeepKeep | src/pages/ElementaryReactions.tsx:120-131 | two filters in sequence keep what their conjunction keeps, whichever runs first |
| Seqs.SubsequenceTransitive | src/components/ChemicalSelector.tsx:31-48 | a subsequence of a subsequence is a subsequence |
| Filters.ReactionsPage | src/pages/Reactions.tsx:160-206 | the listed reactions are a subsequence of the table, exactly those passing category, effect and search |
| Filters.ReactionsPageDefaults | src/pages/Reactions.tsx:160-206 | with every control at its default the whole table is listed |
| Filters.ReactionsPageCategory | src/pages/Reactions.tsx:163-165 | with a category other than `all` every listed id starts with it |
| Filters.ReactionsPageEffect | src/pages/Reactions.tsx:168-192 | each effect filter alone keeps exactly the reactions with that flag, in order |
| Filters.ElementaryPage | src/pages/ElementaryReactions.tsx:120-131 | the listed reactions are a subsequence of the table, exactly those in the category and matching the term |
| Filters.ElementaryPageIsOneFilter | src/pages/ElementaryReactions.tsx:120-131 | the two filters are one filter by both conditions, in either order |
| Filters.ElementaryEmptyTerm | src/pages/ElementaryReactions.tsx:123 | an empty term leaves only the category filter |
| Filters.DisplacementExcludesDouble | src/pages/ElementaryReactions.tsx:121 | the `displacement` category never lists a `double-displacement` id |
| Filters.ChemicalPicker | src/components/ChemicalSelector.tsx:31-48 | the picker lists a subsequence of the table, exactly the chemicals matching the term and the state |
| Filters.PickerDefaults | src/components/ChemicalSelector.tsx:32-43 | no term and every state list the whole table |
| Filters.PickerIsOneFilter | src/components/ChemicalSelector.tsx:31-48 | search then state is one filter by both, and equals state then search |
| Fixtures.ShippedChemicalsWellFormed | src/data/chemicals.ts:3-681 | every shipped chemical has a `#RRGGBB` colour, a positive density and a positive quantity when one is given |
| Fixtures.LeadNitrateMissing | src/data/reactions.ts:448 | the chemical table has no `pbno32` |
| Fixtures.ShippedReactionsGood | src/data/reactions.ts:3-648 | no shipped reaction sets fire or glow, and the four unstartable reactions list the reactants shown in the table |
| Fixtures.FireAndGlowListNothing | src/pages/Reactions.tsx:185-190 | with the shipped table the `fire` and `glow` effect filters list nothing |
| Fixtures.FewReactantsNeverStart | src/components/SimulationArea.tsx:188-197 | a reaction whose reactants resolve to fewer than two chemicals cannot be started after the automatic fill or the sequential pour, neither by the session, nor by the start/stop button, nor by the unreferenced handler |
| Fixtures.ShippedFewReactants | src/data/reactions.ts:339-648 | `decomposition-1`, `decomposition-2`, `decomposition-3` and `double-displacement-2` resolve to fewer than two chemicals |
| Fixtures.ShippedUnstartable | src/data/reactions.ts:339-648 | none of those four reactions can be started from its own page after the sequential pour (the page's mode, src/pages/Simulation.tsx:238) or the automatic fill, by the session, the start/stop button or the unreferenced handler |
| Fixtures.NeutralisationFormula | src/context/SimulationContext.tsx:114-117 | hydrochloric acid with sodium hydroxide in free mode is written `HCl + NaOH → Salt + H₂O` |
| Fixtures.NeutralisationWarms | src/context/SimulationContext.tsx:328-330 | hydrochloric acid with sodium hydroxide in free mode always reports an increase and ends warmer than it started |
| Fixtures.BlendWeighsByFirstOfColour | src/context/SimulationContext.tsx:511-514 | carbon, sodium chloride and copper(II) oxide blend to red 82: copper(II) oxide is weighed by carbon's density |
| Fixtures.OwnWeightsBlendDifferently | src/context/SimulationContext.tsx:511-514 | weighing each chemical by its own density would give red 51, so the two blends differ |
| Fixtures.PredefinedBubblesWithoutGas | src/context/SimulationContext.tsx:240-256 | `precipitation-1` at 0.5 atmospheres can bubble without gas, because bubbles and gas are drawn separately |

## Left out

- Rendering, animation and audio: the JSX of the components, particle
  geometry, framer-motion, `HTMLAudioElement` calls and the sound wiring of
  the simulation area. None of it feeds back into the state, except the
  explosion effect's two timers, which are modelled (`Area.BreakTimer`,
  `Area.StopTimer`).
- Logging, toasts and translated strings. The state description is modelled
  as the state it names, not the translated sentence.
- Time. The 1500 ms completion timer is the explicit `Session.Complete`
  event, the pour animation is the `Area.PourComplete` event, and the
  explosion's 1.5 s break and 8 s stop timers are the `Area.BreakTimer` and
  `Area.StopTimer` events. How long each takes, and so the order in which
  they fire, is not modelled; the explosion sound is left out.
- Probabilities. `Math.random()` is an explicit sequence of draws; only facts
  that hold for every draw are stated.
- Floating point. Temperatures, densities, volumes and weights are reals, and
  `toFixed` and the decimal printing of numbers are not modelled. The opacity
  of `getColorWithOpacity` is passed in as the text JavaScript would print.
- Outcomes.Intensity: `Math.sqrt` is a parameter. The lemmas about it assume
  only that it fixes 1, preserves order and is positive on positives.
- Text.ToLower: case folding covers ASCII letters only; the Arabic texts have
  no case, so the filters are unaffected for the shipped data.
- Tube.Layers: the NaN heights JavaScript computes for an all-empty tube are
  modelled as no layers at all.
- Area.Walk: `isPouringChemical` and `currentPouringChemical` are merged into
  one optional chemical, which the source always sets and clears together.
  The walk assumes the effects run one at a time, each firing as soon as it
  is enabled.
- The clean-up effect that clears the tube when the simulation area mounts,
  and the automatic selection of a reaction from the route, are left out:
  both are single calls of modelled session operations.
- The free-mode rules that name `nh4no3`, `starch`, `luminol`, `h3bo3`,
  `ba`, `pbcl2` and `bacl2` are modelled. They cannot fire through the
  session, because the chemical table has none of these ids.
- In `Tables` the chemicals' English names are copied, but their Arabic
  names are left empty, and so are the reactions' names and descriptions in
  both languages. No property proved here depends on them; the search
  filters are proved for any table.
- The control guards of the other components and the pages outside the
  simulation are not modelled. They only call the session operations or
  restate its two-chemical gate. The 100 ms pause of the start/stop button
  before it starts a reaction is not modelled.
- Session.AddChemical: each session operation sees the state the previous
  one left. In the source, the duplicate check of `addChemical` reads the
  tube of the last render while the append is functional, so two free-mode
  adds of one id between renders both append. The model does not show this.
- Session.StartReaction: the two-chemical gate and the snapshot read the
  state the previous operation left. The source reads the tube of the last
  render, which lags behind adds made since.
- Colors.ParseHexSlice: `parseInt(s, 16)` gives a negative number for a
  minus sign before a non-zero digit; channels are never negative, so that
  case is NaN here. Only a malformed `#` colour reaches it.
- Area.PouringRestarts: the endless restart is stated for one round; that
  no shipped reaction triggers it is not proved.

=== FILE: area.dfy ===
/** The reaction view (src/components/SimulationArea.tsx): what it derives
    from the session for display (the state-change word, the reactant
    details, the substances handed to the test tube, the colour of a broken
    tube), the sequential pouring of a selected reaction's reactants, its
    unreferenced start handler, and the start/stop toggle of the reaction
    controls (src/components/ReactionControls.tsx). */
module Area {
  import opened Text
  import opened Catalogue
  import opened Outcomes
  import opened FreeMode
  import opened Session
  import opened Tube

  /** The state word of `getStateChangeDescription` (:98-112): nothing unless
      a result exists and the reaction is running; then gas for gas or
      bubbles, else solid for a precipitate or ice, else liquid. */
  function DescribedState(result: Option<Outcome>, reacting: bool): (r: Option<PhysState>)
    ensures r.None? <==> result.None? || !reacting
    ensures r == Some(Gas) <==> result.Some? && reacting && (result.value.hasGas || result.value.hasBubbles)
    ensures r == Some(Solid) ==> result.value.hasPrecipitate || result.value.hasIce
  {
    match result
    case None => None
    case Some(o) =>
      if !reacting then None
      else if o.hasGas || o.hasBubbles then Some(Gas)
      else if o.hasPrecipitate || o.hasIce then Some(Solid)
      else Some(Liquid)
  }

  /** The state of the synthetic substance a reacting tube shows (:391):
      gas, then solid for a precipitate, else liquid. Bubbles and ice play no part. */
  function ResultState(o: Outcome): (r: PhysState)
    ensures r == Gas <==> o.hasGas
    ensures r == Solid <==> !o.hasGas && o.hasPrecipitate
  {
    if o.hasGas then Gas else if o.hasPrecipitate then Solid else Liquid
  }

  /** The words under the tube and the tube itself disagree about the state
      exactly when there is no gas but bubbles, or no gas, no precipitate but ice. */
  lemma DescriptionDiverges(o: Outcome)
    ensures DescribedState(Some(o), true) != Some(ResultState(o)) <==>
      !o.hasGas && (o.hasBubbles || (!o.hasPrecipitate && o.hasIce))
  {
  }

  /** In free mode bubbles always come with gas, so there the two disagree
      only for ice without gas or precipitate. */
  lemma FreeDescriptionDiverges(sel: seq<Chemical>, temperature: real, pressure: real, g: Rng, sqrt: real -> real)
    requires HasDraws(g, FreeDraws) && AllWellFormed(sel)
    ensures var o := FreeOutcome(sel, temperature, pressure, g, sqrt).0;
      DescribedState(Some(o), true) != Some(ResultState(o)) <==> o.hasIce && !o.hasGas && !o.hasPrecipitate
  {
    var o := FreeOutcome(sel, temperature, pressure, g, sqrt).0;
    DescriptionDiverges(o);
  }

  /** One row of `getReactantDetails` (:285-298): the name in the chosen
      language and `formula || id`. */
  datatype Detail = Detail(id: string, name: string, state: PhysState, color: string, formula: string)

  function DetailOf(c: Chemical, english: bool): Detail {
    Detail(c.id, if english then c.name else c.nameAr, c.state, c.color, FormulaOr(c, c.id))
  }

  /** The ids looked up in order; an id the table lacks yields `null`, which
      `filter(Boolean)` drops. */
  function Details(table: seq<Chemical>, ids: seq<string>, english: bool): (r: seq<Detail>)
    ensures |r| <= |ids|
    ensures forall d :: d in r ==> d.id in ids
  {
    if ids == [] then []
    else
      var rest := Details(table, ids[1..], english);
      match FindChemical(table, ids[0])
      case Some(c) => [DetailOf(c, english)] + rest
      case None => rest
  }

  /** `getReactantDetails()`: empty without a reaction. */
  function ReactantDetails(table: seq<Chemical>, reaction: Option<Reaction>, english: bool): (r: seq<Detail>)
    ensures reaction.None? ==> r == []
    ensures reaction.Some? ==> |r| <= |reaction.value.reactants|
  {
    match reaction
    case None => []
    case Some(rx) => Details(table, rx.reactants, english)
  }

  /** The detail of every chemical of a list, in order. */
  function DetailsOf(cs: seq<Chemical>, english: bool): (r: seq<Detail>)
    ensures |r| == |cs|
  {
    seq(|cs|, i requires 0 <= i < |cs| => DetailOf(cs[i], english))
  }

  lemma DetailsOfCons(c: Chemical, cs: seq<Chemical>, english: bool)
    ensures DetailsOf([c] + cs, english) == [DetailOf(c, english)] + DetailsOf(cs, english)
  {
    var l := DetailsOf([c] + cs, english);
    var r := [DetailOf(c, english)] + DetailsOf(cs, english);
    forall i | 0 <= i < |l| ensures l[i] == r[i] {
      if i > 0 {
        assert ([c] + cs)[i] == cs[i - 1];
      }
    }
  }

  lemma {:induction false} DetailsAreResolved(table: seq<Chemical>, ids: seq<string>, english: bool)
    ensures Details(table, ids, english) == DetailsOf(Resolve(table, ids), english)
    decreases |ids|
  {
    if ids != [] {
      DetailsAreResolved(table, ids[1..], english);
      var resolved := Resolve(table, ids[1..]);
      match FindChemical(table, ids[0])
      case Some(c) =>
        assert Resolve(table, ids) == [c] + resolved;
        DetailsOfCons(c, resolved, english);
      case None =>
        assert Resolve(table, ids) == resolved;
    }
  }

  /** The details are those of the chemicals the reactant ids resolve to,
      one per resolved chemical and in the same order; with every id
      resolvable there is one per reactant. */
  lemma DetailsFollowResolve(table: seq<Chemical>, ids: seq<string>, english: bool)
    ensures |Details(table, ids, english)| == |Resolve(table, ids)|
    ensures forall i :: 0 <= i < |Resolve(table, ids)| ==>
      Details(table, ids, english)[i] == DetailOf(Resolve(table, ids)[i], english)
    ensures AllResolve(table, ids) ==> |Details(table, ids, english)| == |ids|
  {
    DetailsAreResolved(table, ids, english);
  }

  /** A chemical in the tube as a portion of `(quantity || 1) * 10`. */
  function Portions(sel: seq<Chemical>): seq<Portion> {
    seq(|sel|, i requires 0 <= i < |sel| => Portion(sel[i], EffectiveQuantity(sel[i]) * 10.0))
  }

  /** `selectedChemicals.reduce((sum, chem) => sum + (chem.quantity || 1) * 10, 0)`,
      folded from the left as `reduce` does. */
  function ReactedVolume(sel: seq<Chemical>): (v: real)
    ensures AllWellFormed(sel) ==> v >= 0.0
    ensures AllWellFormed(sel) && sel != [] ==> v > 0.0
    decreases |sel|
  {
    if sel == [] then 0.0
    else
      var init := sel[..|sel| - 1];
      assert AllWellFormed(sel) ==> AllWellFormed(init) by {
        if AllWellFormed(sel) {
          forall i | 0 <= i < |init| ensures WellFormed(init[i]) {
            assert init[i] == sel[i];
          }
        }
      }
      ReactedVolume(init) + EffectiveQuantity(sel[|sel| - 1]) * 10.0
  }

  /** The one substance of a reacting tube (:386-393): density 1 and the
      result's colour, or `'#cccccc'` without one. */
  function ResultSubstance(o: Outcome): Chemical {
    Chemical("reaction-result", "Reaction Result", "نتيجة التفاعل",
      if o.color != "" then o.color else "#cccccc", 1.0, ResultState(o), None, "")
  }

  /** The `substances` handed to the test tube (:383-398): while reacting
      with a result, one synthetic portion holding the whole volume;
      otherwise every chemical in the tube as its own portion. */
  function TubeSubstances(sel: seq<Chemical>, reacting: bool, result: Option<Outcome>): (r: seq<Portion>)
    ensures reacting && result.Some? ==>
      |r| == 1 && r[0].substance.id == "reaction-result" && r[0].substance.state == ResultState(result.value) &&
      r[0].volume == ReactedVolume(sel)
    ensures !(reacting && result.Some?) ==>
      (|r| == |sel| &&
       forall i :: 0 <= i < |sel| ==> r[i].substance == sel[i] && r[i].volume == EffectiveQuantity(sel[i]) * 10.0)
  {
    if reacting && result.Some? then [Portion(ResultSubstance(result.value), ReactedVolume(sel))]
    else Portions(sel)
  }

  lemma {:induction false} TotalVolumeAppend(ps: seq<Portion>, x: Portion)
    ensures TotalVolume(ps + [x]) == TotalVolume(ps) + x.volume
    decreases |ps|
  {
    if ps != [] {
      assert (ps + [x])[1..] == ps[1..] + [x];
      TotalVolumeAppend(ps[1..], x);
    }
  }

  /** The synthetic portion holds exactly the volume the unreacted portions
      held together. */
  lemma {:induction false} ReactedVolumeIsTotal(sel: seq<Chemical>)
    ensures ReactedVolume(sel) == TotalVolume(Portions(sel))
    decreases |sel|
  {
    if sel != [] {
      var init := sel[..|sel| - 1];
      var last := Portion(sel[|sel| - 1], EffectiveQuantity(sel[|sel| - 1]) * 10.0);
      ReactedVolumeIsTotal(init);
      assert Portions(sel) == Portions(init) + [last];
      TotalVolumeAppend(Portions(init), last);
    }
  }

  /** With a well-formed, non-empty tube the layers exist and fill the tube,
      reacting or not. */
  lemma TubeLayersFill(sel: seq<Chemical>, reacting: bool, result: Option<Outcome>)
    requires AllWellFormed(sel) && sel != []
    ensures NonNegativeVolumes(TubeSubstances(sel, reacting, result))
    ensures Layers(TubeSubstances(sel, reacting, result)).Some?
    ensures FillsTheTube(Layers(TubeSubstances(sel, reacting, result)).value)
  {
    var ps := TubeSubstances(sel, reacting, result);
    if reacting && result.Some? {
      assert TotalVolume(ps) == ps[0].volume + TotalVolume(ps[1..]);
    } else {
      ReactedVolumeIsTotal(sel);
      forall i | 0 <= i < |ps| ensures ps[i].volume >= 0.0 {
        assert WellFormed(sel[i]);
      }
    }
    LayersFillTheTube(ps);
  }

  /** The colour handed to the broken tube (:376-380): `reactionResult?.color || '#cccccc'`. */
  function BrokenTubeColor(result: Option<Outcome>): (c: string)
    ensures c != ""
    ensures result.Some? && result.value.color != "" ==> c == result.value.color
  {
    if result.Some? && result.value.color != "" then result.value.color else "#cccccc"
  }

  /** It is the colour the reacting tube's last (and only) substance has, so
      breaking the tube keeps its colour. */
  lemma BrokenTubeKeepsColor(sel: seq<Chemical>, result: Option<Outcome>)
    requires result.Some?
    ensures BrokenTubeColor(result) == BrokenColor(TubeSubstances(sel, true, result))
  {
  }

  /** The pouring animation's state (:93-95): the index into the reactants,
      `-1` when idle, and the chemical being poured; `isPouringChemical` is
      set and cleared together with `currentPouringChemical`, so the
      option's presence stands for both. */
  datatype Pour = Pour(index: int, current: Option<Chemical>)

  const Idle: Pour := Pour(-1, None)

  /** The effect at :118-127: with sequential pouring on, a reaction
      selected, an empty tube, some reactants and nothing going on, the walk
      starts at index 0. */
  function BeginPouring(s: State, sequential: bool, p: Pour): (r: Pour)
    ensures r == p || r == Pour(0, None)
    ensures r != p <==>
      s.reaction.Some? && s.selected == [] && sequential && |s.reaction.value.reactants| > 0 &&
      p.index == -1 && p.current.None?
  {
    if s.reaction.None? || s.selected != [] || !sequential then p
    else if |s.reaction.value.reactants| > 0 && p.index == -1 && p.current.None? then Pour(0, None)
    else p
  }

  /** The effect at :130-151: with a reactant left, look it up and pour it,
      or skip it when the table lacks it (a negative index reads `undefined`,
      which no id equals); past the last reactant go back to idle. */
  function PourStep(table: seq<Chemical>, s: State, sequential: bool, p: Pour): (r: Pour)
    ensures r.current.Some? && p.current.None? ==>
      s.reaction.Some? && r.index == p.index && 0 <= p.index < |s.reaction.value.reactants| &&
      r.current == FindChemical(table, s.reaction.value.reactants[p.index])
    ensures r != p && r.current.None? ==> r == Pour(p.index + 1, None) || r == Idle
  {
    if s.reaction.None? || !sequential || p.index == -1 || p.current.Some? then p
    else
      var ids := s.reaction.value.reactants;
      if p.index < |ids| then
        if p.index < 0 then Pour(p.index + 1, None)
        else
          match FindChemical(table, ids[p.index])
          case Some(c) => Pour(p.index, Some(c))
          case None => Pour(p.index + 1, None)
      else Idle
  }

  /** `handlePourComplete` (:154-162): add the poured chemical by id, stop
      pouring and move to the next reactant. */
  function PourComplete(cat: Catalogue, s: State, p: Pour): (r: (State, Pour))
    ensures r.0.(selected := s.selected) == s
    ensures p.current.None? || s.reaction.None? ==> r == (s, p)
    ensures p.current.Some? && s.reaction.Some? && FindChemical(cat.chemicals, p.current.value.id) == p.current ==>
      r == (s.(selected := s.selected + [p.current.value]), Pour(p.index + 1, None))
    ensures Inv(cat, s) ==> Inv(cat, r.0)
  {
    if p.current.Some? && s.reaction.Some? then
      (AddChemical(cat, s, p.current.value.id), Pour(p.index + 1, None))
    else (s, p)
  }

  /** The pouring states the walk can be in: the index lies in
      [-1, |reactants|], and a chemical is poured only at a real reactant,
      the chemical that reactant's id finds. */
  predicate Consistent(table: seq<Chemical>, rx: Reaction, p: Pour) {
    -1 <= p.index <= |rx.reactants| &&
    (p.current.Some? ==> 0 <= p.index < |rx.reactants| && p.current == FindChemical(table, rx.reactants[p.index]))
  }

  /** Each event keeps the walk consistent. */
  lemma EventsKeepConsistent(cat: Catalogue, s: State, sequential: bool, p: Pour)
    requires s.reaction.Some? && Consistent(cat.chemicals, s.reaction.value, p)
    ensures Consistent(cat.chemicals, s.reaction.value, BeginPouring(s, sequential, p))
    ensures Consistent(cat.chemicals, s.reaction.value, PourStep(cat.chemicals, s, sequential, p))
    ensures PourComplete(cat, s, p).0.reaction == s.reaction
    ensures Consistent(cat.chemicals, s.reaction.value, PourComplete(cat, s, p).1)
  {
  }

  function Measure(n: nat, p: Pour): nat {
    if p.index < 0 || p.index > n then 0
    else 2 * (n - p.index) + (if p.current.None? then 2 else 1)
  }

  /** The walk run to its end, each effect firing as soon as it is enabled
      and every pour animation finishing. */
  function Walk(cat: Catalogue, s: State, p: Pour): (r: (State, Pour))
    requires s.reaction.Some? && Consistent(cat.chemicals, s.reaction.value, p)
    ensures r.1 == Idle
    ensures r.0.(selected := s.selected) == s
    decreases Measure(|s.reaction.value.reactants|, p)
  {
    if p.current.Some? then
      var next := PourComplete(cat, s, p);
      Walk(cat, next.0, next.1)
    else if p.index == -1 then (s, p)
    else Walk(cat, s, PourStep(cat.chemicals, s, true, p))
  }

  lemma ResolveFrom(table: seq<Chemical>, ids: seq<string>, i: nat)
    requires i < |ids|
    ensures Resolve(table, ids[i..]) ==
      (match FindChemical(table, ids[i])
       case Some(c) => [c] + Resolve(table, ids[i + 1..])
       case None => Resolve(table, ids[i + 1..]))
  {
    assert ids[i..][1..] == ids[i + 1..];
  }

  /** What the rest of a walk adds: the chemical being poured, then every
      remaining reactant the table has. */
  function Remaining(table: seq<Chemical>, ids: seq<string>, p: Pour): seq<Chemical>
    requires 0 <= p.index <= |ids| && (p.current.Some? ==> p.index < |ids|)
  {
    if p.current.Some? then [p.current.value] + Resolve(table, ids[p.index + 1..])
    else Resolve(table, ids[p.index..])
  }

  /** From any point of the walk, the rest of it adds exactly `Remaining`, in
      order, and nothing else. */
  lemma {:induction false} WalkAddsTheRest(cat: Catalogue, s: State, p: Pour)
    requires s.reaction.Some? && Consistent(cat.chemicals, s.reaction.value, p) && p.index >= 0
    ensures Walk(cat, s, p).0.selected == s.selected + Remaining(cat.chemicals, s.reaction.value.reactants, p)
    decreases Measure(|s.reaction.value.reactants|, p), 1
  {
    var ids := s.reaction.value.reactants;
    if p.current.Some? {
      WalkAfterPour(cat, s, p);
    } else if p.index == |ids| {
      assert ids[p.index..] == [];
    } else {
      WalkAfterStep(cat, s, p);
    }
  }

  /** A finished pour adds its chemical; the walk goes on at the next reactant. */
  lemma {:induction false} WalkAfterPour(cat: Catalogue, s: State, p: Pour)
    requires s.reaction.Some? && Consistent(cat.chemicals, s.reaction.value, p) && p.current.Some?
    ensures Walk(cat, s, p).0.selected == s.selected + Remaining(cat.chemicals, s.reaction.value.reactants, p)
    decreases Measure(|s.reaction.value.reactants|, p), 0
  {
    var ids := s.reaction.value.reactants;
    var c := p.current.value;
    var s' := s.(selected := s.selected + [c]);
    var q := Pour(p.index + 1, None);
    PourCompleteAdvances(cat, s, p);
    WalkOnePour(cat, s, p);
    WalkAddsTheRest(cat, s', q);
    var rest := Resolve(cat.chemicals, ids[p.index + 1..]);
    assert s.selected + [c] + rest == s.selected + ([c] + rest);
  }

  /** Completing a pour is the first step of the walk. */
  lemma WalkOnePour(cat: Catalogue, s: State, p: Pour)
    requires s.reaction.Some? && Consistent(cat.chemicals, s.reaction.value, p) && p.current.Some?
    requires PourComplete(cat, s, p) == (s.(selected := s.selected + [p.current.value]), Pour(p.index + 1, None))
    ensures Consistent(cat.chemicals, s.reaction.value, Pour(p.index + 1, None))
    ensures Walk(cat, s, p) == Walk(cat, s.(selected := s.selected + [p.current.value]), Pour(p.index + 1, None))
  {
  }

  /** A pour in progress completes by adding its chemical, and the walk moves
      on to a consistent state at the next reactant. */
  lemma PourCompleteAdvances(cat: Catalogue, s: State, p: Pour)
    requires s.reaction.Some? && Consistent(cat.chemicals, s.reaction.value, p) && p.current.Some?
    ensures PourComplete(cat, s, p) == (s.(selected := s.selected + [p.current.value]), Pour(p.index + 1, None))
    ensures Consistent(cat.chemicals, s.reaction.value, Pour(p.index + 1, None))
  {
    assert p.current.value.id == s.reaction.value.reactants[p.index];
  }

  /** A step at a real reactant either starts pouring it or skips it. */
  lemma {:induction false} WalkAfterStep(cat: Catalogue, s: State, p: Pour)
    requires s.reaction.Some? && Consistent(cat.chemicals, s.reaction.value, p) && p.current.None?
    requires 0 <= p.index < |s.reaction.value.reactants|
    ensures Walk(cat, s, p).0.selected == s.selected + Remaining(cat.chemicals, s.reaction.value.reactants, p)
    decreases Measure(|s.reaction.value.reactants|, p), 0
  {
    var ids := s.reaction.value.reactants;
    var q := PourStep(cat.chemicals, s, true, p);
    assert Walk(cat, s, p) == Walk(cat, s, q);
    ResolveFrom(cat.chemicals, ids, p.index);
    WalkAddsTheRest(cat, s, q);
    assert Remaining(cat.chemicals, ids, q) == Remaining(cat.chemicals, ids, p) by {
      match FindChemical(cat.chemicals, ids[p.index])
      case Some(c) =>
        assert q == Pour(p.index, Some(c));
      case None =>
        assert q == Pour(p.index + 1, None);
    }
  }

  /** Sequential pouring into an empty tube starts at the first reactant,
      ends idle, and leaves the tube holding exactly the resolvable
      reactants in order: the same tube the automatic fill produces. */
  lemma SequentialPouringFills(cat: Catalogue, s: State)
    requires s.reaction.Some? && s.selected == [] && |s.reaction.value.reactants| > 0
    ensures BeginPouring(s, true, Idle) == Pour(0, None)
    ensures Walk(cat, s, Pour(0, None)) == (s.(selected := Resolve(cat.chemicals, s.reaction.value.reactants)), Idle)
    ensures Walk(cat, s, Pour(0, None)).0 == AddAll(cat, s, s.reaction.value.reactants)
  {
    var ids := s.reaction.value.reactants;
    var r := Walk(cat, s, Pour(0, None));
    WalkAddsTheRest(cat, s, Pour(0, None));
    assert ids[0..] == ids;
    assert r.0.selected == Resolve(cat.chemicals, ids);
    assert r.0 == s.(selected := Resolve(cat.chemicals, ids));
    AutoFillResolves(cat, s, ids);
  }

  /** The walk ends idle, so the effect at :118-127 looks again. It starts a
      new walk exactly when no reactant resolved: the tube is still empty
      and the same walk begins over, with the same outcome, without end.
      Otherwise the filled tube keeps it idle. */
  lemma PouringRestarts(cat: Catalogue, s: State)
    requires s.reaction.Some? && s.selected == [] && |s.reaction.value.reactants| > 0
    ensures var r := Walk(cat, s, Pour(0, None));
      BeginPouring(r.0, true, r.1) != r.1 <==> Resolve(cat.chemicals, s.reaction.value.reactants) == []
    ensures var r := Walk(cat, s, Pour(0, None));
      Resolve(cat.chemicals, s.reaction.value.reactants) == [] ==> r.0 == s && BeginPouring(r.0, true, r.1) == Pour(0, None)
  {
    SequentialPouringFills(cat, s);
  }

  /** `handleStartReaction` (:303-318): calls `startReaction` only with a
      reaction selected and a non-empty tube. The component declares it but
      nothing calls it. */
  function HandleStartReaction(cat: Catalogue, s: State): (r: State)
    ensures s.reaction.None? || s.selected == [] ==> r == s
    ensures Inv(cat, s) ==> Inv(cat, r)
  {
    if s.reaction.Some? && |s.selected| > 0 then StartReaction(cat, s) else s
  }

  /** The handler's one-chemical allowance is void: the session's own gate
      still asks for two, so the handler starts a reaction exactly when one is
      selected and the tube holds at least two chemicals. */
  lemma StartHandlerGate(cat: Catalogue, s: State)
    ensures HandleStartReaction(cat, s) != s <==> s.reaction.Some? && |s.selected| >= 2
    ensures HandleStartReaction(cat, s) != s ==> HandleStartReaction(cat, s).reacting
  {
    if s.reaction.Some? && |s.selected| >= 2 {
      assert |HandleStartReaction(cat, s).pending| == |s.pending| + 1;
    }
  }

  /** `handleToggleReaction` (src/components/ReactionControls.tsx:132-163),
      the start/stop button: a running reaction is stopped, otherwise
      `startReaction` is called with no guard of its own. The 100 ms pause
      before the start is not modelled. */
  function ToggleReaction(cat: Catalogue, s: State): (r: State)
    ensures s.reacting ==> r == StopReaction(cat, s)
    ensures !s.reacting ==> r == StartReaction(cat, s)
    ensures Inv(cat, s) ==> Inv(cat, r)
  {
    if s.reacting then StopReaction(cat, s) else StartReaction(cat, s)
  }

  /** The button is enabled while a reaction runs or when it could start one
      (`canStartReaction`, ReactionControls.tsx:200 and :295). */
  predicate ToggleEnabled(s: State) {
    s.reacting || |s.selected| >= 2
  }

  /** What the button does: it stops a running reaction and touches nothing
      else; on an idle session it starts exactly when the tube holds two or
      more chemicals, whether or not a reaction is selected. Pressing it
      twice leaves the session as it was but for the completion the first
      press scheduled: stopping does not cancel it. A press changes the
      session exactly when the button is enabled, so disabling it hides
      only presses that would do nothing. */
  lemma ToggleGate(cat: Catalogue, s: State)
    ensures s.reacting ==> !ToggleReaction(cat, s).reacting && ToggleReaction(cat, s).(reacting := true) == s
    ensures !s.reacting ==> (ToggleReaction(cat, s) != s <==> |s.selected| >= 2)
    ensures !s.reacting && |s.selected| >= 2 ==> ToggleReaction(cat, s).reacting
    ensures ToggleReaction(cat, s) != s <==> ToggleEnabled(s)
    ensures !s.reacting && |s.selected| >= 2 ==>
      var snapshot := Snapshot(s.reaction, s.selected, s.temperature, s.pressure);
      ToggleReaction(cat, ToggleReaction(cat, s)) == s.(pending := s.pending + [snapshot])
  {
    if !s.reacting && |s.selected| >= 2 {
      assert |ToggleReaction(cat, s).pending| == |s.pending| + 1;
    }
  }

  /** The tube as the area shows it: the session and the component's own
      `tubeIsBroken` flag (:89). */
  datatype Scene = Scene(session: State, broken: bool)

  /** The condition under which the explosion effect (:199-218) arms its two
      timers: a running reaction whose result explodes. */
  predicate Exploding(s: State) {
    s.reacting && s.result.Some? && s.result.value.hasExplosion
  }

  /** The effect's other branch (:219-223), run whenever the result or the
      running flag changes: an idle session loses the broken tube, a running
      one keeps whatever it shows. */
  function Settle(sc: Scene): (r: Scene)
    ensures r.session == sc.session
    ensures !sc.session.reacting ==> !r.broken
    ensures sc.session.reacting ==> r.broken == sc.broken
  {
    if sc.session.reacting then sc else sc.(broken := false)
  }

  /** Any session event `t` seen by the area, followed by the effect. */
  function AreaStep(sc: Scene, t: State): (r: Scene)
    ensures r.session == t
    ensures r.broken <==> t.reacting && sc.broken
  {
    Settle(Scene(t, sc.broken))
  }

  /** The 1.5 s timer (:201-209) breaking the tube. Changing the result or the
      running flag clears it (:215-218), so it fires only while the session is
      exploding; otherwise the event changes nothing. The sound it plays is
      not modelled. */
  function BreakTimer(sc: Scene): (r: Scene)
    ensures r.session == sc.session
    ensures r.broken <==> sc.broken || Exploding(sc.session)
  {
    if Exploding(sc.session) then sc.(broken := true) else sc
  }

  /** The 8 s timer (:211-214) calling `stopReaction()`, cleared on the same
      terms; the effect then runs on the idle session. */
  function StopTimer(cat: Catalogue, sc: Scene): (r: Scene)
    ensures Exploding(sc.session) ==> r.session == StopReaction(cat, sc.session) && !r.broken
    ensures !Exploding(sc.session) ==> r == sc
  {
    if Exploding(sc.session) then AreaStep(sc, StopReaction(cat, sc.session)) else sc
  }

  /** The explosion animation is drawn only on an unbroken tube (:402). */
  predicate ShowsExplosion(sc: Scene) {
    sc.session.result.Some? && sc.session.result.value.hasExplosion && !sc.broken
  }

  /** The tube is broken only while a reaction runs. */
  predicate BrokenWhileReacting(sc: Scene) {
    sc.broken ==> sc.session.reacting
  }

  /** Every event keeps the tube broken only while a reaction runs. From an
      unbroken tube the break timer breaks it exactly when the session
      explodes, after which the explosion animation gives way to the broken
      tube. */
  lemma ExplosionKeepsBrokenWhileReacting(cat: Catalogue, sc: Scene, t: State)
    requires BrokenWhileReacting(sc)
    ensures BrokenWhileReacting(AreaStep(sc, t))
    ensures BrokenWhileReacting(BreakTimer(sc))
    ensures BrokenWhileReacting(StopTimer(cat, sc))
    ensures !sc.broken ==> (BreakTimer(sc).broken <==> Exploding(sc.session))
    ensures Exploding(sc.session) && !sc.broken ==> ShowsExplosion(sc)
    ensures Exploding(sc.session) ==> !ShowsExplosion(BreakTimer(sc))
  {
  }

  /** An explosion left alone runs its course: the tube breaks, then the
      reaction stops, the broken tube is cleared and the explosive result
      stays. Stopping it sooner with the button clears the broken tube as
      well. */
  lemma ExplosionRunsItsCourse(cat: Catalogue, sc: Scene)
    requires Exploding(sc.session)
    ensures BreakTimer(sc).broken && BreakTimer(sc).session == sc.session
    ensures var e := StopTimer(cat, BreakTimer(sc));
      e.session == StopReaction(cat, sc.session) && !e.broken && e.session.result == sc.session.result
    ensures var e := AreaStep(sc, ToggleReaction(cat, sc.session));
      e.session == StopTimer(cat, sc).session && !e.broken
  {
  }
}

=== FILE: catalogue.dfy ===
/** The two reference records of the application, `Chemical` and `Reaction`
    (src/context/SimulationContext.tsx:6-43), and the id lookups every
    operation starts with (`chemicals.find(c => c.id === id)`,
    `reactions.find(r => r.id === id)`). */
module Catalogue {
  import opened Text
  import opened Colors

  datatype PhysState = Solid | Liquid | Gas

  /** A chemical. An absent `formula` is the empty string: the source only
      ever reads it through `formula || fallback`, where both read the same. */
  datatype Chemical = Chemical(
    id: string,
    name: string,
    nameAr: string,
    color: string,
    density: real,
    state: PhysState,
    quantity: Option<real>,
    formula: string)

  datatype TempDirection = Increase | Decrease

  datatype Conditions = Conditions(temperature: real, pressure: real, catalyst: Option<string>)

  /** The authored outcome template; an absent flag is `false`, as `!!flag` reads it. */
  datatype Effects = Effects(
    color: string,
    smoke: bool,
    bubbles: bool,
    precipitate: bool,
    temperature: Option<TempDirection>,
    fire: bool,
    ice: bool,
    glow: bool,
    glowColor: Option<string>,
    explosion: bool)

  /** A predefined reaction. An absent `formula` override is the empty string. */
  datatype Reaction = Reaction(
    id: string,
    name: string,
    nameAr: string,
    description: string,
    descriptionAr: string,
    reactants: seq<string>,
    products: seq<string>,
    conditions: Conditions,
    effects: Effects,
    formula: string)

  /** The reference tables the session looks ids up in. */
  datatype Catalogue = Catalogue(chemicals: seq<Chemical>, reactions: seq<Reaction>)

  /** `chem.quantity || 1`: an absent or zero quantity counts as 1. */
  function EffectiveQuantity(c: Chemical): real {
    match c.quantity
    case Some(q) => if q != 0.0 then q else 1.0
    case None => 1.0
  }

  /** `chemical.formula || fallback`. */
  function FormulaOr(c: Chemical, fallback: string): string {
    if c.formula != "" then c.formula else fallback
  }

  /** What every chemical of the shipped table satisfies: a `#RRGGBB` colour,
      a positive density and, when present, a positive quantity. */
  predicate WellFormed(c: Chemical) {
    IsHexColor(c.color) && c.density > 0.0 && (c.quantity.None? || c.quantity.value > 0.0)
  }

  predicate AllWellFormed(cs: seq<Chemical>) {
    forall i :: 0 <= i < |cs| ==> WellFormed(cs[i])
  }

  /** `chemicals.find(c => c.id === id)`: the first chemical with that id. */
  function FindChemical(cs: seq<Chemical>, id: string): (r: Option<Chemical>)
    ensures r.Some? ==> r.value in cs && r.value.id == id
    ensures r.None? <==> forall c :: c in cs ==> c.id != id
  {
    if cs == [] then None
    else if cs[0].id == id then Some(cs[0])
    else FindChemical(cs[1..], id)
  }

  /** `reactions.find(r => r.id === id)`: the first reaction with that id. */
  function FindReaction(rs: seq<Reaction>, id: string): (r: Option<Reaction>)
    ensures r.Some? ==> r.value in rs && r.value.id == id
    ensures r.None? <==> forall x :: x in rs ==> x.id != id
  {
    if rs == [] then None
    else if rs[0].id == id then Some(rs[0])
    else FindReaction(rs[1..], id)
  }

  /** The chemical `find` returns is the first one carrying the id: every
      chemical before it has another id. */
  lemma {:induction false} FindChemicalIsFirst(cs: seq<Chemical>, id: string)
    ensures forall i :: 0 <= i < |cs| && cs[i].id == id && (forall j :: 0 <= j < i ==> cs[j].id != id) ==>
      FindChemical(cs, id) == Some(cs[i])
    decreases |cs|
  {
    if cs != [] && cs[0].id != id {
      FindChemicalIsFirst(cs[1..], id);
      forall i | 0 <= i < |cs| && cs[i].id == id && (forall j :: 0 <= j < i ==> cs[j].id != id)
        ensures FindChemical(cs, id) == Some(cs[i])
      {
        assert i > 0;
        assert cs[1..][i - 1] == cs[i];
        forall j | 0 <= j < i - 1 ensures cs[1..][j].id != id {
          assert cs[1..][j] == cs[j + 1];
        }
      }
    }
  }

  /** The reaction `find` returns is the first one carrying the id. */
  lemma {:induction false} FindReactionIsFirst(rs: seq<Reaction>, id: string)
    ensures forall i :: 0 <= i < |rs| && rs[i].id == id && (forall j :: 0 <= j < i ==> rs[j].id != id) ==>
      FindReaction(rs, id) == Some(rs[i])
    decreases |rs|
  {
    if rs != [] && rs[0].id != id {
      FindReactionIsFirst(rs[1..], id);
      forall i | 0 <= i < |rs| && rs[i].id == id && (forall j :: 0 <= j < i ==> rs[j].id != id)
        ensures FindReaction(rs, id) == Some(rs[i])
      {
        assert i > 0;
        assert rs[1..][i - 1] == rs[i];
        forall j | 0 <= j < i - 1 ensures rs[1..][j].id != id {
          assert rs[1..][j] == rs[j + 1];
        }
      }
    }
  }

  /** Chemical ids occurring in a list. */
  predicate HasId(cs: seq<Chemical>, id: string) {
    exists c :: c in cs && c.id == id
  }

  /** Every id is found in the table. */
  predicate AllResolve(cs: seq<Chemical>, ids: seq<string>) {
    forall i :: 0 <= i < |ids| ==> FindChemical(cs, ids[i]).Some?
  }

  /** The chemicals the ids name, in order, dropping ids the table lacks
      (what adding each id in turn through a fail-soft lookup yields). */
  function Resolve(cs: seq<Chemical>, ids: seq<string>): (r: seq<Chemical>)
    ensures |r| <= |ids|
    ensures forall c :: c in r ==> c in cs && c.id in ids
    ensures AllResolve(cs, ids) ==> |r| == |ids|
    ensures AllResolve(cs, ids) ==> forall i :: 0 <= i < |ids| ==> r[i] == FindChemical(cs, ids[i]).value
  {
    if ids == [] then []
    else
      var rest := Resolve(cs, ids[1..]);
      assert AllResolve(cs, ids) ==> AllResolve(cs, ids[1..]) by {
        if AllResolve(cs, ids) {
          forall i | 0 <= i < |ids[1..]| ensures FindChemical(cs, ids[1..][i]).Some? {
            assert ids[1..][i] == ids[i + 1];
          }
        }
      }
      match FindChemical(cs, ids[0])
      case Some(c) => [c] + rest
      case None => rest
  }
}

=== FILE: colors.dfy ===
/** Colours as the application writes them: `#RRGGBB` hex notation (section
    5.2 of CSS Color Module Level 4) and the `rgba(r, g, b, a)` functional
    notation (section 5.1), with the two colour helpers of the test-tube
    view, `lightenColor` and `getColorWithOpacity`
    (src/components/TestTube.tsx:237-260). */
module Colors {
  import opened Text

  type Channel = x: int | 0 <= x < 256

  datatype Rgb = Rgb(r: Channel, g: Channel, b: Channel)

  /** A `#` followed by six hexadecimal digits of either case. */
  predicate IsHexColor(s: string) {
    |s| == 7 && s[0] == '#' && forall i :: 1 <= i < 7 ==> IsHexDigit(s[i])
  }

  /** The form `toString(16)` produces: lower-case digits only. */
  predicate IsLowerHexColor(s: string) {
    IsHexColor(s) && forall i :: 1 <= i < 7 ==> IsLowerHexDigit(s[i])
  }

  function PairValue(hi: char, lo: char): Channel
    requires IsHexDigit(hi) && IsHexDigit(lo)
  {
    16 * HexValue(hi) + HexValue(lo)
  }

  function DecodeHex(s: string): Rgb
    requires IsHexColor(s)
  {
    Rgb(PairValue(s[1], s[2]), PairValue(s[3], s[4]), PairValue(s[5], s[6]))
  }

  /** `n.toString(16)`: the shortest lower-case hexadecimal numeral of `n`. */
  function HexText(n: nat): (r: string)
    ensures |r| > 0
    ensures forall i :: 0 <= i < |r| ==> IsLowerHexDigit(r[i]) && IsHexDigit(r[i])
  {
    if n < 16 then [HexDigit(n)] else HexText(n / 16) + [HexDigit(n % 16)]
  }

  /** `s.padStart(2, '0')`. */
  function PadStart2(s: string): (r: string)
    ensures |s| >= 2 ==> r == s
  {
    if |s| == 0 then "00" else if |s| == 1 then "0" + s else s
  }

  /** One channel as the source writes it: `c.toString(16).padStart(2, '0')`. */
  function Hex2(c: Channel): (r: string)
    ensures |r| == 2 && IsLowerHexDigit(r[0]) && IsLowerHexDigit(r[1])
    ensures IsHexDigit(r[0]) && IsHexDigit(r[1]) && PairValue(r[0], r[1]) == c
  {
    var t := HexText(c);
    if c < 16 then
      assert t == [HexDigit(c)];
      "0" + t
    else
      assert t == HexText(c / 16) + [HexDigit(c % 16)];
      assert HexText(c / 16) == [HexDigit(c / 16)];
      t
  }

  function EncodeHex(c: Rgb): (s: string)
    ensures IsLowerHexColor(s)
  {
    "#" + Hex2(c.r) + Hex2(c.g) + Hex2(c.b)
  }

  /** Decoding an encoded colour gives the colour back. */
  lemma DecodeEncode(c: Rgb)
    ensures DecodeHex(EncodeHex(c)) == c
  {
    var s := EncodeHex(c);
    assert s[1..3] == Hex2(c.r) && s[3..5] == Hex2(c.g) && s[5..7] == Hex2(c.b);
  }

  lemma HexDigitOfValue(ch: char)
    requires IsHexDigit(ch)
    ensures HexDigit(HexValue(ch)) == LowerChar(ch)
  {
  }

  lemma Hex2OfPair(hi: char, lo: char)
    requires IsHexDigit(hi) && IsHexDigit(lo)
    ensures Hex2(PairValue(hi, lo)) == [LowerChar(hi), LowerChar(lo)]
  {
    var v := PairValue(hi, lo);
    HexDigitOfValue(hi);
    HexDigitOfValue(lo);
    var h := Hex2(v);
    assert PairValue(h[0], h[1]) == v;
    assert HexValue(h[0]) == HexValue(hi) && HexValue(h[1]) == HexValue(lo);
    HexDigitOfValue(h[0]);
    HexDigitOfValue(h[1]);
  }

  /** Re-encoding a decoded colour gives its lower-case spelling. */
  lemma EncodeDecode(s: string)
    requires IsHexColor(s)
    ensures EncodeHex(DecodeHex(s)) == ToLower(s)
  {
    var lower := [LowerChar(s[0]), LowerChar(s[1]), LowerChar(s[2]), LowerChar(s[3]),
                  LowerChar(s[4]), LowerChar(s[5]), LowerChar(s[6])];
    Hex2OfPair(s[1], s[2]);
    Hex2OfPair(s[3], s[4]);
    Hex2OfPair(s[5], s[6]);
    assert LowerChar(s[0]) == '#';
    EncodeOfDigits(DecodeHex(s), lower);
    ToLowerPointwise(s, lower);
  }

  lemma EncodeOfDigits(c: Rgb, d: string)
    requires |d| == 7 && d[0] == '#'
    requires Hex2(c.r) == d[1..3] && Hex2(c.g) == d[3..5] && Hex2(c.b) == d[5..7]
    ensures EncodeHex(c) == d
  {
    assert d == d[..1] + d[1..3] + d[3..5] + d[5..7];
  }

  /** A string whose every character is the lower-case of the one at the
      same place in `s` is `ToLower(s)`. */
  lemma ToLowerPointwise(s: string, d: string)
    requires |d| == |s| && forall i :: 0 <= i < |s| ==> d[i] == LowerChar(s[i])
    ensures ToLower(s) == d
  {
    var t := ToLower(s);
    assert forall i :: 0 <= i < |s| ==> t[i] == d[i];
  }

  // ---- the `parseInt(slice, 16)` and `toString` of the test-tube helpers ----

  /** The white space `parseInt` skips before a numeral: the white-space
      and line-terminator characters of sections 12.2 and 12.3 of ECMA-262, 2024 edition
      (sections 7.2 and 7.3 of its 5.1 edition). */
  predicate IsJsSpace(c: char) {
    c == ' ' || c == '\t' || c == '\n' || c == '\r' || c == '\U{000B}' || c == '\U{000C}' ||
    c == '\U{00A0}' || c == '\U{1680}' || '\U{2000}' <= c <= '\U{200A}' || c == '\U{2028}' || c == '\U{2029}' ||
    c == '\U{202F}' || c == '\U{205F}' || c == '\U{3000}' || c == '\U{FEFF}'
  }

  /** `parseInt(s, 16)` on a slice of at most two characters: leading white
      space and a sign are skipped, and so is a `0x` or `0X` prefix; then the
      value of the leading hexadecimal digits, or `None` (NaN) when there are
      none. A minus sign before a non-zero digit, which yields a negative
      number in JavaScript, also gives `None`: channels are never negative. */
  function ParseHexSlice(s: string): (v: Option<Channel>)
    requires |s| <= 2
    ensures |s| == 2 && IsHexDigit(s[0]) && IsHexDigit(s[1]) ==> v == Some(PairValue(s[0], s[1]))
    ensures |s| == 2 && IsHexDigit(s[0]) && !IsHexDigit(s[1]) && !(s[0] == '0' && s[1] in "xX") ==> v == Some(HexValue(s[0]))
    ensures s in ["0x", "0X"] ==> v.None?
    ensures |s| == 2 && (IsJsSpace(s[0]) || s[0] == '+') && IsHexDigit(s[1]) ==> v == Some(HexValue(s[1]))
    ensures v.Some? ==> exists i :: 0 <= i < |s| && IsHexDigit(s[i])
  {
    if |s| == 0 then None
    else if IsHexDigit(s[0]) then
      if |s| == 2 && IsHexDigit(s[1]) then Some(PairValue(s[0], s[1]))
      else if |s| == 2 && s[0] == '0' && (s[1] == 'x' || s[1] == 'X') then None
      else Some(HexValue(s[0]))
    else if |s| == 2 && (IsJsSpace(s[0]) || s[0] == '+' || s[0] == '-') && IsHexDigit(s[1]) then
      if s[0] == '-' && HexValue(s[1]) != 0 then None
      else Some(HexValue(s[1]))
    else None
  }

  /** A JavaScript number printed in base 16, `NaN` included. */
  function HexOrNaN(v: Option<Channel>): string {
    match v
    case None => "NaN"
    case Some(n) => HexText(n)
  }

  /** A JavaScript number printed in base 10, `NaN` included. */
  function DecimalOrNaN(v: Option<Channel>): string {
    match v
    case None => "NaN"
    case Some(n) => Decimal(n)
  }

  /** `Math.min(255, c + amount)`, NaN staying NaN. */
  function AddCapped(v: Option<Channel>, amount: nat): (w: Option<Channel>)
    ensures v.None? <==> w.None?
    ensures v.Some? ==> v.value <= w.value
  {
    match v
    case None => None
    case Some(c) => Some(if c + amount < 255 then c + amount else 255)
  }

  function Channels(color: string): (Option<Channel>, Option<Channel>, Option<Channel>) {
    (ParseHexSlice(Slice(color, 1, 3)), ParseHexSlice(Slice(color, 3, 5)), ParseHexSlice(Slice(color, 5, 7)))
  }

  /** One lightened channel, printed: `Math.min(255, c + amount).toString(16).padStart(2, '0')`. */
  function LightChannel(v: Option<Channel>, amount: nat): string {
    PadStart2(HexOrNaN(AddCapped(v, amount)))
  }

  /** `lightenColor` (src/components/TestTube.tsx:247-260). */
  function Lighten(color: string, amount: nat): string {
    if StartsWith(color, "#") then
      var ch := Channels(color);
      "#" + LightChannel(ch.0, amount) + LightChannel(ch.1, amount) + LightChannel(ch.2, amount)
    else color
  }

  /** `getColorWithOpacity` (src/components/TestTube.tsx:237-245); the opacity
      is passed as the text JavaScript prints for it. */
  function WithOpacity(color: string, opacity: string): string {
    if StartsWith(color, "#") then
      var ch := Channels(color);
      "rgba(" + (DecimalOrNaN(ch.0) + (", " + (DecimalOrNaN(ch.1) + (", " + (DecimalOrNaN(ch.2) + (", " + opacity)))))) + ")"
    else color
  }

  // ---- independent reference definitions and the facts relating them ----

  function Cap(c: Channel, amount: nat): (r: Channel)
    ensures c <= r
    ensures r == 255 || r == c + amount
    ensures r <= c + amount
  {
    if c + amount < 255 then c + amount else 255
  }

  /** Lightening on decoded colours: every channel moves up by `amount`, saturating at 255. */
  function Brighten(c: Rgb, amount: nat): Rgb {
    Rgb(Cap(c.r, amount), Cap(c.g, amount), Cap(c.b, amount))
  }

  lemma ChannelsOfHex(s: string)
    requires IsHexColor(s)
    ensures Channels(s) == (Some(DecodeHex(s).r), Some(DecodeHex(s).g), Some(DecodeHex(s).b))
  {
    assert Slice(s, 1, 3) == s[1..3];
    assert Slice(s, 3, 5) == s[3..5];
    assert Slice(s, 5, 7) == s[5..7];
  }

  lemma LightChannelOf(c: Channel, amount: nat)
    ensures LightChannel(Some(c), amount) == Hex2(Cap(c, amount))
  {
  }

  /** On a well-formed `#RRGGBB` colour, `lightenColor` is the hex encoding of
      the brightened colour: lower-case, and each channel `min(255, c + amount)`. */
  lemma LightenIsBrighten(s: string, amount: nat)
    requires IsHexColor(s)
    ensures Lighten(s, amount) == EncodeHex(Brighten(DecodeHex(s), amount))
    ensures IsLowerHexColor(Lighten(s, amount))
    ensures DecodeHex(Lighten(s, amount)) == Brighten(DecodeHex(s), amount)
  {
    ChannelsOfHex(s);
    assert StartsWith(s, "#");
    var c := DecodeHex(s);
    LightChannelOf(c.r, amount);
    LightChannelOf(c.g, amount);
    LightChannelOf(c.b, amount);
    assert Lighten(s, amount) == "#" + Hex2(Cap(c.r, amount)) + Hex2(Cap(c.g, amount)) + Hex2(Cap(c.b, amount));
    DecodeEncode(Brighten(c, amount));
  }

  /** Lightening twice by `a` then `b` is lightening once by `a + b`. */
  lemma LightenTwice(s: string, a: nat, b: nat)
    requires IsHexColor(s)
    ensures Lighten(Lighten(s, a), b) == Lighten(s, a + b)
  {
    var c := DecodeHex(s);
    var once := Lighten(s, a);
    LightenIsBrighten(s, a);
    assert DecodeHex(once) == Brighten(c, a);
    LightenIsBrighten(once, b);
    BrightenTwice(c, a, b);
    assert Lighten(once, b) == EncodeHex(Brighten(c, a + b));
    LightenIsBrighten(s, a + b);
  }

  lemma BrightenTwice(c: Rgb, a: nat, b: nat)
    ensures Brighten(Brighten(c, a), b) == Brighten(c, a + b)
  {
  }

  /** Lightening by nothing only lower-cases the spelling. */
  lemma LightenByZero(s: string)
    requires IsHexColor(s)
    ensures Lighten(s, 0) == ToLower(s)
  {
    LightenIsBrighten(s, 0);
    assert Brighten(DecodeHex(s), 0) == DecodeHex(s);
    EncodeDecode(s);
  }

  /** Anything not starting with `#` (a named colour, `rgba(...)`) passes through both helpers. */
  lemma NonHexPassesThrough(s: string, amount: nat, opacity: string)
    requires !StartsWith(s, "#")
    ensures Lighten(s, amount) == s && WithOpacity(s, opacity) == s
  {
  }

  // ---- reading `rgba(...)` text back ----

  /** Reads a decimal channel value off the front of `s`. */
  function ReadChannel(s: string): Option<(Channel, string)> {
    var k := DigitSpan(s);
    if k == 0 then None
    else
      var v := DecimalValue(s[..k]);
      if v < 256 then Some((v, s[k..])) else None
  }

  /** Reads `, ` off the front of `s`. */
  function ReadComma(s: string): Option<string> {
    if StartsWith(s, ", ") then Some(s[2..]) else None
  }

  /** Reads one channel and the `, ` after it. */
  function ReadField(s: string): Option<(Channel, string)> {
    match ReadChannel(s)
    case None => None
    case Some((v, rest)) =>
      match ReadComma(rest)
      case None => None
      case Some(after) => Some((v, after))
  }

  /** Parses the inside of `rgba(...)`: three channels, then the alpha text. */
  function ParseRgbaBody(body: string): Option<(Rgb, string)> {
    match ReadField(body)
    case None => None
    case Some((r, rest1)) =>
      match ReadField(rest1)
      case None => None
      case Some((g, rest2)) =>
        match ReadField(rest2)
        case None => None
        case Some((b, alpha)) => Some((Rgb(r, g, b), alpha))
  }

  /** Parses `rgba(r, g, b, a)` into the colour and the alpha text. */
  function ParseRgba(t: string): Option<(Rgb, string)> {
    if |t| >= 6 && StartsWith(t, "rgba(") && t[|t| - 1] == ')' then ParseRgbaBody(t[5..|t| - 1])
    else None
  }

  lemma ReadChannelOf(c: Channel, rest: string)
    ensures ReadChannel(Decimal(c) + (", " + rest)) == Some((c, ", " + rest))
  {
    var d := Decimal(c);
    var s := d + (", " + rest);
    DigitSpanOfRun(d, ", " + rest);
    assert s[..|d|] == d;
    assert s[|d|..] == ", " + rest;
    DecimalRoundTrip(c);
  }

  /** The `rgba(r, g, b, a)` text of a colour and an alpha text. */
  function RgbaText(c: Rgb, alpha: string): string {
    "rgba(" + (Decimal(c.r) + (", " + (Decimal(c.g) + (", " + (Decimal(c.b) + (", " + alpha)))))) + ")"
  }

  lemma WithOpacityIsRgba(s: string, opacity: string)
    requires IsHexColor(s)
    ensures WithOpacity(s, opacity) == RgbaText(DecodeHex(s), opacity)
  {
    ChannelsOfHex(s);
    assert StartsWith(s, "#");
  }

  lemma ReadCommaOf(rest: string)
    ensures ReadComma(", " + rest) == Some(rest)
  {
    assert (", " + rest)[..2] == ", ";
    assert (", " + rest)[2..] == rest;
  }

  lemma ReadFieldOf(c: Channel, rest: string)
    ensures ReadField(Decimal(c) + (", " + rest)) == Some((c, rest))
  {
    ReadChannelOf(c, rest);
    ReadCommaOf(rest);
  }

  lemma ParseRgbaBodyOf(c: Rgb, alpha: string)
    ensures ParseRgbaBody(Decimal(c.r) + (", " + (Decimal(c.g) + (", " + (Decimal(c.b) + (", " + alpha)))))) == Some((c, alpha))
  {
    var rest2 := Decimal(c.b) + (", " + alpha);
    var rest1 := Decimal(c.g) + (", " + rest2);
    ReadFieldOf(c.r, rest1);
    ReadFieldOf(c.g, rest2);
    ReadFieldOf(c.b, alpha);
  }

  lemma ParseRgbaFrame(body: string)
    ensures ParseRgba("rgba(" + body + ")") == ParseRgbaBody(body)
  {
    var t := "rgba(" + body + ")";
    assert t[5..|t| - 1] == body;
    assert t[..5] == "rgba(";
  }

  lemma ParseRgbaText(c: Rgb, alpha: string)
    ensures ParseRgba(RgbaText(c, alpha)) == Some((c, alpha))
  {
    ParseRgbaBodyOf(c, alpha);
    ParseRgbaFrame(Decimal(c.r) + (", " + (Decimal(c.g) + (", " + (Decimal(c.b) + (", " + alpha))))));
  }

  /** `getColorWithOpacity` on a well-formed hex colour prints exactly that
      colour's channels: reading its output back gives the decoded colour and the opacity. */
  lemma WithOpacityRoundTrip(s: string, opacity: string)
    requires IsHexColor(s)
    ensures ParseRgba(WithOpacity(s, opacity)) == Some((DecodeHex(s), opacity))
  {
    WithOpacityIsRgba(s, opacity);
    ParseRgbaText(DecodeHex(s), opacity);
  }
}

=== FILE: filters.dfy ===
/** The catalogue filters: the reaction list of the reactions page
    (src/pages/Reactions.tsx:160-206), the reaction list of the elementary
    reactions page (src/pages/ElementaryReactions.tsx:120-131) and the
    chemical picker (src/components/ChemicalSelector.tsx:31-48). Each is
    `Array.prototype.filter`, modelled by `Seqs.Keep`. */
module Filters {
  import opened Text
  import opened Seqs
  import opened Catalogue

  /** `activeCategory === 'all' || r.id.startsWith(activeCategory)`. */
  predicate InCategory(category: string, r: Reaction) {
    category == "all" || StartsWith(r.id, category)
  }

  /** The effect switch (Reactions.tsx:168-192): `'all'` and any value the
      switch does not list keep everything. */
  predicate HasEffect(effect: string, e: Effects) {
    if effect == "bubbles" then e.bubbles
    else if effect == "smoke" then e.smoke
    else if effect == "precipitate" then e.precipitate
    else if effect == "temp-increase" then e.temperature == Some(Increase)
    else if effect == "temp-decrease" then e.temperature == Some(Decrease)
    else if effect == "fire" then e.fire
    else if effect == "glow" then e.glow
    else true
  }

  /** The search of the reactions page (:195-203): the query is lowercased
      once and looked for in the lowercased English texts and, as lowercased,
      in the Arabic texts. An empty query keeps everything. */
  predicate MatchesQuery(query: string, r: Reaction) {
    query == "" ||
    var q := ToLower(query);
    Contains(ToLower(r.name), q) || Contains(r.nameAr, q) ||
    Contains(ToLower(r.description), q) || Contains(r.descriptionAr, q)
  }

  predicate ShownOnReactionsPage(category: string, effect: string, query: string, r: Reaction) {
    InCategory(category, r) && HasEffect(effect, r.effects) && MatchesQuery(query, r)
  }

  function ReactionsPagePredicate(category: string, effect: string, query: string): Reaction -> bool {
    (r: Reaction) => ShownOnReactionsPage(category, effect, query, r)
  }

  /** `filteredReactions` of the reactions page. */
  function ReactionsPage(rs: seq<Reaction>, category: string, effect: string, query: string): (r: seq<Reaction>)
    ensures IsSubsequence(r, rs)
    ensures forall x :: x in r <==> x in rs && ShownOnReactionsPage(category, effect, query, x)
  {
    Keep(rs, ReactionsPagePredicate(category, effect, query))
  }

  /** With every control at its default the whole table is listed. */
  lemma ReactionsPageDefaults(rs: seq<Reaction>)
    ensures ReactionsPage(rs, "all", "all", "") == rs
  {
    KeepEverything(rs, ReactionsPagePredicate("all", "all", ""));
  }

  /** A chosen category keeps only ids that start with it. */
  lemma ReactionsPageCategory(rs: seq<Reaction>, category: string, effect: string, query: string)
    requires category != "all"
    ensures forall x :: x in ReactionsPage(rs, category, effect, query) ==> StartsWith(x.id, category)
  {
  }

  /** The flag an effect filter tests. */
  function EffectFlag(effect: string): Reaction -> bool {
    (r: Reaction) => HasEffect(effect, r.effects)
  }

  /** Each effect filter alone keeps exactly the reactions whose flag is set, in order. */
  lemma ReactionsPageEffect(rs: seq<Reaction>, effect: string)
    ensures ReactionsPage(rs, "all", effect, "") == Keep(rs, EffectFlag(effect))
  {
    KeepCongruent(rs, ReactionsPagePredicate("all", effect, ""), EffectFlag(effect));
  }

  /** The search of the elementary reactions page (:123-130): the English
      texts are compared lowercased, the Arabic texts against the raw term. */
  predicate MatchesTerm(term: string, r: Reaction) {
    term == "" ||
    var lower := ToLower(term);
    Contains(ToLower(r.name), lower) || Contains(r.nameAr, term) ||
    Contains(ToLower(r.description), lower) || Contains(r.descriptionAr, term)
  }

  function CategoryPredicate(category: string): Reaction -> bool {
    (r: Reaction) => InCategory(category, r)
  }

  function TermPredicate(term: string): Reaction -> bool {
    (r: Reaction) => MatchesTerm(term, r)
  }

  function ElementaryPredicate(category: string, term: string): Reaction -> bool {
    (r: Reaction) => InCategory(category, r) && MatchesTerm(term, r)
  }

  /** `filteredReactions` of the elementary reactions page: the category
      filter, then the search filter. */
  function ElementaryPage(rs: seq<Reaction>, category: string, term: string): (r: seq<Reaction>)
    ensures IsSubsequence(r, rs)
    ensures forall x :: x in r <==> x in rs && InCategory(category, x) && MatchesTerm(term, x)
  {
    var byCategory := Keep(rs, CategoryPredicate(category));
    KeepKeep(rs, CategoryPredicate(category), TermPredicate(term), ElementaryPredicate(category, term));
    Keep(byCategory, TermPredicate(term))
  }

  /** The two filters in sequence are one filter by both conditions, in
      either order. */
  lemma ElementaryPageIsOneFilter(rs: seq<Reaction>, category: string, term: string)
    ensures ElementaryPage(rs, category, term) == Keep(rs, ElementaryPredicate(category, term))
    ensures ElementaryPage(rs, category, term) == Keep(Keep(rs, TermPredicate(term)), CategoryPredicate(category))
  {
    KeepKeep(rs, CategoryPredicate(category), TermPredicate(term), ElementaryPredicate(category, term));
  }

  /** An empty search term leaves only the category filter. */
  lemma ElementaryEmptyTerm(rs: seq<Reaction>, category: string)
    ensures ElementaryPage(rs, category, "") == Keep(rs, CategoryPredicate(category))
  {
    var byCategory := Keep(rs, CategoryPredicate(category));
    KeepEverything(byCategory, TermPredicate(""));
  }

  /** A `double-displacement-*` id does not start with `displacement`, so
      that category does not list them. */
  lemma DisplacementExcludesDouble(rs: seq<Reaction>, term: string)
    ensures forall x :: x in ElementaryPage(rs, "displacement", term) ==> !StartsWith(x.id, "double-displacement")
  {
    forall x | x in ElementaryPage(rs, "displacement", term)
      ensures !StartsWith(x.id, "double-displacement")
    {
      assert StartsWith(x.id, "displacement");
      assert x.id[1] == 'i';
    }
  }

  /** The search of the chemical picker (ChemicalSelector.tsx:34-41): the
      lowercased term in the lowercased name, in the Arabic name, or in the
      lowercased id. */
  predicate ChemicalMatches(term: string, c: Chemical) {
    var lower := ToLower(term);
    Contains(ToLower(c.name), lower) || Contains(c.nameAr, lower) || Contains(ToLower(c.id), lower)
  }

  function SearchPredicate(term: string): Chemical -> bool {
    (c: Chemical) => ChemicalMatches(term, c)
  }

  /** A state filter; `None` is `'all'`. */
  function StatePredicate(state: PhysState): Chemical -> bool {
    (c: Chemical) => c.state == state
  }

  predicate PickerShows(term: string, state: Option<PhysState>, c: Chemical) {
    (term == "" || ChemicalMatches(term, c)) && (state.None? || c.state == state.value)
  }

  function PickerPredicate(term: string, state: Option<PhysState>): Chemical -> bool {
    (c: Chemical) => PickerShows(term, state, c)
  }

  /** The effect of :31-48: search first when a term is typed, then the state
      filter when one is chosen. */
  function ChemicalPicker(cs: seq<Chemical>, term: string, state: Option<PhysState>): (r: seq<Chemical>)
    ensures IsSubsequence(r, cs)
    ensures forall c :: c in r <==> c in cs && PickerShows(term, state, c)
  {
    var searched := if term == "" then cs else Keep(cs, SearchPredicate(term));
    SubsequenceReflexive(cs);
    assert IsSubsequence(searched, cs);
    var r := if state.None? then searched else Keep(searched, StatePredicate(state.value));
    SubsequenceReflexive(searched);
    SubsequenceTransitive(r, searched, cs);
    r
  }

  /** With no term and every state the picker lists the whole table. */
  lemma PickerDefaults(cs: seq<Chemical>)
    ensures ChemicalPicker(cs, "", None) == cs
  {
  }

  /** The picker is one filter by both conditions, so running the state
      filter before the search would list the same chemicals in the same order. */
  lemma PickerIsOneFilter(cs: seq<Chemical>, term: string, state: PhysState)
    requires term != ""
    ensures ChemicalPicker(cs, term, Some(state)) == Keep(cs, PickerPredicate(term, Some(state)))
    ensures ChemicalPicker(cs, term, Some(state)) == Keep(Keep(cs, StatePredicate(state)), SearchPredicate(term))
  {
    KeepKeep(cs, SearchPredicate(term), StatePredicate(state), PickerPredicate(term, Some(state)));
  }
}

=== FILE: fixtures.dfy ===
/** Facts about the shipped tables (src/data/chemicals.ts,
    src/data/reactions.ts) and what the general rules do with them. */
module Fixtures {
  import opened Text
  import opened Seqs
  import opened Catalogue
  import opened Tables
  import opened Outcomes
  import opened Formulas
  import opened Mixing
  import opened Colors
  import opened Predefined
  import opened FreeMode
  import opened Filters
  import opened Session
  import opened Area

  /** What every row of the chemical table satisfies: well-formed
      chemicals, none of them with the id `pbno32`. */
  predicate ChemicalsGood(cs: seq<Chemical>) {
    AllWellFormed(cs) && forall i :: 0 <= i < |cs| ==> cs[i].id != "pbno32"
  }

  lemma ChemicalsJoin(a: seq<Chemical>, b: seq<Chemical>)
    requires ChemicalsGood(a) && ChemicalsGood(b)
    ensures ChemicalsGood(a + b)
  {
    forall i | |a| <= i < |a + b| ensures WellFormed((a + b)[i]) && (a + b)[i].id != "pbno32" {
      assert (a + b)[i] == b[i - |a|];
    }
  }

  /** The shape of every shipped chemical, checked one chemical at a time. */
  lemma RowChemicalGood(c: Chemical)
    requires c.density > 0.0 && c.quantity.None? && c.id != "pbno32"
    requires |c.color| == 7 && c.color[0] == '#'
    requires forall i :: 1 <= i < 7 ==> IsHexDigit(c.color[i])
    ensures WellFormed(c) && c.id != "pbno32"
  {
  }

  lemma ChemicalRow1()
    ensures ChemicalsGood(ChemicalRows1)
  {
    forall i | 0 <= i < |ChemicalRows1| ensures WellFormed(ChemicalRows1[i]) && ChemicalRows1[i].id != "pbno32" {
      RowChemicalGood(ChemicalRows1[i]);
    }
  }

  lemma ChemicalRow2()
    ensures ChemicalsGood(ChemicalRows2)
  {
    forall i | 0 <= i < |ChemicalRows2| ensures WellFormed(ChemicalRows2[i]) && ChemicalRows2[i].id != "pbno32" {
      RowChemicalGood(ChemicalRows2[i]);
    }
  }

  lemma ChemicalRow3()
    ensures ChemicalsGood(ChemicalRows3)
  {
    forall i | 0 <= i < |ChemicalRows3| ensures WellFormed(ChemicalRows3[i]) && ChemicalRows3[i].id != "pbno32" {
      RowChemicalGood(ChemicalRows3[i]);
    }
  }

  lemma ChemicalRow4()
    ensures ChemicalsGood(ChemicalRows4)
  {
    forall i | 0 <= i < |ChemicalRows4| ensures WellFormed(ChemicalRows4[i]) && ChemicalRows4[i].id != "pbno32" {
      RowChemicalGood(ChemicalRows4[i]);
    }
  }

  lemma ChemicalRow5()
    ensures ChemicalsGood(ChemicalRows5)
  {
    forall i | 0 <= i < |ChemicalRows5| ensures WellFormed(ChemicalRows5[i]) && ChemicalRows5[i].id != "pbno32" {
      RowChemicalGood(ChemicalRows5[i]);
    }
  }

  lemma ChemicalRow6()
    ensures ChemicalsGood(ChemicalRows6)
  {
    forall i | 0 <= i < |ChemicalRows6| ensures WellFormed(ChemicalRows6[i]) && ChemicalRows6[i].id != "pbno32" {
      RowChemicalGood(ChemicalRows6[i]);
    }
  }

  lemma ChemicalRow7()
    ensures ChemicalsGood(ChemicalRows7)
  {
    forall i | 0 <= i < |ChemicalRows7| ensures WellFormed(ChemicalRows7[i]) && ChemicalRows7[i].id != "pbno32" {
      RowChemicalGood(ChemicalRows7[i]);
    }
  }

  lemma ChemicalRow8()
    ensures ChemicalsGood(ChemicalRows8)
  {
    forall i | 0 <= i < |ChemicalRows8| ensures WellFormed(ChemicalRows8[i]) && ChemicalRows8[i].id != "pbno32" {
      RowChemicalGood(ChemicalRows8[i]);
    }
  }

  lemma ChemicalRow9()
    ensures ChemicalsGood(ChemicalRows9)
  {
    forall i | 0 <= i < |ChemicalRows9| ensures WellFormed(ChemicalRows9[i]) && ChemicalRows9[i].id != "pbno32" {
      RowChemicalGood(ChemicalRows9[i]);
    }
  }

  lemma ChemicalRow10()
    ensures ChemicalsGood(ChemicalRows10)
  {
    forall i | 0 <= i < |ChemicalRows10| ensures WellFormed(ChemicalRows10[i]) && ChemicalRows10[i].id != "pbno32" {
      RowChemicalGood(ChemicalRows10[i]);
    }
  }

  lemma ShippedChemicalsGood()
    ensures ChemicalsGood(Chemicals)
  {
    ChemicalRow1();
    var cs := ChemicalRows1;
    ChemicalRow2();
    ChemicalsJoin(cs, ChemicalRows2);
    cs := cs + ChemicalRows2;
    ChemicalRow3();
    ChemicalsJoin(cs, ChemicalRows3);
    cs := cs + ChemicalRows3;
    ChemicalRow4();
    ChemicalsJoin(cs, ChemicalRows4);
    cs := cs + ChemicalRows4;
    ChemicalRow5();
    ChemicalsJoin(cs, ChemicalRows5);
    cs := cs + ChemicalRows5;
    ChemicalRow6();
    ChemicalsJoin(cs, ChemicalRows6);
    cs := cs + ChemicalRows6;
    ChemicalRow7();
    ChemicalsJoin(cs, ChemicalRows7);
    cs := cs + ChemicalRows7;
    ChemicalRow8();
    ChemicalsJoin(cs, ChemicalRows8);
    cs := cs + ChemicalRows8;
    ChemicalRow9();
    ChemicalsJoin(cs, ChemicalRows9);
    cs := cs + ChemicalRows9;
    ChemicalRow10();
    ChemicalsJoin(cs, ChemicalRows10);
    cs := cs + ChemicalRows10;
  }

  /** Every shipped chemical has a `#RRGGBB` colour and a positive density,
      so every blend and every weight of the application is defined. */
  lemma ShippedChemicalsWellFormed()
    ensures AllWellFormed(Chemicals)
  {
    ShippedChemicalsGood();
  }

  /** `double-displacement-2` names `pbno32`, which the chemical table lacks. */
  lemma LeadNitrateMissing()
    ensures FindChemical(Chemicals, "pbno32").None?
  {
    ShippedChemicalsGood();
    assert forall c :: c in Chemicals ==> c.id != "pbno32";
  }

  /** No `fire`, no `glow`. */
  predicate Unlit(rx: Reaction) {
    !rx.effects.fire && !rx.effects.glow
  }

  /** The reactant lists of the reactions that cannot start. */
  predicate KnownReactants(rx: Reaction) {
    (rx.id == "decomposition-1" ==> rx.reactants == ["caco3"]) &&
    (rx.id == "decomposition-2" ==> rx.reactants == ["h2o2"]) &&
    (rx.id == "decomposition-3" ==> rx.reactants == ["kclo3"]) &&
    (rx.id == "double-displacement-2" ==> rx.reactants == ["pbno32", "ki"])
  }

  predicate ReactionsGood(rs: seq<Reaction>) {
    forall i :: 0 <= i < |rs| ==> Unlit(rs[i]) && KnownReactants(rs[i])
  }

  lemma ReactionsJoin(a: seq<Reaction>, b: seq<Reaction>)
    requires ReactionsGood(a) && ReactionsGood(b)
    ensures ReactionsGood(a + b)
  {
    forall i | |a| <= i < |a + b| ensures Unlit((a + b)[i]) && KnownReactants((a + b)[i]) {
      assert (a + b)[i] == b[i - |a|];
    }
  }

  lemma ReactionRow1()
    ensures ReactionsGood(ReactionRows1)
  {
  }

  lemma ReactionRow2()
    ensures ReactionsGood(ReactionRows2)
  {
  }

  lemma ReactionRow3()
    ensures ReactionsGood(ReactionRows3)
  {
  }

  lemma ReactionRow4()
    ensures ReactionsGood(ReactionRows4)
  {
  }

  lemma ReactionRow5()
    ensures ReactionsGood(ReactionRows5)
  {
  }

  /** No shipped reaction sets `fire` or `glow`, and the reactions that
      cannot start list the reactants below, whichever copy `find` meets. */
  lemma ShippedReactionsGood()
    ensures ReactionsGood(Reactions)
  {
    ReactionRow1();
    var rs := ReactionRows1;
    ReactionRow2();
    ReactionsJoin(rs, ReactionRows2);
    rs := rs + ReactionRows2;
    ReactionRow3();
    ReactionsJoin(rs, ReactionRows3);
    rs := rs + ReactionRows3;
    ReactionRow4();
    ReactionsJoin(rs, ReactionRows4);
    rs := rs + ReactionRows4;
    ReactionRow5();
    ReactionsJoin(rs, ReactionRows5);
    rs := rs + ReactionRows5;
  }

  /** So the reactions page lists nothing under the `fire` and `glow` effect filters. */
  lemma FireAndGlowListNothing(category: string, query: string)
    ensures ReactionsPage(Reactions, category, "fire", query) == []
    ensures ReactionsPage(Reactions, category, "glow", query) == []
  {
    ShippedReactionsGood();
    assert forall rx :: rx in Reactions ==> Unlit(rx);
    KeepNothing(Reactions, ReactionsPagePredicate(category, "fire", query));
    KeepNothing(Reactions, ReactionsPagePredicate(category, "glow", query));
  }

  /** A reaction whose reactants resolve to fewer than two chemicals cannot
      be started after selecting it and filling the tube with its reactants,
      by the automatic fill or by the sequential pour:
      neither the session, nor the start/stop button, nor the unreferenced
      start handler does anything. */
  lemma FewReactantsNeverStart(cat: Catalogue, s: State, id: string)
    requires FindReaction(cat.reactions, id).Some?
    requires |Resolve(cat.chemicals, FindReaction(cat.reactions, id).value.reactants)| < 2
    ensures var ids := FindReaction(cat.reactions, id).value.reactants;
      var t := AddAll(cat, SelectReaction(cat, s, id), ids);
      StartReaction(cat, t) == t && HandleStartReaction(cat, t) == t && ToggleReaction(cat, t) == t
    ensures var w := Walk(cat, SelectReaction(cat, s, id), Pour(0, None)).0;
      StartReaction(cat, w) == w && HandleStartReaction(cat, w) == w && ToggleReaction(cat, w) == w
  {
    var ids := FindReaction(cat.reactions, id).value.reactants;
    var selected := SelectReaction(cat, s, id);
    AutoFillResolves(cat, selected, ids);
    WalkAddsTheRest(cat, selected, Pour(0, None));
    assert ids[0..] == ids;
  }

  /** The reactions that can never start: the three decompositions list one
      reactant each, and `double-displacement-2` lists `pbno32`, which the
      chemical table lacks, beside `ki`. */
  lemma ShippedFewReactants(id: string)
    requires id in {"decomposition-1", "decomposition-2", "decomposition-3", "double-displacement-2"}
    ensures FindReaction(Reactions, id).Some?
    ensures |Resolve(Chemicals, FindReaction(Reactions, id).value.reactants)| < 2
  {
    ShippedReactionsGood();
    var listed :=
      if id == "decomposition-1" then ReactionRows3[2]
      else if id == "decomposition-2" then ReactionRows4[2]
      else if id == "decomposition-3" then ReactionRows5[2]
      else ReactionRows4[0];
    assert listed.id == id;
    assert listed in Reactions;
    var rx := FindReaction(Reactions, id).value;
    assert KnownReactants(rx);
    LeadNitrateMissing();
    KnownFew(rx);
  }

  /** A reaction whose listed reactants are those `KnownReactants` gives
      for the four ids resolves fewer than two chemicals. */
  lemma KnownFew(rx: Reaction)
    requires rx.id in {"decomposition-1", "decomposition-2", "decomposition-3", "double-displacement-2"}
    requires KnownReactants(rx) && FindChemical(Chemicals, "pbno32").None?
    ensures |Resolve(Chemicals, rx.reactants)| < 2
  {
    if rx.id == "double-displacement-2" {
      assert rx.reactants[1..] == ["ki"];
    }
  }

  /** So none of them can be started from its own page once the tube is
      filled, whether by the sequential pour the simulation page uses or by
      the automatic fill: both leave the same tube. */
  lemma ShippedUnstartable(s: State, id: string)
    requires id in {"decomposition-1", "decomposition-2", "decomposition-3", "double-displacement-2"}
    ensures FindReaction(Reactions, id).Some?
    ensures var ids := FindReaction(Reactions, id).value.reactants;
      var t := AddAll(Shipped, SelectReaction(Shipped, s, id), ids);
      StartReaction(Shipped, t) == t && HandleStartReaction(Shipped, t) == t && ToggleReaction(Shipped, t) == t
    ensures var w := Walk(Shipped, SelectReaction(Shipped, s, id), Pour(0, None)).0;
      StartReaction(Shipped, w) == w && HandleStartReaction(Shipped, w) == w && ToggleReaction(Shipped, w) == w
  {
    ShippedFewReactants(id);
    FewReactantsNeverStart(Shipped, s, id);
  }

  /** Hydrochloric acid and sodium hydroxide, in the order the table lists them. */
  const Neutralisation: seq<Chemical> := [ChemicalRows1[0], ChemicalRows1[4]]

  lemma NeutralisationLeftSide()
    ensures LeftSide(Neutralisation) == "HCl + NaOH"
  {
    var labels := Labels(Neutralisation);
    assert labels[0] == "HCl" && labels[1] == "NaOH";
    assert Join(labels[1..], Plus) == "NaOH";
    assert Join(labels, Plus) == "HCl" + Plus + "NaOH";
    assert "HCl" + Plus + "NaOH" == "HCl + NaOH";
  }

  lemma NeutralisationTail()
    ensures SpontaneousTail(Neutralisation) == " → Salt + H₂O"
  {
    var sel := Neutralisation;
    assert SomeIdIn(sel, {"hcl", "h2so4"}) by { assert sel[0].id == "hcl"; }
    assert SomeIdIn(sel, {"naoh", "koh"}) by { assert sel[1].id == "naoh"; }
    assert !SomeIdIn(sel, {"na", "zn"});
    assert !SomeIdIn(sel, {"nahco3", "na2co3"});
  }

  /** Mixed in free mode they are written with their formulas and the
      neutralisation narrative. */
  lemma NeutralisationFormula(temperature: real, pressure: real, g: Rng, sqrt: real -> real)
    requires HasDraws(g, FreeDraws)
    ensures AllWellFormed(Neutralisation)
    ensures FreeOutcome(Neutralisation, temperature, pressure, g, sqrt).0.formula == "HCl + NaOH → Salt + H₂O"
  {
    ChemicalRow1();
    FreeFormula(Neutralisation, temperature, pressure, g, sqrt);
    NeutralisationLeftSide();
    NeutralisationTail();
    NeutralisationText();
  }

  /** And they warm the tube: whatever valid draws come, the result records
      a rise and ends hotter than it started. */
  lemma NeutralisationWarms(temperature: real, pressure: real, g: Rng, sqrt: real -> real)
    requires HasDraws(g, FreeDraws) && NextTwoValid(g)
    ensures var o := FreeOutcome(Neutralisation, temperature, pressure, g, sqrt).0;
      o.temperatureChange == Some(Increase) && o.temperature > temperature
  {
    ChemicalRow1();
    var sel := Neutralisation;
    var t := TraitsOf(sel);
    assert t.acid by { assert sel[0].id in AcidIds; }
    assert t.base by { assert sel[1].id in BaseIds; }
    assert t.total > 0.0;
    FreeTemperatureDirection(sel, t, temperature, pressure, g);
  }

  lemma NeutralisationText()
    ensures "HCl + NaOH" + " → Salt + H₂O" == "HCl + NaOH → Salt + H₂O"
  {
  }

  lemma FreeFormula(sel: seq<Chemical>, temperature: real, pressure: real, g: Rng, sqrt: real -> real)
    requires HasDraws(g, FreeDraws) && AllWellFormed(sel)
    ensures FreeOutcome(sel, temperature, pressure, g, sqrt).0.formula == LeftSide(sel) + SpontaneousTail(sel)
  {
  }

  /** Carbon, sodium chloride and copper(II) oxide: two black chemicals of
      different densities and a white one. */
  const BlackAndWhite: seq<Chemical> := [ChemicalRows8[1], ChemicalRows2[2], ChemicalRows8[6]]

  lemma BlackAndWhiteChannels()
    ensures AllWellFormed(BlackAndWhite)
    ensures ChannelValues(BlackAndWhite, 0) == [0.0, 255.0, 0.0]
  {
    ChemicalRow2();
    ChemicalRow8();
    var sel := BlackAndWhite;
    assert DecodeHex(sel[0].color).r == 0 && DecodeHex(sel[2].color).r == 0;
    assert DecodeHex(sel[1].color).r == 255;
  }

  /** The source's blend weighs copper(II) oxide by carbon's density, the
      first black chemical's: its red channel is round(255 * 2.16 / 6.694) = 82. */
  lemma BlendWeighsByFirstOfColour()
    ensures AllWellFormed(BlackAndWhite)
    ensures DecodeHex(BlendColors(BlackAndWhite)).r == 82
  {
    var sel := BlackAndWhite;
    BlackAndWhiteChannels();
    BlendChannel(sel, 0);
    SourceWeightsOfBlackAndWhite();
    SourceRed();
  }

  lemma SourceWeightsOfBlackAndWhite()
    ensures Weights(BlackAndWhite, SourceWeight(BlackAndWhite)) == [2.267, 2.16, 2.267]
  {
    var sel := BlackAndWhite;
    assert FirstWithColor(sel, "#000000") == Some(sel[0]);
    assert FirstWithColor(sel, "#FFFFFF") == Some(sel[1]);
  }

  lemma RedSums(w0: real, w1: real, w2: real)
    ensures TotalWeight([w0, w1, w2]) == w0 + w1 + w2
    ensures WeightedSum([0.0, 255.0, 0.0], [w0, w1, w2]) == 255.0 * w1
  {
    assert [w0, w1, w2][1..] == [w1, w2] && [w1, w2][1..] == [w2] && [w2][1..] == [];
    assert [0.0, 255.0, 0.0][1..] == [255.0, 0.0] && [255.0, 0.0][1..] == [0.0] && [0.0][1..] == [];
    assert TotalWeight([w2]) == w2;
    assert TotalWeight([w1, w2]) == w1 + w2;
    assert WeightedSum([0.0], [w2]) == 0.0;
    assert WeightedSum([255.0, 0.0], [w1, w2]) == 255.0 * w1;
  }

  /** Red under the source's weights: round(550.8 / 6.694). */
  lemma SourceRed()
    ensures TotalWeight([2.267, 2.16, 2.267]) != 0.0
    ensures RoundedAverage([0.0, 255.0, 0.0], [2.267, 2.16, 2.267]) == 82
  {
    RedSums(2.267, 2.16, 2.267);
    assert Round(550.8 / 6.694) == 82;
  }

  /** Red under every chemical's own weight: round(550.8 / 10.742). */
  lemma OwnRed()
    ensures TotalWeight([2.267, 2.16, 6.315]) != 0.0
    ensures RoundedAverage([0.0, 255.0, 0.0], [2.267, 2.16, 6.315]) == 51
  {
    RedSums(2.267, 2.16, 6.315);
    assert Round(550.8 / 10.742) == 51;
  }

  /** Weighing every chemical by its own density gives red
      round(255 * 2.16 / 10.742) = 51: the two blends differ. */
  lemma OwnWeightsBlendDifferently()
    ensures AllWellFormed(BlackAndWhite)
    ensures DecodeHex(OwnWeightBlend(BlackAndWhite)).r == 51
    ensures BlendColors(BlackAndWhite) != OwnWeightBlend(BlackAndWhite)
  {
    var sel := BlackAndWhite;
    BlackAndWhiteChannels();
    BlendWeighsByFirstOfColour();
    WellFormedHex(sel);
    var c := AverageColor(sel, OwnWeight);
    DecodeEncode(c);
    AverageColorChannel(sel, OwnWeight, 0);
    assert Weights(sel, OwnWeight) == [2.267, 2.16, 6.315];
    OwnRed();
  }

  /** Draws for a predefined completion: the first one (gas at low
      pressure) fails, every later one passes. */
  const LowDrawFirst: seq<real> := [0.1, 0.9, 0.9, 0.9, 0.9, 0.9, 0.9, 0.9, 0.9, 0.9, 0.9]

  /** In the predefined branch bubbles and gas are drawn separately, so
      `precipitation-1` at 0.5 atmospheres can bubble without gas. */
  lemma PredefinedBubblesWithoutGas(sqrt: real -> real)
    ensures var o := PredefinedOutcome(Chemicals, [ChemicalRows2[3], ChemicalRows1[4]], ReactionRows1[2],
                                       25.0, 0.5, Rng(LowDrawFirst, 0), sqrt).0;
      o.hasBubbles && !o.hasGas
  {
    var rx := ReactionRows1[2];
    assert rx.effects.temperature.None? && rx.conditions.temperature == 25.0;
    assert !rx.effects.bubbles && !rx.effects.smoke && !rx.effects.explosion && !rx.effects.fire;
    BubblesWithoutGas(Chemicals, [ChemicalRows2[3], ChemicalRows1[4]], rx, 25.0, 0.5, Rng(LowDrawFirst, 0), sqrt);
  }
}

=== FILE: formulas.dfy ===
/** The formula composer: `generateChemicalFormula` and
    `generateReactionFormula` (src/context/SimulationContext.tsx:81-124) and
    the equation line `generateChemicalEquation`
    (src/components/SimulationArea.tsx:269-283). */
module Formulas {
  import opened Text
  import opened Catalogue

  const Plus := " + "
  const Arrow := " → "

  /** How a selected chemical is written: `formula || id.toUpperCase()`. */
  function Label(c: Chemical): (r: string)
    ensures c.formula != "" ==> r == c.formula
    ensures c.formula == "" ==> r == ToUpper(c.id)
  {
    FormulaOr(c, ToUpper(c.id))
  }

  /** How an id is written after a table lookup: `chemical?.formula || id.toUpperCase()`. */
  function IdLabel(table: seq<Chemical>, id: string): (r: string)
    ensures FindChemical(table, id).None? ==> r == ToUpper(id)
    ensures FindChemical(table, id).Some? ==> r == Label(FindChemical(table, id).value)
  {
    match FindChemical(table, id)
    case None => ToUpper(id)
    case Some(c) => FormulaOr(c, ToUpper(id))
  }

  function Labels(cs: seq<Chemical>): (r: seq<string>)
    ensures |r| == |cs|
    ensures forall i :: 0 <= i < |cs| ==> r[i] == Label(cs[i])
  {
    seq(|cs|, i requires 0 <= i < |cs| => Label(cs[i]))
  }

  function IdLabels(table: seq<Chemical>, ids: seq<string>): (r: seq<string>)
    ensures |r| == |ids|
    ensures forall i :: 0 <= i < |ids| ==> r[i] == IdLabel(table, ids[i])
  {
    seq(|ids|, i requires 0 <= i < |ids| => IdLabel(table, ids[i]))
  }

  /** The reactant side: every label joined with `" + "`. */
  function LeftSide(reactants: seq<Chemical>): string {
    Join(Labels(reactants), Plus)
  }

  /** The product side, each product looked up in the chemical table. */
  function RightSide(table: seq<Chemical>, products: seq<string>): string {
    Join(IdLabels(table, products), Plus)
  }

  /** `generateChemicalFormula` (:81-86): `''` for no chemicals, else the joined labels. */
  function ChemicalFormula(cs: seq<Chemical>): (r: string)
    ensures |cs| == 0 ==> r == ""
    ensures forall k :: 0 <= k < |cs| ==> Contains(r, Label(cs[k]))
  {
    if |cs| == 0 then "" else
      forall k | 0 <= k < |cs| ensures Contains(LeftSide(cs), Label(cs[k])) {
        JoinContains(Labels(cs), Plus, k);
      }
      LeftSide(cs)
  }

  /** One rule of the fixed narrative table: some reactant id from `first`
      and some from `second` give the `tail` after the left side. */
  datatype Pattern = Pattern(first: set<string>, second: set<string>, tail: string)

  const Acids: set<string> := {"hcl", "h2so4"}

  /** The narrative rules, tried in this order (:104-118). */
  const Patterns: seq<Pattern> := [
    Pattern(Acids, {"na", "zn"}, " → Metal salt + H₂↑"),
    Pattern(Acids, {"nahco3", "na2co3"}, " → Salt + H₂O + CO₂↑"),
    Pattern({"naoh", "koh"}, Acids, " → Salt + H₂O")
  ]

  const FallbackTail := " → Products"

  /** Some chemical of the list has one of the given ids: the `.some(...)`
      tests of the source, whose disjunctions of `===` comparisons and
      `includes` calls on id lists are set membership here. */
  predicate SomeIdIn(cs: seq<Chemical>, ids: set<string>) {
    exists i :: 0 <= i < |cs| && cs[i].id in ids
  }

  predicate Matches(cs: seq<Chemical>, p: Pattern) {
    SomeIdIn(cs, p.first) && SomeIdIn(cs, p.second)
  }

  /** The tail of a spontaneous formula with no products, as the source's
      `if` chain writes it (:104-121). */
  function SpontaneousTail(cs: seq<Chemical>): (t: string)
    ensures Contains(t, Arrow)
  {
    var t :=
      if SomeIdIn(cs, {"hcl", "h2so4"}) && SomeIdIn(cs, {"na", "zn"}) then " → Metal salt + H₂↑"
      else if SomeIdIn(cs, {"hcl", "h2so4"}) && SomeIdIn(cs, {"nahco3", "na2co3"}) then " → Salt + H₂O + CO₂↑"
      else if SomeIdIn(cs, {"naoh", "koh"}) && SomeIdIn(cs, {"hcl", "h2so4"}) then " → Salt + H₂O"
      else " → Products";
    PrefixContains(Arrow, t[|Arrow|..]);
    assert t == Arrow + t[|Arrow|..];
    t
  }

  /** Reference reading of the rules: the tail of the first matching pattern, else the fallback. */
  function FirstMatchTail(cs: seq<Chemical>, ps: seq<Pattern>): string {
    if ps == [] then FallbackTail
    else if Matches(cs, ps[0]) then ps[0].tail
    else FirstMatchTail(cs, ps[1..])
  }

  /** The source's `if` chain is the first-match reading of the pattern table. */
  lemma SpontaneousTailIsFirstMatch(cs: seq<Chemical>)
    ensures SpontaneousTail(cs) == FirstMatchTail(cs, Patterns)
  {
    var ps := Patterns;
    assert ps[2..][1..] == [] && ps[1..][1..] == ps[2..] && ps[1..] == ps[1..];
    assert FirstMatchTail(cs, ps[2..]) == if Matches(cs, ps[2]) then ps[2].tail else FallbackTail;
    assert FirstMatchTail(cs, ps[1..]) == if Matches(cs, ps[1]) then ps[1].tail else FirstMatchTail(cs, ps[2..]);
    assert FirstMatchTail(cs, ps) == if Matches(cs, ps[0]) then ps[0].tail else FirstMatchTail(cs, ps[1..]);
  }

  /** An earlier pattern wins over every later one that also matches. */
  lemma {:induction false} FirstMatchWins(cs: seq<Chemical>, ps: seq<Pattern>, k: nat)
    requires k < |ps| && Matches(cs, ps[k])
    requires forall j :: 0 <= j < k ==> !Matches(cs, ps[j])
    ensures FirstMatchTail(cs, ps) == ps[k].tail
  {
    if k > 0 {
      assert !Matches(cs, ps[0]);
      FirstMatchWins(cs, ps[1..], k - 1);
    }
  }

  /** `generateReactionFormula(reactants, products, isSpontaneous)` (:88-124),
      products looked up in `table`. */
  function ReactionFormula(table: seq<Chemical>, reactants: seq<Chemical>, products: seq<string>, spontaneous: bool): (r: string)
    ensures StartsWith(r, LeftSide(reactants))
    ensures |products| > 0 ==> r == LeftSide(reactants) + Arrow + RightSide(table, products)
    ensures |products| == 0 && spontaneous ==> r == LeftSide(reactants) + SpontaneousTail(reactants)
    ensures r == LeftSide(reactants) <==> |products| == 0 && !spontaneous
  {
    var left := LeftSide(reactants);
    if |products| > 0 then
      assert left + Arrow + RightSide(table, products) == left + (Arrow + RightSide(table, products));
      left + Arrow + RightSide(table, products)
    else if spontaneous then
      var t := SpontaneousTail(reactants);
      assert |t| > 0;
      left + t
    else left
  }

  lemma ContainsInPrefix(s: string, q: string, rest: string)
    requires Contains(s, q)
    ensures Contains(s + rest, q)
  {
    var i :| 0 <= i <= |s| && OccursAt(s, q, i);
    assert (s + rest)[i..i + |q|] == s[i..i + |q|];
    assert OccursAt(s + rest, q, i);
  }

  lemma ContainsInSuffix(pre: string, s: string, q: string)
    requires Contains(s, q)
    ensures Contains(pre + s, q)
  {
    var i :| 0 <= i <= |s| && OccursAt(s, q, i);
    assert (pre + s)[|pre| + i..|pre| + i + |q|] == s[i..i + |q|];
    assert OccursAt(pre + s, q, |pre| + i);
  }

  /** Every reactant's label, and every product's label, occurs in the formula. */
  lemma FormulaMentionsEverything(table: seq<Chemical>, reactants: seq<Chemical>, products: seq<string>, spontaneous: bool)
    ensures forall k :: 0 <= k < |reactants| ==>
      Contains(ReactionFormula(table, reactants, products, spontaneous), Label(reactants[k]))
    ensures forall k :: 0 <= k < |products| ==>
      Contains(ReactionFormula(table, reactants, products, spontaneous), IdLabel(table, products[k]))
  {
    var r := ReactionFormula(table, reactants, products, spontaneous);
    var left := LeftSide(reactants);
    assert r == left + r[|left|..];
    forall k | 0 <= k < |reactants|
      ensures Contains(r, Label(reactants[k]))
    {
      JoinContains(Labels(reactants), Plus, k);
      ContainsInPrefix(left, Label(reactants[k]), r[|left|..]);
    }
    forall k | 0 <= k < |products|
      ensures Contains(r, IdLabel(table, products[k]))
    {
      JoinContains(IdLabels(table, products), Plus, k);
      assert r == (left + Arrow) + RightSide(table, products);
      ContainsInSuffix(left + Arrow, RightSide(table, products), IdLabel(table, products[k]));
    }
  }

  /** `generateChemicalEquation` (SimulationArea.tsx:269-283): `''` without a
      reaction, else reactant and product ids looked up and joined around the arrow. */
  function ChemicalEquation(table: seq<Chemical>, reaction: Option<Reaction>): (r: string)
    ensures reaction.None? ==> r == ""
    ensures reaction.Some? ==> Contains(r, Arrow)
  {
    match reaction
    case None => ""
    case Some(rx) =>
      var left := Join(IdLabels(table, rx.reactants), Plus);
      var right := Join(IdLabels(table, rx.products), Plus);
      assert OccursAt(Arrow, Arrow, 0);
      ContainsInPrefix(Arrow, Arrow, right);
      ContainsInSuffix(left, Arrow + right, Arrow);
      assert left + Arrow + right == left + (Arrow + right);
      left + Arrow + right
  }

  /** When every reactant id resolves, the resolved chemicals' left side is the equation's left side. */
  lemma ResolvedLabels(table: seq<Chemical>, ids: seq<string>)
    requires AllResolve(table, ids)
    ensures Labels(Resolve(table, ids)) == IdLabels(table, ids)
  {
  }

  /** With resolvable reactants and at least one product, the equation line is
      the reaction formula of the resolved reactants; with no products it
      still ends in the arrow, where the formula stops at the left side. */
  lemma EquationIsFormula(table: seq<Chemical>, rx: Reaction)
    requires AllResolve(table, rx.reactants)
    ensures |rx.products| > 0 ==>
      ChemicalEquation(table, Some(rx)) == ReactionFormula(table, Resolve(table, rx.reactants), rx.products, false)
    ensures |rx.products| == 0 ==>
      ChemicalEquation(table, Some(rx)) == ReactionFormula(table, Resolve(table, rx.reactants), rx.products, false) + Arrow
  {
    ResolvedLabels(table, rx.reactants);
    assert IdLabels(table, rx.products) == [] <== |rx.products| == 0;
  }
}

=== FILE: freemode.dfy ===
/** The free-mode branch of the delayed completion
    (src/context/SimulationContext.tsx:276-454): with no reaction selected the
    outcome follows from category rules over the selected chemicals' ids and
    states, the session's temperature and pressure, and random draws. */
module FreeMode {
  import opened Text
  import opened Colors
  import opened Catalogue
  import opened Mixing
  import opened Formulas
  import opened Outcomes

  /** The most draws one free-mode completion can take. */
  const FreeDraws: nat := 17

  /** The category lists of :277-284. */
  const AcidIds: set<string> := {"hcl", "h2so4", "hno3", "c2h4o2"}
  const BaseIds: set<string> := {"naoh", "koh", "nh4oh", "mgoh2", "caoh2"}
  const MetalIds: set<string> := {"fe", "zn", "cu", "na", "mg", "ca", "al", "k", "ag", "pb"}
  const SaltIds: set<string> := {"nacl", "cuso4", "agno3", "nahco3", "na2co3", "mgcl2", "caso4"}
  const OxidizerIds: set<string> := {"h2o2", "kclo3", "hno3", "o2"}
  const ReducerIds: set<string> := {"fe", "zn", "h2", "c", "na", "ca"}
  const AlkaliIds: set<string> := {"na", "k"}

  predicate SomeState(sel: seq<Chemical>, s: PhysState) {
    exists i :: 0 <= i < |sel| && sel[i].state == s
  }

  /** `selectedChemicals.reduce((sum, c) => sum + (c.quantity || 1), 0)` (:291). */
  function TotalQuantity(sel: seq<Chemical>): (t: real)
    ensures AllWellFormed(sel) ==> t >= 0.0
    ensures |sel| > 0 && AllWellFormed(sel) ==> t > 0.0
  {
    if sel == [] then 0.0
    else
      assert AllWellFormed(sel) ==> AllWellFormed(sel[1..]) by {
        if AllWellFormed(sel) {
          forall i | 0 <= i < |sel[1..]| ensures WellFormed(sel[1..][i]) {
            assert sel[1..][i] == sel[i + 1];
          }
        }
      }
      EffectiveQuantity(sel[0]) + TotalQuantity(sel[1..])
  }

  /** `Math.min(3, totalQuantity / 2)` (:326). */
  function QuantityFactor(total: real): (qf: real)
    ensures qf <= 3.0
    ensures total > 0.0 ==> qf > 0.0
    ensures qf == 3.0 || qf == total / 2.0
  {
    if 3.0 < total / 2.0 then 3.0 else total / 2.0
  }

  /** The category and state flags of :277-289 and the total quantity. */
  datatype Traits = Traits(
    acid: bool, base: bool, metal: bool, salt: bool, oxidizer: bool, reducer: bool, water: bool,
    solid: bool, liquid: bool, gas: bool, alkaliMetal: bool, total: real)

  function TraitsOf(sel: seq<Chemical>): (t: Traits)
    ensures t.acid == SomeIdIn(sel, AcidIds) && t.base == SomeIdIn(sel, BaseIds)
    ensures t.water == SomeIdIn(sel, {"h2o"}) && t.alkaliMetal == SomeIdIn(sel, AlkaliIds)
    ensures t.liquid == SomeState(sel, Liquid) && t.solid == SomeState(sel, Solid) && t.gas == SomeState(sel, Gas)
  {
    Traits(SomeIdIn(sel, AcidIds), SomeIdIn(sel, BaseIds), SomeIdIn(sel, MetalIds), SomeIdIn(sel, SaltIds),
           SomeIdIn(sel, OxidizerIds), SomeIdIn(sel, ReducerIds), SomeIdIn(sel, {"h2o"}),
           SomeState(sel, Solid), SomeState(sel, Liquid), SomeState(sel, Gas), SomeIdIn(sel, AlkaliIds),
           TotalQuantity(sel))
  }

  /** Adding a chemical to the tube adds its `quantity || 1` to the total. */
  lemma {:induction false} TotalQuantityAppend(sel: seq<Chemical>, c: Chemical)
    ensures TotalQuantity(sel + [c]) == TotalQuantity(sel) + EffectiveQuantity(c)
    decreases |sel|
  {
    if sel == [] {
      assert [c][1..] == [];
    } else {
      assert (sel + [c])[1..] == sel[1..] + [c];
      TotalQuantityAppend(sel[1..], c);
    }
  }

  lemma SomeIdInAppend(sel: seq<Chemical>, c: Chemical, ids: set<string>)
    ensures SomeIdIn(sel + [c], ids) <==> SomeIdIn(sel, ids) || c.id in ids
  {
    if SomeIdIn(sel + [c], ids) && !(c.id in ids) {
      var i :| 0 <= i < |sel + [c]| && (sel + [c])[i].id in ids;
      assert sel[i] == (sel + [c])[i];
    }
    if SomeIdIn(sel, ids) {
      var i :| 0 <= i < |sel| && sel[i].id in ids;
      assert (sel + [c])[i] == sel[i];
    }
    if c.id in ids {
      assert (sel + [c])[|sel|] == c;
    }
  }

  lemma SomeStateAppend(sel: seq<Chemical>, c: Chemical, st: PhysState)
    ensures SomeState(sel + [c], st) <==> SomeState(sel, st) || c.state == st
  {
    if SomeState(sel + [c], st) && c.state != st {
      var i :| 0 <= i < |sel + [c]| && (sel + [c])[i].state == st;
      assert sel[i] == (sel + [c])[i];
    }
    if SomeState(sel, st) {
      var i :| 0 <= i < |sel| && sel[i].state == st;
      assert (sel + [c])[i] == sel[i];
    }
    if c.state == st {
      assert (sel + [c])[|sel|] == c;
    }
  }

  /** The traits are a summary of the tube that one more chemical updates on
      its own: every flag of `sel + [c]` is the flag of `sel` or of `c`, and
      the quantities add. So the traits do not depend on the order the
      chemicals were added in. */
  lemma TraitsAppend(sel: seq<Chemical>, c: Chemical)
    ensures var t := TraitsOf(sel + [c]); var a := TraitsOf(sel); var b := TraitsOf([c]);
      t.acid == (a.acid || b.acid) && t.base == (a.base || b.base) &&
      t.metal == (a.metal || b.metal) && t.salt == (a.salt || b.salt) &&
      t.oxidizer == (a.oxidizer || b.oxidizer) && t.reducer == (a.reducer || b.reducer) &&
      t.water == (a.water || b.water) && t.alkaliMetal == (a.alkaliMetal || b.alkaliMetal) &&
      t.solid == (a.solid || b.solid) && t.liquid == (a.liquid || b.liquid) && t.gas == (a.gas || b.gas) &&
      t.total == a.total + b.total
  {
    assert [] + [c] == [c];
    var groups := {AcidIds, BaseIds, MetalIds, SaltIds, OxidizerIds, ReducerIds, {"h2o"}, AlkaliIds};
    forall ids | ids in groups
      ensures SomeIdIn(sel + [c], ids) <==> SomeIdIn(sel, ids) || SomeIdIn([c], ids)
    {
      SomeIdInAppend(sel, c, ids);
      SomeIdInAppend([], c, ids);
    }
    SomeStateAppend(sel, c, Solid);
    SomeStateAppend(sel, c, Liquid);
    SomeStateAppend(sel, c, Gas);
    SomeStateAppend([], c, Solid);
    SomeStateAppend([], c, Liquid);
    SomeStateAppend([], c, Gas);
    TotalQuantityAppend(sel, c);
    TotalQuantityAppend([], c);
  }

  /** `isHighlyReactive` (:293-298). */
  predicate HighlyReactive(sel: seq<Chemical>, t: Traits, pressure: real) {
    (t.acid && t.metal) ||
    (t.oxidizer && t.reducer) ||
    (t.alkaliMetal && t.water) ||
    (t.acid && t.base && pressure > 1.5) ||
    (SomeIdIn(sel, {"kclo3"}) && SomeIdIn(sel, {"s", "c"}))
  }

  /** `mixedColor` (:300-321): a fixed colour for each recognised pairing,
      in this order, else the blend of the selected colours. */
  function MixedColor(sel: seq<Chemical>, t: Traits): (c: string)
    requires AllWellFormed(sel)
    ensures t.acid && t.base ==> c == "#e6f7ff"
    ensures |sel| >= 2 ==> IsLowerHexColor(c)
  {
    if t.acid && t.base then "#e6f7ff"
    else if t.metal && t.acid then "#c8e6c9"
    else if t.oxidizer && t.reducer then "#ffccbc"
    else if t.oxidizer && t.metal then "#bcaaa4"
    else if t.alkaliMetal && t.water then "#ffeb3b"
    else if SomeIdIn(sel, {"agno3"}) && t.salt then "#f5f5f5"
    else if SomeIdIn(sel, {"cuso4"}) && SomeIdIn(sel, {"fe"}) then "#a5d6a7"
    else if SomeIdIn(sel, {"i2"}) && SomeIdIn(sel, {"starch"}) then "#3f51b5"
    else BlendColors(sel)
  }

  /** A draw of `base + Math.random() * span`, scaled by the quantity factor. */
  function Rise(g: Rng, base: real, span: real, qf: real): (r: (real, Rng))
    requires HasDraws(g, 1) && span >= 0.0
    ensures r.1 == Rng(g.draws, g.next + 1)
    ensures 0.0 <= g.draws[g.next] < 1.0 && qf >= 0.0 ==> base * qf <= r.0 <= (base + span) * qf
  {
    var (x, g1) := Draw(g);
    assert 0.0 <= x < 1.0 && qf >= 0.0 ==> base * qf <= (base + x * span) * qf <= (base + span) * qf by {
      if 0.0 <= x < 1.0 && qf >= 0.0 {
        assert x * span <= span;
        assert (base + x * span) * qf == base * qf + (x * span) * qf;
        assert (x * span) * qf >= 0.0;
        assert (span - x * span) * qf >= 0.0;
      }
    }
    ((base + x * span) * qf, g1)
  }

  /** The temperature rule (:328-357): which pairing drives the change, and by how much. */
  function FreeHeat(sel: seq<Chemical>, t: Traits, temperature: real, g: Rng): (r: (Option<TempDirection>, real, Rng))
    requires HasDraws(g, 2)
    ensures r.2.draws == g.draws && g.next <= r.2.next <= g.next + 2
  {
    var qf := QuantityFactor(t.total);
    if t.acid && t.base then
      var (d, g1) := Rise(g, 15.0, 10.0, qf); (Some(Increase), temperature + d, g1)
    else if t.metal && t.acid then
      var (d, g1) := Rise(g, 20.0, 15.0, qf); (Some(Increase), temperature + d, g1)
    else if t.oxidizer && t.reducer then
      var (d, g1) := Rise(g, 25.0, 20.0, qf); (Some(Increase), temperature + d, g1)
    else if t.alkaliMetal && t.water then
      var (d, g1) := Rise(g, 40.0, 30.0, qf); (Some(Increase), temperature + d, g1)
    else if t.solid && t.liquid && SomeIdIn(sel, {"nahco3", "nh4cl"}) then
      var (d, g1) := Rise(g, 15.0, 10.0, qf); (Some(Decrease), Max(temperature - d, 0.0), g1)
    else if SomeIdIn(sel, {"nh4no3"}) && t.water then
      var (d, g1) := Rise(g, 20.0, 10.0, qf); (Some(Decrease), Max(temperature - d, -5.0), g1)
    else
      var (rand, g1) := Draw(g);
      if rand > 0.4 then
        if rand > 0.7 then
          var (d, g2) := Rise(g1, 10.0, 30.0, qf); (Some(Increase), temperature + d, g2)
        else
          var (d, g2) := Rise(g1, 10.0, 15.0, qf); (Some(Decrease), Max(temperature - d, 0.0), g2)
      else (None, temperature, g1)
  }

  function Max(a: real, b: real): (m: real)
    ensures m >= a && m >= b && (m == a || m == b)
  {
    if a >= b then a else b
  }

  /** The pressure adjustment (:359-367). */
  function PressureAdjust(change: Option<TempDirection>, finalTemp: real, pressure: real, liquid: bool, qf: real): real {
    if pressure > 1.5 then
      if change == Some(Increase) then finalTemp + (pressure - 1.0) * 10.0 * qf else finalTemp
    else if pressure < 0.7 then
      if finalTemp > 40.0 && liquid then finalTemp + 10.0 * qf else finalTemp
    else finalTemp
  }

  /** The final temperature change and temperature of a free-mode completion. */
  function FreeTemperature(sel: seq<Chemical>, t: Traits, temperature: real, pressure: real, g: Rng): (r: (Option<TempDirection>, real, Rng))
    requires HasDraws(g, 2)
    ensures r.2.draws == g.draws && g.next <= r.2.next <= g.next + 2
  {
    var (change, t1, g1) := FreeHeat(sel, t, temperature, g);
    (change, PressureAdjust(change, t1, pressure, t.liquid, QuantityFactor(t.total)), g1)
  }

  /** The two draws the temperature rule may take lie in [0, 1). */
  predicate NextTwoValid(g: Rng) {
    HasDraws(g, 2) && 0.0 <= g.draws[g.next] < 1.0 && 0.0 <= g.draws[g.next + 1] < 1.0
  }

  /** Before the pressure adjustment: a rise ends above the start, a fall
      ends no higher than the larger of the start and 0, no change keeps the start. */
  lemma FreeHeatDirection(sel: seq<Chemical>, t: Traits, temperature: real, g: Rng)
    requires NextTwoValid(g) && t.total > 0.0
    ensures var (change, t1, _) := FreeHeat(sel, t, temperature, g);
      (change == Some(Increase) ==> t1 > temperature) &&
      (change == Some(Decrease) ==> t1 <= Max(temperature, 0.0)) &&
      (change.None? ==> t1 == temperature) &&
      (change == Some(Decrease) && t1 > 0.0 ==> t1 <= temperature - 10.0 * QuantityFactor(t.total))
  {
    var qf := QuantityFactor(t.total);
    assert qf > 0.0;
    var g1 := Rng(g.draws, g.next + 1);
    assert 0.0 <= g1.draws[g1.next] < 1.0;
  }

  /** The pressure adjustment only ever raises the temperature, and only a
      rise under high pressure or a hot liquid under low pressure moves it. */
  lemma PressureAdjustRaises(change: Option<TempDirection>, t1: real, pressure: real, liquid: bool, qf: real)
    requires qf > 0.0
    ensures PressureAdjust(change, t1, pressure, liquid, qf) >= t1
    ensures PressureAdjust(change, t1, pressure, liquid, qf) > t1 <==>
      (pressure > 1.5 && change == Some(Increase)) || (pressure < 0.7 && t1 > 40.0 && liquid)
  {
    if pressure > 1.5 && change == Some(Increase) {
      assert (pressure - 1.0) * 10.0 * qf > 0.0;
    }
  }

  /** With valid draws and a positive total quantity: a rise ends above the
      starting temperature; a fall ends no higher than the larger of the start
      and 0 at every pressure, because the low-pressure boost of a hot liquid
      never exceeds the smallest fall; no change at ordinary or high pressure
      keeps the start. */
  lemma FreeTemperatureDirection(sel: seq<Chemical>, t: Traits, temperature: real, pressure: real, g: Rng)
    requires NextTwoValid(g) && t.total > 0.0
    ensures var (change, ft, _) := FreeTemperature(sel, t, temperature, pressure, g);
      (change == Some(Increase) ==> ft > temperature) &&
      (change == Some(Decrease) ==> ft <= Max(temperature, 0.0)) &&
      (change.None? && 0.7 <= pressure ==> ft == temperature)
  {
    FreeHeatDirection(sel, t, temperature, g);
    var (change, t1, g1) := FreeHeat(sel, t, temperature, g);
    PressureAdjustRaises(change, t1, pressure, t.liquid, QuantityFactor(t.total));
  }

  /** The effect flags of :369-426, each a short-circuit disjunction whose
      random terms draw only when every term before them failed. */
  datatype Flags = Flags(bubbles: bool, gas: bool, smoke: bool, precipitate: bool, fire: bool,
                         glow: bool, explosion: bool)

  function BubblesAndGas(sel: seq<Chemical>, t: Traits, ft: real, pressure: real, g: Rng): (r: (bool, bool, Rng))
    requires HasDraws(g, 2)
    ensures r.2.draws == g.draws && g.next <= r.2.next <= g.next + 2
    ensures r.0 ==> r.1
    ensures r.1 <==> r.0 || t.gas || (t.liquid && ft > 85.0) || pressure < 0.7
  {
    var pre := (t.acid && t.metal) ||
               (t.acid && t.salt && SomeIdIn(sel, {"nahco3", "na2co3", "caco3"})) ||
               (t.liquid && ft > 70.0) ||
               t.gas;
    var (b1, g1) := OrChance(pre, g, t.acid && t.base, 0.5);
    var (b2, g2) := OrChance(b1 || pressure < 0.8, g1, true, 0.7);
    (b2, b2 || t.gas || (t.liquid && ft > 85.0) || pressure < 0.7, g2)
  }

  function Smoke(sel: seq<Chemical>, t: Traits, hr: bool, ft: real, g: Rng): (r: (bool, Rng))
    requires HasDraws(g, 2)
    ensures r.1.draws == g.draws && g.next <= r.1.next <= g.next + 2
    ensures ft > 85.0 || hr ==> r.0
  {
    var pre := (t.gas && t.oxidizer) || ft > 85.0 || SomeIdIn(sel, {"nh3", "hcl"}) ||
               (t.oxidizer && t.reducer) || hr;
    var (s1, g1) := OrChance(pre, g, t.total > 5.0, 0.5);
    OrChance(s1, g1, true, 0.7)
  }

  function Precipitate(sel: seq<Chemical>, t: Traits, g: Rng): (r: (bool, Rng))
    requires HasDraws(g, 1)
    ensures r.1.draws == g.draws && g.next <= r.1.next <= g.next + 1
    ensures t.acid && t.base ==> r.0
  {
    var pre := (t.salt && SomeIdIn(sel, {"agno3", "pbcl2", "bacl2"})) ||
               (t.acid && t.base) ||
               (SomeIdIn(sel, {"agno3"}) && SomeIdIn(sel, {"nacl"}));
    OrChance(pre, g, t.solid && t.liquid, 0.5)
  }

  function Fire(sel: seq<Chemical>, t: Traits, hr: bool, ft: real, g: Rng): (r: (bool, Rng))
    requires HasDraws(g, 3)
    ensures r.1.draws == g.draws && g.next <= r.1.next <= g.next + 3
    ensures SomeIdIn(sel, AlkaliIds) && SomeIdIn(sel, {"h2o"}) ==> r.0
    ensures r.0 ==> (hr || ft > 100.0 || (t.oxidizer && t.reducer && ft > 80.0) ||
                     (SomeIdIn(sel, AlkaliIds) && SomeIdIn(sel, {"h2o"})))
  {
    var pre := (t.oxidizer && t.reducer && ft > 80.0) ||
               (SomeIdIn(sel, AlkaliIds) && SomeIdIn(sel, {"h2o"}));
    var (f1, g1) := OrChance(pre, g, hr, 0.6);
    var (f2, g2) := OrChance(f1, g1, ft > 100.0, 0.6);
    OrChance(f2, g2, t.total > 7.0 && hr, 0.4)
  }

  function Glow(sel: seq<Chemical>, t: Traits, hr: bool, fire: bool, g: Rng): (r: (bool, Rng))
    requires HasDraws(g, 3)
    ensures r.1.draws == g.draws && g.next <= r.1.next <= g.next + 3
    ensures SomeIdIn(sel, {"h2o2"}) && SomeIdIn(sel, {"kcl", "nacl"}) ==> r.0 && r.1 == g
    ensures !r.0 ==> g.next < r.1.next && g.draws[r.1.next - 1] <= 0.85
  {
    var pre := (SomeIdIn(sel, {"h2o2"}) && SomeIdIn(sel, {"kcl", "nacl"})) ||
               (SomeIdIn(sel, {"luminol"}) && t.oxidizer);
    var (l1, g1) := OrChance(pre, g, fire, 0.5);
    var (l2, g2) := OrChance(l1, g1, hr, 0.7);
    OrChance(l2, g2, true, 0.85)
  }

  /** `glowColor` (:408-419): the first matching id group decides. */
  function GlowColor(sel: seq<Chemical>): (c: string)
    ensures IsLowerHexColor(c)
    ensures SomeIdIn(sel, {"cu", "cuso4"}) ==> c == "#00ffff"
    ensures c == "#ffff00" <==> !SomeIdIn(sel, {"cu", "cuso4", "na", "k", "ca", "caoh2", "h3bo3", "ba"})
  {
    var c :=
      if SomeIdIn(sel, {"cu", "cuso4"}) then "#00ffff"
      else if SomeIdIn(sel, {"na"}) then "#ffaa00"
      else if SomeIdIn(sel, {"k"}) then "#ff00ff"
      else if SomeIdIn(sel, {"ca", "caoh2"}) then "#ff0000"
      else if SomeIdIn(sel, {"h3bo3", "ba"}) then "#00ff00"
      else "#ffff00";
    assert IsLowerHexDigit(c[1]) && IsLowerHexDigit(c[2]) && IsLowerHexDigit(c[3]);
    assert IsLowerHexDigit(c[4]) && IsLowerHexDigit(c[5]) && IsLowerHexDigit(c[6]);
    c
  }

  function Explosion(sel: seq<Chemical>, t: Traits, hr: bool, ft: real, g: Rng): (r: (bool, Rng))
    requires HasDraws(g, 3)
    ensures r.1.draws == g.draws && g.next <= r.1.next <= g.next + 3
    ensures ft > 140.0 ==> r.0
  {
    var pre := (SomeIdIn(sel, {"kclo3"}) && SomeIdIn(sel, {"s", "c"})) ||
               (SomeIdIn(sel, {"h2", "o2"}) && ft > 90.0);
    var (e1, g1) := OrChance(pre, g, hr && ft > 100.0, 0.7);
    var (e2, g2) := OrChance(e1, g1, SomeIdIn(sel, AlkaliIds) && t.water, 0.5);
    OrChance(e2 || ft > 140.0, g2, t.total > 8.0 && ft > 120.0, 0.5)
  }

  function FreeFlags(sel: seq<Chemical>, t: Traits, hr: bool, ft: real, pressure: real, g: Rng): (r: (Flags, Rng))
    requires HasDraws(g, 14)
    ensures r.1.draws == g.draws && g.next <= r.1.next <= g.next + 14
    ensures r.0.bubbles ==> r.0.gas
    ensures ft > 140.0 ==> r.0.explosion
    ensures t.acid && t.base ==> r.0.precipitate
    ensures ft > 85.0 || hr ==> r.0.smoke
  {
    var (bubbles, gas, g1) := BubblesAndGas(sel, t, ft, pressure, g);
    var (smoke, g2) := Smoke(sel, t, hr, ft, g1);
    var (precipitate, g3) := Precipitate(sel, t, g2);
    var (fire, g4) := Fire(sel, t, hr, ft, g3);
    var (glow, g5) := Glow(sel, t, hr, fire, g4);
    var (explosion, g6) := Explosion(sel, t, hr, ft, g5);
    (Flags(bubbles, gas, smoke, precipitate, fire, glow, explosion), g6)
  }

  /** The result a free-mode completion writes (:276-451), from the snapshot of
      the selection, temperature and pressure taken when it started. */
  function FreeOutcome(sel: seq<Chemical>, temperature: real, pressure: real, g: Rng, sqrt: real -> real): (r: (Outcome, Rng))
    requires HasDraws(g, FreeDraws) && AllWellFormed(sel)
    ensures r.1.draws == g.draws && g.next <= r.1.next <= g.next + FreeDraws
    ensures r.0.hasBubbles ==> r.0.hasGas
    ensures r.0.hasIce <==> r.0.temperature < 5.0
    ensures r.0.temperature > 140.0 ==> r.0.hasExplosion
    ensures r.0.glowColor.Some? && IsLowerHexColor(r.0.glowColor.value)
    ensures r.0.formula == LeftSide(sel) + SpontaneousTail(sel)
    ensures r.0.color == MixedColor(sel, TraitsOf(sel))
    ensures r.0.temperatureChange == FreeTemperature(sel, TraitsOf(sel), temperature, pressure, g).0
    ensures r.0.temperature == FreeTemperature(sel, TraitsOf(sel), temperature, pressure, g).1
    ensures r.0.hasExplosion ==> r.0.intensity == 5.0 * QuantityScale(TotalQuantity(sel), sqrt)
    ensures !r.0.hasExplosion && r.0.hasFire ==> r.0.intensity == 4.0 * QuantityScale(TotalQuantity(sel), sqrt)
  {
    var t := TraitsOf(sel);
    var hr := HighlyReactive(sel, t, pressure);
    var color := MixedColor(sel, t);
    var (change, ft, g1) := FreeTemperature(sel, t, temperature, pressure, g);
    var (f, g2) := FreeFlags(sel, t, hr, ft, pressure, g1);
    var q := TotalQuantity(sel);
    assert t.total == q;
    var intensity := Intensity(change, ft, f.explosion, f.fire, q, sqrt);
    ScaledTiers(change, ft, f.explosion, f.fire, q, sqrt);
    var (sound, g3) := SoundEffect(f.explosion, f.fire, f.bubbles, g2);
    var formula := ReactionFormula([], sel, [], true);
    (Outcome(color, f.smoke, f.bubbles, f.precipitate, change, ft, f.fire, ft < 5.0, f.glow,
             Some(GlowColor(sel)), f.explosion, f.gas, intensity, sound, formula), g3)
  }

  /** A free-mode completion over a non-empty selection is never silent about
      its strength: the intensity is positive, and the sound follows the
      priority explosion, fire, bubbles. */
  lemma FreeIntensityAndSound(sel: seq<Chemical>, temperature: real, pressure: real, g: Rng, sqrt: real -> real)
    requires HasDraws(g, FreeDraws) && AllWellFormed(sel) && |sel| > 0 && SqrtLike(sqrt)
    ensures var o := FreeOutcome(sel, temperature, pressure, g, sqrt).0;
      o.intensity > 0.0 &&
      (o.sound == Some(Sound.Explosion) <==> o.hasExplosion) &&
      (o.sound == Some(Hissing) <==> !o.hasExplosion && o.hasFire) &&
      (o.sound == Some(Bubbling) <==> !o.hasExplosion && !o.hasFire && o.hasBubbles)
  {
    var t := TraitsOf(sel);
    var hr := HighlyReactive(sel, t, pressure);
    var (change, ft, g1) := FreeTemperature(sel, t, temperature, pressure, g);
    var (f, g2) := FreeFlags(sel, t, hr, ft, pressure, g1);
    SoundPriority(f.explosion, f.fire, f.bubbles, g2);
  }

  /** The free result moves the temperature the way it records: up on a
      rise, never above the start (or 0) on a fall, and not at all without a
      change unless low pressure heats a liquid. */
  lemma FreeResultDirection(sel: seq<Chemical>, temperature: real, pressure: real, g: Rng, sqrt: real -> real)
    requires HasDraws(g, FreeDraws) && NextTwoValid(g) && AllWellFormed(sel) && |sel| > 0
    ensures var o := FreeOutcome(sel, temperature, pressure, g, sqrt).0;
      (o.temperatureChange == Some(Increase) ==> o.temperature > temperature) &&
      (o.temperatureChange == Some(Decrease) ==> o.temperature <= Max(temperature, 0.0)) &&
      (o.temperatureChange.None? && 0.7 <= pressure ==> o.temperature == temperature)
  {
    FreeTemperatureDirection(sel, TraitsOf(sel), temperature, pressure, g);
  }

  /** Without any recognised pairing the colour is the blend, which for two
      or more chemicals lies between their colours channel by channel. */
  lemma MixedColorFallsBackToBlend(sel: seq<Chemical>)
    requires AllWellFormed(sel)
    requires var t := TraitsOf(sel);
      !(t.acid && t.base) && !(t.metal && t.acid) && !(t.oxidizer && t.reducer) &&
      !(t.oxidizer && t.metal) && !(t.alkaliMetal && t.water) &&
      !(SomeIdIn(sel, {"agno3"}) && t.salt) &&
      !(SomeIdIn(sel, {"cuso4"}) && SomeIdIn(sel, {"fe"})) &&
      !(SomeIdIn(sel, {"i2"}) && SomeIdIn(sel, {"starch"}))
    ensures MixedColor(sel, TraitsOf(sel)) == BlendColors(sel)
    ensures |sel| >= 2 ==> WithinChannels(sel, DecodeHex(MixedColor(sel, TraitsOf(sel))))
  {
  }
}

=== FILE: mixing.dfy ===
/** `blendColors` (src/context/SimulationContext.tsx:502-528): the weighted
    per-channel average of the selected chemicals' colours.

    The source iterates over `selectedChemicals` (its `colors` argument only
    decides the empty and single cases, and its one caller passes exactly the
    selected chemicals' colours), and weighs each colour by density times
    quantity of the FIRST selected chemical with that colour (:512). The model
    keeps that lookup; `OwnWeightBlend` is the blend where every chemical
    brings its own weight, and `BlendIsOwnWeightBlend` says when the two agree. */
module Mixing {
  import opened Text
  import opened Colors
  import opened Catalogue

  function Chan(c: Rgb, k: nat): Channel
    requires k < 3
  {
    if k == 0 then c.r else if k == 1 then c.g else c.b
  }

  predicate AllHex(cs: seq<Chemical>) {
    forall i :: 0 <= i < |cs| ==> IsHexColor(cs[i].color)
  }

  /** Channel `k` of a chemical's colour. */
  function ChanOf(c: Chemical, k: nat): Channel
    requires IsHexColor(c.color) && k < 3
  {
    Chan(DecodeHex(c.color), k)
  }

  /** `selectedChemicals.find(c => c.color === color)`. */
  function FirstWithColor(sel: seq<Chemical>, color: string): (r: Option<Chemical>)
    ensures r.Some? ==> r.value in sel && r.value.color == color
    ensures r.None? ==> forall c :: c in sel ==> c.color != color
    ensures r.Some? ==> exists k :: 0 <= k < |sel| && sel[k] == r.value && forall j :: 0 <= j < k ==> sel[j].color != color
  {
    if sel == [] then None
    else if sel[0].color == color then Some(sel[0])
    else FirstWithColor(sel[1..], color)
  }

  /** A chemical's own blending weight: density times `quantity || 1`. */
  function OwnWeight(c: Chemical): real {
    c.density * EffectiveQuantity(c)
  }

  /** The weight the source gives a colour (:512-514). */
  function ColorWeight(sel: seq<Chemical>, color: string): real {
    match FirstWithColor(sel, color)
    case None => 1.0
    case Some(c) => OwnWeight(c)
  }

  lemma OwnWeightPositive(c: Chemical)
    requires WellFormed(c)
    ensures OwnWeight(c) > 0.0
  {
  }

  lemma ColorWeightPositive(sel: seq<Chemical>, color: string)
    requires AllWellFormed(sel)
    ensures ColorWeight(sel, color) > 0.0
  {
    var f := FirstWithColor(sel, color);
    if f.Some? {
      var i :| 0 <= i < |sel| && sel[i] == f.value;
      OwnWeightPositive(sel[i]);
    }
  }

  /** Sum of weight times value. */
  function WeightedSum(vs: seq<real>, ws: seq<real>): real
    requires |vs| == |ws|
  {
    if vs == [] then 0.0 else vs[0] * ws[0] + WeightedSum(vs[1..], ws[1..])
  }

  function TotalWeight(ws: seq<real>): real {
    if ws == [] then 0.0 else ws[0] + TotalWeight(ws[1..])
  }

  /** Channel `k` of every chemical, in order. */
  function ChannelValues(items: seq<Chemical>, k: nat): (vs: seq<real>)
    requires AllHex(items) && k < 3
    ensures |vs| == |items|
    ensures forall i :: 0 <= i < |items| ==> vs[i] == ChanOf(items[i], k) as real
  {
    seq(|items|, i requires 0 <= i < |items| => ChanOf(items[i], k) as real)
  }

  /** The weight of every chemical, in order. */
  function Weights(items: seq<Chemical>, w: Chemical -> real): (ws: seq<real>)
    ensures |ws| == |items|
    ensures forall i :: 0 <= i < |items| ==> ws[i] == w(items[i])
  {
    seq(|items|, i requires 0 <= i < |items| => w(items[i]))
  }

  /** `Math.round`: halves go up. */
  function Round(x: real): int {
    (x + 0.5).Floor
  }

  lemma RoundBetween(x: real, lo: int, hi: int)
    requires lo as real <= x <= hi as real
    ensures lo <= Round(x) <= hi
  {
  }

  /** Smallest channel `k` among the chemicals. */
  function MinChan(cs: seq<Chemical>, k: nat): (m: Channel)
    requires |cs| > 0 && AllHex(cs) && k < 3
    ensures forall i :: 0 <= i < |cs| ==> m <= ChanOf(cs[i], k)
  {
    if |cs| == 1 then ChanOf(cs[0], k)
    else
      var rest := MinChan(cs[1..], k);
      assert forall i :: 1 <= i < |cs| ==> cs[i] == cs[1..][i - 1];
      if ChanOf(cs[0], k) <= rest then ChanOf(cs[0], k) else rest
  }

  /** Largest channel `k` among the chemicals. */
  function MaxChan(cs: seq<Chemical>, k: nat): (m: Channel)
    requires |cs| > 0 && AllHex(cs) && k < 3
    ensures forall i :: 0 <= i < |cs| ==> ChanOf(cs[i], k) <= m
  {
    if |cs| == 1 then ChanOf(cs[0], k)
    else
      var rest := MaxChan(cs[1..], k);
      assert forall i :: 1 <= i < |cs| ==> cs[i] == cs[1..][i - 1];
      if ChanOf(cs[0], k) >= rest then ChanOf(cs[0], k) else rest
  }

  /** One step of a positive-weight sum stays within the bounds. */
  lemma StepBetween(lo: real, c: real, hi: real, x: real, s: real, t: real)
    requires lo <= c <= hi && x > 0.0
    requires lo * t <= s <= hi * t
    ensures lo * (x + t) <= c * x + s <= hi * (x + t)
  {
    assert lo * (x + t) == lo * x + lo * t;
    assert hi * (x + t) == hi * x + hi * t;
    assert lo * x <= c * x by { assert (c - lo) * x >= 0.0; }
    assert c * x <= hi * x by { assert (hi - c) * x >= 0.0; }
  }

  /** With positive weights, the weighted sum lies between `lo` and `hi` times the total weight. */
  lemma {:induction false} SumBetween(vs: seq<real>, ws: seq<real>, lo: real, hi: real)
    requires |vs| == |ws|
    requires forall i :: 0 <= i < |ws| ==> ws[i] > 0.0
    requires forall i :: 0 <= i < |vs| ==> lo <= vs[i] <= hi
    ensures lo * TotalWeight(ws) <= WeightedSum(vs, ws) <= hi * TotalWeight(ws)
    ensures |ws| > 0 ==> TotalWeight(ws) > 0.0
  {
    if vs != [] {
      SumBetween(vs[1..], ws[1..], lo, hi);
      StepBetween(lo, vs[0], hi, ws[0], WeightedSum(vs[1..], ws[1..]), TotalWeight(ws[1..]));
    }
  }

  /** A positive-weight average lies between the bounds of what it averages. */
  lemma AverageBetween(s: real, t: real, lo: real, hi: real)
    requires t > 0.0 && lo * t <= s <= hi * t
    ensures lo <= s / t <= hi
  {
  }

  /** The rounded weighted average, as `Math.round(sum / totalWeight)` computes it. */
  function RoundedAverage(vs: seq<real>, ws: seq<real>): int
    requires |vs| == |ws| && TotalWeight(ws) != 0.0
  {
    Round(WeightedSum(vs, ws) / TotalWeight(ws))
  }

  lemma RoundedAverageBetween(vs: seq<real>, ws: seq<real>, lo: int, hi: int)
    requires |vs| == |ws| && |ws| > 0
    requires forall i :: 0 <= i < |ws| ==> ws[i] > 0.0
    requires forall i :: 0 <= i < |vs| ==> lo as real <= vs[i] <= hi as real
    ensures TotalWeight(ws) > 0.0
    ensures lo <= RoundedAverage(vs, ws) <= hi
  {
    SumBetween(vs, ws, lo as real, hi as real);
    var t := TotalWeight(ws);
    var s := WeightedSum(vs, ws);
    AverageBetween(s, t, lo as real, hi as real);
    RoundBetween(s / t, lo, hi);
  }

  /** Weighted average of channel `k`, rounded, under weighting `w`. */
  function AverageChannel(items: seq<Chemical>, w: Chemical -> real, k: nat): (r: Channel)
    requires |items| > 0 && AllHex(items) && k < 3
    requires forall i :: 0 <= i < |items| ==> w(items[i]) > 0.0
    ensures MinChan(items, k) <= r <= MaxChan(items, k)
    ensures TotalWeight(Weights(items, w)) != 0.0
    ensures r == RoundedAverage(ChannelValues(items, k), Weights(items, w))
  {
    var vs := ChannelValues(items, k);
    var ws := Weights(items, w);
    RoundedAverageBetween(vs, ws, MinChan(items, k), MaxChan(items, k));
    RoundedAverage(vs, ws)
  }

  /** Every channel of `c` lies between the smallest and largest of that channel among `cs`. */
  predicate WithinChannels(cs: seq<Chemical>, c: Rgb)
    requires |cs| > 0 && AllHex(cs)
  {
    MinChan(cs, 0) <= c.r <= MaxChan(cs, 0) &&
    MinChan(cs, 1) <= c.g <= MaxChan(cs, 1) &&
    MinChan(cs, 2) <= c.b <= MaxChan(cs, 2)
  }

  /** The colour whose every channel is the weighted average of that channel. */
  function AverageColor(items: seq<Chemical>, w: Chemical -> real): (r: Rgb)
    requires |items| > 0 && AllHex(items)
    requires forall i :: 0 <= i < |items| ==> w(items[i]) > 0.0
    ensures WithinChannels(items, r)
  {
    var red := AverageChannel(items, w, 0);
    var green := AverageChannel(items, w, 1);
    var blue := AverageChannel(items, w, 2);
    Rgb(red, green, blue)
  }

  lemma WellFormedHex(sel: seq<Chemical>)
    requires AllWellFormed(sel)
    ensures AllHex(sel)
  {
  }

  /** The source's weighting of a chemical: the weight of its colour. */
  function SourceWeight(sel: seq<Chemical>): Chemical -> real {
    (c: Chemical) => ColorWeight(sel, c.color)
  }

  lemma SourceWeightsPositive(sel: seq<Chemical>)
    requires AllWellFormed(sel)
    ensures forall i :: 0 <= i < |sel| ==> SourceWeight(sel)(sel[i]) > 0.0
  {
    forall i | 0 <= i < |sel| {
      ColorWeightPositive(sel, sel[i].color);
    }
  }

  /** `blendColors(selectedChemicals.map(c => c.color))` (:502-528). */
  function BlendColors(sel: seq<Chemical>): (r: string)
    requires AllWellFormed(sel)
    ensures |sel| == 0 ==> r == "#FFFFFF"
    ensures |sel| == 1 ==> r == sel[0].color
    ensures |sel| >= 2 ==> IsLowerHexColor(r)
    ensures |sel| >= 2 ==> WithinChannels(sel, DecodeHex(r))
  {
    if |sel| == 0 then "#FFFFFF"
    else if |sel| == 1 then sel[0].color
    else
      WellFormedHex(sel);
      SourceWeightsPositive(sel);
      var c := AverageColor(sel, SourceWeight(sel));
      DecodeEncode(c);
      EncodeHex(c)
  }

  /** The reference blend: every chemical weighted by its own density and quantity. */
  function OwnWeightBlend(sel: seq<Chemical>): (r: string)
    requires AllWellFormed(sel)
  {
    if |sel| == 0 then "#FFFFFF"
    else if |sel| == 1 then sel[0].color
    else
      WellFormedHex(sel);
      EncodeHex(AverageColor(sel, OwnWeight))
  }

  /** Chemicals of the same colour bring the same weight. */
  predicate ColorDeterminesWeight(sel: seq<Chemical>) {
    forall i, j :: 0 <= i < |sel| && 0 <= j < |sel| && sel[i].color == sel[j].color ==>
      OwnWeight(sel[i]) == OwnWeight(sel[j])
  }

  /** When chemicals sharing a colour also share a weight, the source's
      first-of-that-colour lookup is the own-weight blend. */
  lemma BlendIsOwnWeightBlend(sel: seq<Chemical>)
    requires AllWellFormed(sel)
    requires ColorDeterminesWeight(sel)
    ensures BlendColors(sel) == OwnWeightBlend(sel)
  {
    if |sel| >= 2 {
      WellFormedHex(sel);
      SourceWeightsPositive(sel);
      var w1 := SourceWeight(sel);
      forall i | 0 <= i < |sel|
        ensures w1(sel[i]) == OwnWeight(sel[i])
      {
        var f := FirstWithColor(sel, sel[i].color);
        assert f.Some? by { assert sel[i] in sel; }
        var j :| 0 <= j < |sel| && sel[j] == f.value;
      }
      assert Weights(sel, w1) == Weights(sel, OwnWeight);
    }
  }

  lemma QuotientOf(a: real, b: real, q: real)
    requires b != 0.0 && a == q * b
    ensures a / b == q
  {
  }

  /** Two values of equal positive weight average to their mean. */
  lemma PairAverage(cx: real, cy: real, v: real)
    requires v > 0.0
    ensures TotalWeight([v, v]) != 0.0
    ensures RoundedAverage([cx, cy], [v, v]) == Round((cx + cy) / 2.0)
  {
    assert [cx, cy][1..] == [cy] && [v, v][1..] == [v];
    assert WeightedSum([cy], [v]) == cy * v by { assert [cy][1..] == [] && [v][1..] == []; }
    assert TotalWeight([v]) == v by { assert [v][1..] == []; }
    assert WeightedSum([cx, cy], [v, v]) == cx * v + cy * v;
    assert TotalWeight([v, v]) == v + v;
    var q := (cx + cy) / 2.0;
    assert cx * v + cy * v == q * (v + v);
    QuotientOf(cx * v + cy * v, v + v, q);
  }

  lemma AverageColorChannel(items: seq<Chemical>, w: Chemical -> real, k: nat)
    requires |items| > 0 && AllHex(items) && k < 3
    requires forall i :: 0 <= i < |items| ==> w(items[i]) > 0.0
    ensures Chan(AverageColor(items, w), k) == AverageChannel(items, w, k)
  {
    var c := AverageColor(items, w);
    assert c == Rgb(AverageChannel(items, w, 0), AverageChannel(items, w, 1), AverageChannel(items, w, 2));
  }

  /** A blend of two or more chemicals decodes to the average colour under the source's weights. */
  lemma BlendIsAverage(sel: seq<Chemical>)
    requires AllWellFormed(sel) && |sel| >= 2
    ensures AllHex(sel)
    ensures forall i :: 0 <= i < |sel| ==> SourceWeight(sel)(sel[i]) > 0.0
    ensures DecodeHex(BlendColors(sel)) == AverageColor(sel, SourceWeight(sel))
  {
    WellFormedHex(sel);
    SourceWeightsPositive(sel);
    DecodeEncode(AverageColor(sel, SourceWeight(sel)));
  }

  /** Channel `k` of a blend of two or more chemicals is their rounded weighted average. */
  lemma BlendChannel(sel: seq<Chemical>, k: nat)
    requires AllWellFormed(sel) && |sel| >= 2 && k < 3
    ensures AllHex(sel)
    ensures TotalWeight(Weights(sel, SourceWeight(sel))) != 0.0
    ensures Chan(DecodeHex(BlendColors(sel)), k) ==
      RoundedAverage(ChannelValues(sel, k), Weights(sel, SourceWeight(sel)))
  {
    BlendIsAverage(sel);
    AverageColorChannel(sel, SourceWeight(sel), k);
    var r := AverageChannel(sel, SourceWeight(sel), k);
  }

  /** Two chemicals of equal weight blend to the rounded mean of their channels. */
  lemma EqualWeightsGiveMean(x: Chemical, y: Chemical, k: nat)
    requires WellFormed(x) && WellFormed(y) && k < 3
    requires OwnWeight(x) == OwnWeight(y)
    ensures Chan(DecodeHex(BlendColors([x, y])), k) == Round((ChanOf(x, k) + ChanOf(y, k)) as real / 2.0)
  {
    var sel := [x, y];
    var w := SourceWeight(sel);
    var cx := ChanOf(x, k) as real;
    var cy := ChanOf(y, k) as real;
    var v := OwnWeight(x);
    OwnWeightPositive(x);
    assert w(x) == v && w(y) == v;
    BlendChannel(sel, k);
    assert ChannelValues(sel, k) == [cx, cy];
    assert Weights(sel, w) == [v, v];
    PairAverage(cx, cy, v);
  }
}

=== FILE: outcomes.dfy ===
/** The result record a completed reaction writes, the random-draw cursor
    both result branches consume, and the two scalar classifiers
    `calculateReactionIntensity` and `determineSoundEffect`
    (src/context/SimulationContext.tsx:463-500). */
module Outcomes {
  import opened Text
  import opened Catalogue

  /** The draws `Math.random()` returns, in call order, and how many are used up.
      Every `Math.random()` call of the source takes the next one, and a call
      that JavaScript's short-circuiting skips takes none. */
  datatype Rng = Rng(draws: seq<real>, next: nat)

  /** At least `n` draws remain. */
  predicate HasDraws(g: Rng, n: nat) {
    g.next + n <= |g.draws|
  }

  /** What `Math.random()` promises: every draw lies in [0, 1). */
  predicate ValidDraws(g: Rng) {
    forall i :: 0 <= i < |g.draws| ==> 0.0 <= g.draws[i] < 1.0
  }

  /** `Math.random()`: the next draw and the advanced cursor. */
  function Draw(g: Rng): (r: (real, Rng))
    requires HasDraws(g, 1)
    ensures r.1 == Rng(g.draws, g.next + 1)
    ensures r.0 == g.draws[g.next]
  {
    (g.draws[g.next], Rng(g.draws, g.next + 1))
  }

  /** `cond && Math.random() > p`: draws only when `cond` holds. */
  function Chance(g: Rng, cond: bool, p: real): (r: (bool, Rng))
    requires HasDraws(g, 1)
    ensures r.1.draws == g.draws && g.next <= r.1.next <= g.next + 1
    ensures !cond ==> r.1 == g
    ensures r.0 <==> cond && g.draws[g.next] > p
  {
    if cond then
      var (x, g1) := Draw(g);
      (x > p, g1)
    else (false, g)
  }

  /** `prev || (cond && Math.random() > p)`: draws only when `prev` fails and `cond` holds. */
  function OrChance(prev: bool, g: Rng, cond: bool, p: real): (r: (bool, Rng))
    requires HasDraws(g, 1)
    ensures r.1.draws == g.draws && g.next <= r.1.next <= g.next + 1
    ensures prev || !cond ==> r.1 == g
    ensures r.0 <==> prev || (cond && g.draws[g.next] > p)
  {
    if prev then (true, g) else Chance(g, cond, p)
  }

  datatype Sound = Explosion | Hissing | Bubbling | Fizzing

  /** The reaction result (src/context/SimulationContext.tsx:55-73). An absent
      `temperatureChange` is `'none'`, an absent sound is `null`. */
  datatype Outcome = Outcome(
    color: string,
    hasSmoke: bool,
    hasBubbles: bool,
    hasPrecipitate: bool,
    temperatureChange: Option<TempDirection>,
    temperature: real,
    hasFire: bool,
    hasIce: bool,
    hasGlow: bool,
    glowColor: Option<string>,
    hasExplosion: bool,
    hasGas: bool,
    intensity: real,
    sound: Option<Sound>,
    formula: string)

  /** The intensity before quantity scaling (:470-484). */
  function BaseIntensity(change: Option<TempDirection>, finalTemp: real, explosion: bool, fire: bool): (b: real)
    ensures 1.0 <= b <= 5.0
  {
    if explosion then 5.0
    else if fire then 4.0
    else if change == Some(Increase) then
      if finalTemp > 100.0 then 3.0 else if finalTemp > 60.0 then 2.0 else 1.5
    else 1.0
  }

  /** An explosion outranks everything, fire outranks every non-explosion. */
  lemma IntensityPriority(change: Option<TempDirection>, t: real, explosion: bool, fire: bool)
    ensures BaseIntensity(change, t, explosion, fire) <= BaseIntensity(change, t, true, fire)
    ensures !explosion ==> BaseIntensity(change, t, explosion, fire) <= BaseIntensity(change, t, false, true)
    ensures BaseIntensity(change, t, explosion, fire) == 1.0 <==>
      !explosion && !fire && change != Some(Increase)
  {
  }

  /** The five tiers of :470-484, by the first flag that holds: an explosion
      is 5, fire 4, and a rise 3 above 100 degrees, 2 above 60 and 1.5
      otherwise. */
  lemma IntensityTiers(change: Option<TempDirection>, t: real, explosion: bool, fire: bool)
    ensures explosion ==> BaseIntensity(change, t, explosion, fire) == 5.0
    ensures !explosion && fire ==> BaseIntensity(change, t, explosion, fire) == 4.0
    ensures !explosion && !fire && change == Some(Increase) && t > 100.0 ==> BaseIntensity(change, t, explosion, fire) == 3.0
    ensures !explosion && !fire && change == Some(Increase) && 60.0 < t <= 100.0 ==> BaseIntensity(change, t, explosion, fire) == 2.0
    ensures !explosion && !fire && change == Some(Increase) && t <= 60.0 ==> BaseIntensity(change, t, explosion, fire) == 1.5
    ensures !explosion && !fire && change != Some(Increase) ==> BaseIntensity(change, t, explosion, fire) == 1.0
  {
  }

  /** A hotter rising reaction is never less intense. */
  lemma IntensityMonotoneInTemperature(change: Option<TempDirection>, t1: real, t2: real, explosion: bool, fire: bool)
    requires t1 <= t2
    ensures BaseIntensity(change, t1, explosion, fire) <= BaseIntensity(change, t2, explosion, fire)
  {
  }

  /** What the model needs of `Math.sqrt`: it fixes 1, preserves order on
      non-negative numbers and is positive on positive ones. */
  ghost predicate SqrtLike(sqrt: real -> real) {
    sqrt(1.0) == 1.0 &&
    (forall x, y :: 0.0 <= x <= y ==> sqrt(x) <= sqrt(y)) &&
    (forall x :: x > 0.0 ==> sqrt(x) > 0.0)
  }

  /** `Math.sqrt(totalQuantity / 2)`, the factor the tier is scaled by (:486). */
  function QuantityScale(totalQuantity: real, sqrt: real -> real): real {
    sqrt(totalQuantity / 2.0)
  }

  /** `calculateReactionIntensity(change, finalTemp, explosion, fire, totalQuantity)` (:463-488). */
  function Intensity(change: Option<TempDirection>, finalTemp: real, explosion: bool, fire: bool,
                     totalQuantity: real, sqrt: real -> real): (r: real)
    ensures SqrtLike(sqrt) && totalQuantity > 0.0 ==> r > 0.0
  {
    var b := BaseIntensity(change, finalTemp, explosion, fire);
    var f := QuantityScale(totalQuantity, sqrt);
    assert SqrtLike(sqrt) && totalQuantity > 0.0 ==> b * f > 0.0 by {
      if SqrtLike(sqrt) && totalQuantity > 0.0 {
        assert f > 0.0;
      }
    }
    b * f
  }

  /** The scaled intensity of an explosion and of a fire. */
  lemma ScaledTiers(change: Option<TempDirection>, t: real, explosion: bool, fire: bool,
                    totalQuantity: real, sqrt: real -> real)
    ensures explosion ==> Intensity(change, t, explosion, fire, totalQuantity, sqrt) == 5.0 * QuantityScale(totalQuantity, sqrt)
    ensures !explosion && fire ==> Intensity(change, t, explosion, fire, totalQuantity, sqrt) == 4.0 * QuantityScale(totalQuantity, sqrt)
  {
    IntensityTiers(change, t, explosion, fire);
  }

  /** With the default quantity 2 the intensity is the base intensity. */
  lemma DefaultQuantityIsBase(change: Option<TempDirection>, t: real, explosion: bool, fire: bool, sqrt: real -> real)
    requires SqrtLike(sqrt)
    ensures Intensity(change, t, explosion, fire, 2.0, sqrt) == BaseIntensity(change, t, explosion, fire)
  {
    assert 2.0 / 2.0 == 1.0;
  }

  /** More quantity never lowers the intensity. */
  lemma IntensityMonotoneInQuantity(change: Option<TempDirection>, t: real, explosion: bool, fire: bool,
                                    q1: real, q2: real, sqrt: real -> real)
    requires SqrtLike(sqrt) && 0.0 <= q1 <= q2
    ensures Intensity(change, t, explosion, fire, q1, sqrt) <= Intensity(change, t, explosion, fire, q2, sqrt)
  {
    var b := BaseIntensity(change, t, explosion, fire);
    assert sqrt(q1 / 2.0) <= sqrt(q2 / 2.0);
    assert b * sqrt(q1 / 2.0) <= b * sqrt(q2 / 2.0) by {
      assert b * (sqrt(q2 / 2.0) - sqrt(q1 / 2.0)) >= 0.0;
    }
  }

  /** `determineSoundEffect(explosion, fire, bubbles)` (:490-500): draws only
      when none of the three holds. */
  function SoundEffect(explosion: bool, fire: bool, bubbles: bool, g: Rng): (r: (Option<Sound>, Rng))
    requires HasDraws(g, 1)
    ensures r.1.draws == g.draws && g.next <= r.1.next <= g.next + 1
    ensures explosion || fire || bubbles ==> r.1 == g
  {
    if explosion then (Some(Explosion), g)
    else if fire then (Some(Hissing), g)
    else if bubbles then (Some(Bubbling), g)
    else
      var (x, g1) := Draw(g);
      (if x > 0.5 then Some(Fizzing) else None, g1)
  }

  /** The rank of a sound in the priority order; silence ranks with fizzing. */
  function SoundRank(s: Option<Sound>): nat {
    match s
    case Some(Explosion) => 3
    case Some(Hissing) => 2
    case Some(Bubbling) => 1
    case _ => 0
  }

  /** The sound is the highest-priority condition that holds, and only the
      last resort depends on the draw. */
  lemma SoundPriority(explosion: bool, fire: bool, bubbles: bool, g: Rng)
    requires HasDraws(g, 1)
    ensures SoundRank(SoundEffect(explosion, fire, bubbles, g).0) ==
      if explosion then 3 else if fire then 2 else if bubbles then 1 else 0
    ensures SoundEffect(explosion, fire, bubbles, g).0 == Some(Fizzing) <==>
      !explosion && !fire && !bubbles && g.draws[g.next] > 0.5
  {
  }
}

=== FILE: predefined.dfy ===
/** The predefined-reaction branch of the delayed completion
    (src/context/SimulationContext.tsx:199-273): the reaction's authored
    effects, perturbed by the session's temperature and pressure and by
    random draws. */
module Predefined {
  import opened Text
  import opened Catalogue
  import opened Formulas
  import opened Outcomes

  /** The most draws one predefined completion can take. */
  const PredefinedDraws: nat := 11

  /** The final temperature (:209-223): the reaction's nominal temperature,
      jittered once when the session is on the far side of it in the
      direction of the change, then pushed further by high pressure. */
  function PredefinedHeat(rx: Reaction, temperature: real, pressure: real, g: Rng): (r: (real, Rng))
    requires HasDraws(g, 1)
    ensures r.1.draws == g.draws && g.next <= r.1.next <= g.next + 1
  {
    var change := rx.effects.temperature;
    var nominal := rx.conditions.temperature;
    var (t1, g1) :=
      if temperature > nominal && change == Some(Increase) then
        var (x, g1) := Draw(g);
        (nominal + (10.0 + x * 15.0), g1)
      else if temperature < nominal && change == Some(Decrease) then
        var (x, g1) := Draw(g);
        (nominal - (5.0 + x * 10.0), g1)
      else (nominal, g);
    var t2 :=
      if pressure > 1.5 && change == Some(Increase) then t1 + (pressure - 1.0) * 10.0
      else if pressure > 1.5 && change == Some(Decrease) then t1 - (pressure - 1.0) * 5.0
      else t1;
    (t2, g1)
  }

  /** Without a change the final temperature is the nominal one; a rise never
      ends below it and a fall never ends above it. */
  lemma PredefinedHeatDirection(rx: Reaction, temperature: real, pressure: real, g: Rng)
    requires HasDraws(g, 1) && ValidDraws(g)
    ensures rx.effects.temperature.None? ==>
      PredefinedHeat(rx, temperature, pressure, g).0 == rx.conditions.temperature
    ensures rx.effects.temperature == Some(Increase) ==>
      PredefinedHeat(rx, temperature, pressure, g).0 >= rx.conditions.temperature
    ensures rx.effects.temperature == Some(Decrease) ==>
      PredefinedHeat(rx, temperature, pressure, g).0 <= rx.conditions.temperature
    ensures temperature == rx.conditions.temperature && pressure <= 1.5 ==>
      PredefinedHeat(rx, temperature, pressure, g).0 == rx.conditions.temperature
  {
    assert 0.0 <= g.draws[g.next] < 1.0;
  }

  /** `!!precipitate || (Math.random() > 0.8 && someSolid)`: the draw comes first. */
  function PrecipitateDraw(authored: bool, solid: bool, g: Rng): (r: (bool, Rng))
    requires HasDraws(g, 1)
    ensures r.1.draws == g.draws
    ensures r.1.next == if authored then g.next else g.next + 1
    ensures r.0 <==> authored || (g.draws[g.next] > 0.8 && solid)
  {
    if authored then (true, g)
    else
      var (x, g1) := Draw(g);
      (x > 0.8 && solid, g1)
  }

  predicate SomeSolid(sel: seq<Chemical>) {
    exists i :: 0 <= i < |sel| && sel[i].state == Solid
  }

  /** What the predefined branch settles before it picks the sound (:209-242). */
  datatype Heat = Heat(temperature: real, explosion: bool, fire: bool, ice: bool, smoke: bool, gas: bool)

  /** Explosion and fire (:228-234): authored, or drawn for a rise past 130 and 90 degrees. */
  function Hazards(e: Effects, ft: real, g: Rng): (r: (bool, bool, Rng))
    requires HasDraws(g, 2)
    ensures r.2.draws == g.draws && g.next <= r.2.next <= g.next + 2
    ensures e.explosion ==> r.0
    ensures e.fire ==> r.1
    ensures r.0 ==> e.explosion || (e.temperature == Some(Increase) && ft > 130.0)
    ensures r.1 ==> e.fire || (e.temperature == Some(Increase) && ft > 90.0)
  {
    var (explosion, g1) := OrChance(e.explosion, g, e.temperature == Some(Increase) && ft > 130.0, 0.7);
    var (fire, g2) := OrChance(e.fire, g1, e.temperature == Some(Increase) && ft > 90.0, 0.6);
    (explosion, fire, g2)
  }

  /** Smoke before the hazards are added, and gas (:235-240). */
  function Fumes(e: Effects, ft: real, pressure: real, g: Rng): (r: (bool, bool, Rng))
    requires HasDraws(g, 3)
    ensures r.2.draws == g.draws && g.next <= r.2.next <= g.next + 3
    ensures e.smoke ==> r.0
    ensures e.bubbles ==> r.1
  {
    var (smoke, g1) := OrChance(e.smoke, g, ft > 85.0, 0.5);
    var (gas0, g2) := OrChance(e.bubbles, g1, pressure < 0.8, 0.5);
    var (gas, g3) := OrChance(gas0, g2, ft > 70.0, 0.7);
    (smoke, gas, g3)
  }

  function PredefinedHeatEffects(rx: Reaction, temperature: real, pressure: real, g: Rng): (r: (Heat, Rng))
    requires HasDraws(g, 6)
    ensures r.1.draws == g.draws && g.next <= r.1.next <= g.next + 6
    ensures r.0.temperature == PredefinedHeat(rx, temperature, pressure, g).0
    ensures r.0.explosion || r.0.fire ==> r.0.smoke
    ensures rx.effects.explosion ==> r.0.explosion
    ensures rx.effects.fire ==> r.0.fire
    ensures rx.effects.smoke ==> r.0.smoke
    ensures rx.effects.bubbles ==> r.0.gas
    ensures r.0.ice <==> rx.effects.ice || (rx.effects.temperature == Some(Decrease) && r.0.temperature < 5.0)
    ensures r.0.explosion ==>
      rx.effects.explosion || (rx.effects.temperature == Some(Increase) && r.0.temperature > 130.0)
    ensures r.0.fire ==>
      rx.effects.fire || (rx.effects.temperature == Some(Increase) && r.0.temperature > 90.0)
  {
    var e := rx.effects;
    var (ft, g1) := PredefinedHeat(rx, temperature, pressure, g);
    var (explosion, fire, g2) := Hazards(e, ft, g1);
    var ice := e.ice || (e.temperature == Some(Decrease) && ft < 5.0);
    var (smoke, gas, g3) := Fumes(e, ft, pressure, g2);
    (Heat(ft, explosion, fire, ice, smoke || explosion || fire, gas), g3)
  }

  /** What the result literal draws for itself (:254-263). */
  datatype Late = Late(bubbles: bool, precipitate: bool, glow: bool)

  function PredefinedLateEffects(e: Effects, finalTemp: real, pressure: real, solid: bool, g: Rng): (r: (Late, Rng))
    requires HasDraws(g, 4)
    ensures r.1.draws == g.draws && g.next <= r.1.next <= g.next + 4
    ensures e.bubbles ==> r.0.bubbles
    ensures e.precipitate ==> r.0.precipitate
    ensures e.glow ==> r.0.glow
    ensures r.0.precipitate ==> e.precipitate || solid
  {
    var (bubbles0, g1) := OrChance(e.bubbles, g, pressure < 0.8, 0.5);
    var (bubbles, g2) := OrChance(bubbles0, g1, finalTemp > 70.0, 0.7);
    var (precipitate, g3) := PrecipitateDraw(e.precipitate, solid, g2);
    var (glow, g4) := OrChance(e.glow, g3, true, 0.85);
    (Late(bubbles, precipitate, glow), g4)
  }

  /** The result a predefined reaction writes (:199-271), from the snapshot of
      the selection, the reaction, temperature and pressure taken when it started. */
  function PredefinedOutcome(table: seq<Chemical>, sel: seq<Chemical>, rx: Reaction,
                             temperature: real, pressure: real, g: Rng, sqrt: real -> real): (r: (Outcome, Rng))
    requires HasDraws(g, PredefinedDraws)
    ensures r.1.draws == g.draws && g.next <= r.1.next <= g.next + PredefinedDraws
    ensures r.0.color == rx.effects.color
    ensures r.0.temperatureChange == rx.effects.temperature
    ensures r.0.glowColor == rx.effects.glowColor
    ensures r.0.formula == if rx.formula != "" then rx.formula else ReactionFormula(table, sel, rx.products, false)
    ensures r.0.temperature == PredefinedHeat(rx, temperature, pressure, g).0
  {
    var e := rx.effects;
    var (h, g1) := PredefinedHeatEffects(rx, temperature, pressure, g);
    var intensity := Intensity(e.temperature, h.temperature, h.explosion, h.fire, 2.0, sqrt);
    var (sound, g2) := SoundEffect(h.explosion, h.fire, e.bubbles, g1);
    var formula := if rx.formula != "" then rx.formula else ReactionFormula(table, sel, rx.products, false);
    var (late, g3) := PredefinedLateEffects(e, h.temperature, pressure, SomeSolid(sel), g2);
    (Outcome(e.color, h.smoke, late.bubbles, late.precipitate, e.temperature, h.temperature, h.fire, h.ice,
             late.glow, e.glowColor, h.explosion, h.gas, intensity, sound, formula), g3)
  }

  /** Every authored effect shows in the result, and explosion or fire brings smoke. */
  lemma PredefinedKeepsAuthoredEffects(table: seq<Chemical>, sel: seq<Chemical>, rx: Reaction,
                                       temperature: real, pressure: real, g: Rng, sqrt: real -> real)
    requires HasDraws(g, PredefinedDraws)
    ensures var o := PredefinedOutcome(table, sel, rx, temperature, pressure, g, sqrt).0;
      (o.hasExplosion || o.hasFire ==> o.hasSmoke) &&
      (rx.effects.explosion ==> o.hasExplosion) &&
      (rx.effects.fire ==> o.hasFire) &&
      (rx.effects.smoke ==> o.hasSmoke) &&
      (rx.effects.bubbles ==> o.hasBubbles && o.hasGas) &&
      (rx.effects.precipitate ==> o.hasPrecipitate) &&
      (rx.effects.glow ==> o.hasGlow) &&
      (rx.effects.ice ==> o.hasIce)
  {
  }

  /** An effect the reaction does not author appears only under its condition:
      ice exactly when a falling temperature ends below 5, explosion only when
      a rise ends above 130, fire only above 90, a precipitate only with a solid. */
  lemma PredefinedEffectConditions(table: seq<Chemical>, sel: seq<Chemical>, rx: Reaction,
                                   temperature: real, pressure: real, g: Rng, sqrt: real -> real)
    requires HasDraws(g, PredefinedDraws)
    ensures var o := PredefinedOutcome(table, sel, rx, temperature, pressure, g, sqrt).0;
      (o.hasIce <==> rx.effects.ice || (rx.effects.temperature == Some(Decrease) && o.temperature < 5.0)) &&
      (o.hasExplosion ==> rx.effects.explosion || (rx.effects.temperature == Some(Increase) && o.temperature > 130.0)) &&
      (o.hasFire ==> rx.effects.fire || (rx.effects.temperature == Some(Increase) && o.temperature > 90.0)) &&
      (o.hasPrecipitate ==> rx.effects.precipitate || SomeSolid(sel))
  {
  }

  /** Intensity uses the default quantity 2, and the sound follows explosion,
      fire and the authored bubbles in that order. */
  lemma PredefinedIntensityAndSound(table: seq<Chemical>, sel: seq<Chemical>, rx: Reaction,
                                    temperature: real, pressure: real, g: Rng, sqrt: real -> real)
    requires HasDraws(g, PredefinedDraws) && SqrtLike(sqrt)
    ensures var o := PredefinedOutcome(table, sel, rx, temperature, pressure, g, sqrt).0;
      o.intensity == BaseIntensity(rx.effects.temperature, o.temperature, o.hasExplosion, o.hasFire) &&
      (o.hasExplosion ==> o.intensity == 5.0) &&
      (!o.hasExplosion && o.hasFire ==> o.intensity == 4.0) &&
      SoundRank(o.sound) == if o.hasExplosion then 3 else if o.hasFire then 2 else if rx.effects.bubbles then 1 else 0
  {
    var e := rx.effects;
    var (h, g1) := PredefinedHeatEffects(rx, temperature, pressure, g);
    DefaultQuantityIsBase(e.temperature, h.temperature, h.explosion, h.fire, sqrt);
    SoundPriority(h.explosion, h.fire, e.bubbles, g1);
  }

  /** The colour, the temperature change, the glow colour and the formula do
      not depend on the draws. */
  lemma PredefinedDrawIndependent(table: seq<Chemical>, sel: seq<Chemical>, rx: Reaction,
                                  temperature: real, pressure: real, g: Rng, h: Rng, sqrt: real -> real)
    requires HasDraws(g, PredefinedDraws) && HasDraws(h, PredefinedDraws)
    ensures PredefinedOutcome(table, sel, rx, temperature, pressure, g, sqrt).0.color ==
            PredefinedOutcome(table, sel, rx, temperature, pressure, h, sqrt).0.color
    ensures PredefinedOutcome(table, sel, rx, temperature, pressure, g, sqrt).0.temperatureChange ==
            PredefinedOutcome(table, sel, rx, temperature, pressure, h, sqrt).0.temperatureChange
    ensures PredefinedOutcome(table, sel, rx, temperature, pressure, g, sqrt).0.glowColor ==
            PredefinedOutcome(table, sel, rx, temperature, pressure, h, sqrt).0.glowColor
    ensures PredefinedOutcome(table, sel, rx, temperature, pressure, g, sqrt).0.formula ==
            PredefinedOutcome(table, sel, rx, temperature, pressure, h, sqrt).0.formula
  {
  }
  /** An unheated reaction authoring no gas, smoke or hazard at low pressure
      and a cool nominal temperature has no gas when its first draw fails, and
      has used exactly that one draw. */
  lemma CoolHeatEffects(rx: Reaction, temperature: real, pressure: real, g: Rng)
    requires HasDraws(g, 6)
    requires rx.effects.temperature.None? && rx.conditions.temperature <= 70.0 && pressure < 0.8
    requires !rx.effects.bubbles && !rx.effects.smoke && !rx.effects.explosion && !rx.effects.fire
    requires g.draws[g.next] <= 0.5
    ensures var (h, g1) := PredefinedHeatEffects(rx, temperature, pressure, g);
      !h.gas && !h.explosion && !h.fire && h.temperature <= 70.0 && g1 == Rng(g.draws, g.next + 1)
  {
    var (ft, g1) := PredefinedHeat(rx, temperature, pressure, g);
    assert ft == rx.conditions.temperature && g1 == g;
  }

  /** Bubbles and gas come from separate draws: for an unheated reaction
      authoring neither at low pressure, a failing first draw and a passing
      third one give bubbles without gas. */
  lemma BubblesWithoutGas(table: seq<Chemical>, sel: seq<Chemical>, rx: Reaction,
                          temperature: real, pressure: real, g: Rng, sqrt: real -> real)
    requires HasDraws(g, PredefinedDraws)
    requires rx.effects.temperature.None? && rx.conditions.temperature <= 70.0 && pressure < 0.8
    requires !rx.effects.bubbles && !rx.effects.smoke && !rx.effects.explosion && !rx.effects.fire
    requires g.draws[g.next] <= 0.5 && g.draws[g.next + 2] > 0.5
    ensures var o := PredefinedOutcome(table, sel, rx, temperature, pressure, g, sqrt).0;
      o.hasBubbles && !o.hasGas
  {
    CoolHeatEffects(rx, temperature, pressure, g);
    var (h, g1) := PredefinedHeatEffects(rx, temperature, pressure, g);
    var (sound, g2) := SoundEffect(h.explosion, h.fire, rx.effects.bubbles, g1);
    assert g2 == Rng(g.draws, g.next + 2);
    var (late, g3) := PredefinedLateEffects(rx.effects, h.temperature, pressure, SomeSolid(sel), g2);
    assert late.bubbles;
  }
}

=== FILE: seqs.dfy ===
/** Order-preserving filtering, the model of `Array.prototype.filter`, with
    the facts every catalogue filter relies on. */
module Seqs {

  /** `a` can be obtained from `b` by deleting elements, keeping the rest in order. */
  predicate IsSubsequence<T(==,!new)>(a: seq<T>, b: seq<T>)
    decreases |b|
  {
    if a == [] then true
    else if b == [] then false
    else if a[0] == b[0] then IsSubsequence(a[1..], b[1..])
    else IsSubsequence(a, b[1..])
  }

  /** `xs.filter(p)`: exactly the elements satisfying `p`, in their original order. */
  function Keep<T(==,!new)>(xs: seq<T>, p: T -> bool): (r: seq<T>)
    ensures |r| <= |xs|
    ensures forall x :: x in r <==> x in xs && p(x)
    ensures IsSubsequence(r, xs)
  {
    if xs == [] then []
    else if p(xs[0]) then [xs[0]] + Keep(xs[1..], p)
    else Keep(xs[1..], p)
  }

  /** A filter that rejects nothing returns its input. */
  lemma {:induction false} KeepEverything<T(!new)>(xs: seq<T>, p: T -> bool)
    requires forall x :: x in xs ==> p(x)
    ensures Keep(xs, p) == xs
  {
    if xs != [] {
      assert forall x :: x in xs[1..] ==> x in xs;
      KeepEverything(xs[1..], p);
    }
  }

  /** A filter that accepts nothing returns the empty list. */
  lemma {:induction false} KeepNothing<T(!new)>(xs: seq<T>, p: T -> bool)
    requires forall x :: x in xs ==> !p(x)
    ensures Keep(xs, p) == []
  {
    if xs != [] {
      assert forall x :: x in xs[1..] ==> x in xs;
      KeepNothing(xs[1..], p);
    }
  }

  /** Two filters in sequence keep what their conjunction keeps, whichever runs first. */
  lemma {:induction false} KeepKeep<T(!new)>(xs: seq<T>, p: T -> bool, q: T -> bool, both: T -> bool)
    requires forall x :: both(x) == (p(x) && q(x))
    ensures Keep(Keep(xs, p), q) == Keep(xs, both)
    ensures Keep(Keep(xs, q), p) == Keep(xs, both)
  {
    if xs != [] {
      KeepKeep(xs[1..], p, q, both);
    }
  }

  /** Filtering with a predicate that agrees with another on the input gives the same list. */
  lemma {:induction false} KeepCongruent<T(!new)>(xs: seq<T>, p: T -> bool, q: T -> bool)
    requires forall x :: x in xs ==> p(x) == q(x)
    ensures Keep(xs, p) == Keep(xs, q)
  {
    if xs != [] {
      assert forall x :: x in xs[1..] ==> x in xs;
      KeepCongruent(xs[1..], p, q);
    }
  }

  lemma {:induction false} SubsequenceReflexive<T(!new)>(a: seq<T>)
    ensures IsSubsequence(a, a)
  {
    if a != [] {
      SubsequenceReflexive(a[1..]);
    }
  }

  /** Dropping the first element of a subsequence keeps it a subsequence. */
  lemma {:induction false} SubsequenceTail<T(!new)>(a: seq<T>, b: seq<T>)
    requires a != [] && IsSubsequence(a, b)
    ensures IsSubsequence(a[1..], b)
    decreases |b|, 1
  {
    if a[0] == b[0] {
      SubsequenceDrop(a[1..], b);
    } else {
      SubsequenceTail(a, b[1..]);
      SubsequenceDrop(a[1..], b);
    }
  }

  /** A subsequence of the tail is a subsequence of the whole. */
  lemma {:induction false} SubsequenceDrop<T(!new)>(a: seq<T>, b: seq<T>)
    requires b != [] && IsSubsequence(a, b[1..])
    ensures IsSubsequence(a, b)
    decreases |b|, 0
  {
    if a != [] && a[0] == b[0] {
      SubsequenceTail(a, b[1..]);
    }
  }

  /** Deleting from a deletion of `c` is a deletion of `c`. */
  lemma {:induction false} SubsequenceTransitive<T(!new)>(a: seq<T>, b: seq<T>, c: seq<T>)
    requires IsSubsequence(a, b) && IsSubsequence(b, c)
    ensures IsSubsequence(a, c)
    decreases |c|
  {
    if a != [] && b != [] && c != [] {
      if b[0] == c[0] {
        if a[0] == b[0] {
          SubsequenceTransitive(a[1..], b[1..], c[1..]);
        } else {
          SubsequenceTransitive(a, b[1..], c[1..]);
        }
      } else {
        SubsequenceTransitive(a, b, c[1..]);
        SubsequenceDrop(a, c);
      }
    }
  }
}

=== FILE: session.dfy ===
/** The simulation session (src/context/SimulationContext.tsx:127-186,
    188-199, 458-461): the selected reaction, the chemicals in the tube, the
    temperature and pressure, whether a reaction is running, its result, and
    the completions a started reaction has scheduled but not yet delivered.
    Every operation is a pure transition over `State`; the 1500 ms timer of
    `startReaction` is the explicit event `Complete`. */
module Session {
  import opened Text
  import opened Seqs
  import opened Catalogue
  import opened Outcomes
  import opened Predefined
  import opened FreeMode

  /** What a scheduled completion captured when `startReaction` ran: the
      closure of the timer callback sees these values, not later ones. */
  datatype Snapshot = Snapshot(reaction: Option<Reaction>, selected: seq<Chemical>, temperature: real, pressure: real)

  datatype State = State(
    reaction: Option<Reaction>,
    selected: seq<Chemical>,
    temperature: real,
    pressure: real,
    reacting: bool,
    result: Option<Outcome>,
    pending: seq<Snapshot>)

  /** The initial state (:128-133): no reaction, an empty tube, 25 degrees, 1 atmosphere. */
  const Initial: State := State(None, [], 25.0, 1.0, false, None, [])

  /** No two chemicals share an id. */
  predicate DistinctIds(cs: seq<Chemical>) {
    forall i, j :: 0 <= i < j < |cs| ==> cs[i].id != cs[j].id
  }

  /** Every chemical comes from the table. */
  predicate FromTable(cat: Catalogue, cs: seq<Chemical>) {
    forall i :: 0 <= i < |cs| ==> cs[i] in cat.chemicals
  }

  /** A scheduled completion was started from a tube of at least two table chemicals. */
  predicate ValidSnapshot(cat: Catalogue, p: Snapshot) {
    |p.selected| >= 2 && FromTable(cat, p.selected) &&
    (p.reaction.Some? ==> p.reaction.value in cat.reactions)
  }

  /** What every reachable state satisfies: tube contents and reaction come
      from the catalogue, free mode never holds two chemicals with one id,
      and every scheduled completion is valid. */
  predicate Inv(cat: Catalogue, s: State) {
    FromTable(cat, s.selected) &&
    (s.reaction.Some? ==> s.reaction.value in cat.reactions) &&
    (s.reaction.None? ==> DistinctIds(s.selected)) &&
    (forall j :: 0 <= j < |s.pending| ==> ValidSnapshot(cat, s.pending[j]))
  }

  lemma InitialInv(cat: Catalogue)
    ensures Inv(cat, Initial)
  {
  }

  /** `selectReaction(id)` (:141-155): an unknown id changes nothing; a known
      one selects the reaction and empties the tube, the result and the
      running flag. Scheduled completions stay scheduled. */
  function SelectReaction(cat: Catalogue, s: State, id: string): (r: State)
    ensures FindReaction(cat.reactions, id).None? ==> r == s
    ensures FindReaction(cat.reactions, id).Some? ==>
      r.reaction.Some? && r.reaction.value.id == id && r.reaction.value in cat.reactions &&
      r.selected == [] && r.result.None? && !r.reacting
    ensures r.temperature == s.temperature && r.pressure == s.pressure && r.pending == s.pending
    ensures Inv(cat, s) ==> Inv(cat, r)
  {
    match FindReaction(cat.reactions, id)
    case None => s
    case Some(rx) => s.(reaction := Some(rx), selected := [], result := None, reacting := false)
  }

  /** `addChemical(id)` (:157-174): an unknown id changes nothing; in free
      mode an id already in the tube is rejected; otherwise the chemical is
      appended at the end, duplicates included once a reaction is selected. */
  function AddChemical(cat: Catalogue, s: State, id: string): (r: State)
    ensures r.(selected := s.selected) == s
    ensures |s.selected| <= |r.selected| <= |s.selected| + 1
    ensures r.selected[..|s.selected|] == s.selected
    ensures |r.selected| == |s.selected| + 1 <==>
      FindChemical(cat.chemicals, id).Some? && (s.reaction.Some? || !HasId(s.selected, id))
    ensures |r.selected| == |s.selected| + 1 ==> r.selected[|s.selected|] == FindChemical(cat.chemicals, id).value
    ensures Inv(cat, s) ==> Inv(cat, r)
  {
    match FindChemical(cat.chemicals, id)
    case None => s
    case Some(c) =>
      if s.reaction.None? && HasId(s.selected, c.id) then s
      else
        var r := s.(selected := s.selected + [c]);
        assert r.selected[..|s.selected|] == s.selected;
        assert Inv(cat, s) ==> Inv(cat, r) by {
          if Inv(cat, s) {
            assert FromTable(cat, r.selected);
            if s.reaction.None? {
              assert forall i :: 0 <= i < |s.selected| ==> s.selected[i].id != c.id;
            }
          }
        }
        r
  }

  /** `prev.filter(chemical => chemical.id !== id)`. */
  function OtherIds(id: string): Chemical -> bool {
    (c: Chemical) => c.id != id
  }

  /** A filter keeps distinct ids distinct. */
  lemma {:induction false} KeepDistinct(cs: seq<Chemical>, p: Chemical -> bool)
    requires DistinctIds(cs)
    ensures DistinctIds(Keep(cs, p))
  {
    if cs != [] {
      assert DistinctIds(cs[1..]) by {
        forall i, j | 0 <= i < j < |cs[1..]| ensures cs[1..][i].id != cs[1..][j].id {
          assert cs[1..][i] == cs[i + 1] && cs[1..][j] == cs[j + 1];
        }
      }
      KeepDistinct(cs[1..], p);
      var rest := Keep(cs[1..], p);
      if p(cs[0]) {
        forall c | c in rest ensures c.id != cs[0].id {
          assert c in cs[1..];
          var k :| 0 <= k < |cs[1..]| && cs[1..][k] == c;
          assert cs[k + 1] == c;
        }
        var r := [cs[0]] + rest;
        forall i, j | 0 <= i < j < |r| ensures r[i].id != r[j].id {
          if i == 0 {
            assert r[j] == rest[j - 1] && r[j] in rest;
          } else {
            assert r[i] == rest[i - 1] && r[j] == rest[j - 1];
          }
        }
      }
    }
  }

  /** Filtered table chemicals are still table chemicals. */
  lemma KeepFromTable(cat: Catalogue, cs: seq<Chemical>, p: Chemical -> bool)
    requires FromTable(cat, cs)
    ensures FromTable(cat, Keep(cs, p))
  {
    var r := Keep(cs, p);
    forall i | 0 <= i < |r| ensures r[i] in cat.chemicals {
      assert r[i] in r;
    }
  }

  /** `removeChemical(id)` (:176-179): every chemical with that id leaves the
      tube, the others keep their order, and nothing else changes. */
  function RemoveChemical(cat: Catalogue, s: State, id: string): (r: State)
    ensures r.(selected := s.selected) == s
    ensures forall c :: c in r.selected <==> c in s.selected && c.id != id
    ensures IsSubsequence(r.selected, s.selected)
    ensures Inv(cat, s) ==> Inv(cat, r)
  {
    var r := s.(selected := Keep(s.selected, OtherIds(id)));
    assert Inv(cat, s) ==> Inv(cat, r) by {
      if Inv(cat, s) {
        KeepFromTable(cat, s.selected, OtherIds(id));
        if s.reaction.None? {
          KeepDistinct(s.selected, OtherIds(id));
        }
      }
    }
    r
  }

  /** `clearTestTube()` (:181-186): the tube, the result and the running flag
      are reset; the reaction and the scheduled completions remain. */
  function ClearTestTube(cat: Catalogue, s: State): (r: State)
    ensures r.selected == [] && r.result.None? && !r.reacting
    ensures r.reaction == s.reaction && r.pending == s.pending
    ensures r.temperature == s.temperature && r.pressure == s.pressure
    ensures Inv(cat, s) ==> Inv(cat, r)
  {
    s.(selected := [], result := None, reacting := false)
  }

  /** `startReaction()` (:188-199): with fewer than two chemicals nothing
      happens; otherwise the reaction is running at once and a completion is
      scheduled over the current reaction, tube, temperature and pressure.
      The result is left as it was. */
  function StartReaction(cat: Catalogue, s: State): (r: State)
    ensures |s.selected| < 2 ==> r == s
    ensures |s.selected| >= 2 ==>
      r.reacting && r.pending == s.pending + [Snapshot(s.reaction, s.selected, s.temperature, s.pressure)] &&
      r.(reacting := s.reacting, pending := s.pending) == s
    ensures Inv(cat, s) ==> Inv(cat, r)
  {
    if |s.selected| < 2 then s
    else
      var p := Snapshot(s.reaction, s.selected, s.temperature, s.pressure);
      var r := s.(reacting := true, pending := s.pending + [p]);
      assert Inv(cat, s) ==> Inv(cat, r) by {
        if Inv(cat, s) {
          forall j | 0 <= j < |r.pending| ensures ValidSnapshot(cat, r.pending[j]) {
            if j < |s.pending| {
              assert r.pending[j] == s.pending[j];
            }
          }
        }
      }
      r
  }

  /** `stopReaction()` (:458-461): only the running flag changes. */
  function StopReaction(cat: Catalogue, s: State): (r: State)
    ensures !r.reacting && r.(reacting := s.reacting) == s
    ensures Inv(cat, s) ==> Inv(cat, r)
  {
    s.(reacting := false)
  }

  /** The React setters `setTemperature` and `setPressure` (:130-131, 549-552). */
  function SetConditions(cat: Catalogue, s: State, temperature: real, pressure: real): (r: State)
    ensures r.temperature == temperature && r.pressure == pressure
    ensures r.(temperature := s.temperature, pressure := s.pressure) == s
    ensures Inv(cat, s) ==> Inv(cat, r)
  {
    s.(temperature := temperature, pressure := pressure)
  }

  /** The outcome a scheduled completion writes: the predefined template when
      a reaction was selected, the free-mode rules otherwise. */
  function Resolution(cat: Catalogue, p: Snapshot, draws: seq<real>, sqrt: real -> real): (o: Outcome)
    requires AllWellFormed(p.selected) && |draws| >= FreeDraws
    ensures p.reaction.Some? ==> o.color == p.reaction.value.effects.color
    ensures p.reaction.None? ==> o.hasBubbles ==> o.hasGas
    ensures p.reaction.None? ==> (o.hasIce <==> o.temperature < 5.0)
  {
    var g := Rng(draws, 0);
    match p.reaction
    case Some(rx) => PredefinedOutcome(cat.chemicals, p.selected, rx, p.temperature, p.pressure, g, sqrt).0
    case None => FreeOutcome(p.selected, p.temperature, p.pressure, g, sqrt).0
  }

  /** The chemicals of a valid snapshot are well formed when the table is. */
  lemma SnapshotWellFormed(cat: Catalogue, p: Snapshot)
    requires AllWellFormed(cat.chemicals) && FromTable(cat, p.selected)
    ensures AllWellFormed(p.selected)
  {
    forall i | 0 <= i < |p.selected| ensures WellFormed(p.selected[i]) {
      var k :| 0 <= k < |cat.chemicals| && cat.chemicals[k] == p.selected[i];
    }
  }

  /** Writes a completion's outcome and drops it from the queue. */
  function Deliver(cat: Catalogue, s: State, o: Outcome): (r: State)
    requires s.pending != []
    ensures r.result == Some(o) && r.pending == s.pending[1..]
    ensures r.(result := s.result, pending := s.pending) == s
    ensures Inv(cat, s) ==> Inv(cat, r)
  {
    var r := s.(result := Some(o), pending := s.pending[1..]);
    assert forall j :: 0 <= j < |r.pending| ==> r.pending[j] == s.pending[j + 1];
    r
  }

  /** The timer callback firing: the oldest scheduled completion writes its
      result and leaves the queue. Nothing else changes; in particular the
      running flag and the tube are as the user last left them. Without a
      scheduled completion the event does not occur and the state stays. */
  function Complete(cat: Catalogue, s: State, draws: seq<real>, sqrt: real -> real): (r: State)
    requires Inv(cat, s) && AllWellFormed(cat.chemicals) && |draws| >= FreeDraws
    ensures s.pending == [] ==> r == s
    ensures s.pending != [] ==>
      r.result.Some? && r.pending == s.pending[1..] && r.(result := s.result, pending := s.pending) == s
    ensures Inv(cat, r)
  {
    if s.pending == [] then s
    else
      var p := s.pending[0];
      SnapshotWellFormed(cat, p);
      Deliver(cat, s, Resolution(cat, p, draws, sqrt))
  }

  /** Only a completion writes a result: every user operation leaves it as it
      was or empties it. */
  lemma OnlyCompleteWritesResult(cat: Catalogue, s: State, id: string, t: real, p: real)
    ensures SelectReaction(cat, s, id).result in {s.result, None}
    ensures AddChemical(cat, s, id).result == s.result
    ensures RemoveChemical(cat, s, id).result == s.result
    ensures ClearTestTube(cat, s).result == None
    ensures StartReaction(cat, s).result == s.result
    ensures StopReaction(cat, s).result == s.result
    ensures SetConditions(cat, s, t, p).result == s.result
  {
  }

  /** Clearing the tube after a start does not cancel the completion: when the
      timer fires it writes a result into the cleared, stopped session. */
  lemma ClearDoesNotCancel(cat: Catalogue, s: State, draws: seq<real>, sqrt: real -> real)
    requires Inv(cat, s) && AllWellFormed(cat.chemicals) && |draws| >= FreeDraws
    requires |s.selected| >= 2 && s.pending == []
    ensures var cleared := ClearTestTube(cat, StartReaction(cat, s));
      Inv(cat, cleared) &&
      var r := Complete(cat, cleared, draws, sqrt);
      r.result.Some? && r.selected == [] && !r.reacting && r.pending == []
  {
    var started := StartReaction(cat, s);
    assert |started.pending| == 1;
  }

  /** The completion works on the snapshot taken at the start: adding a
      chemical after starting does not change what is written. */
  lemma CompletionUsesSnapshot(cat: Catalogue, s: State, id: string, draws: seq<real>, sqrt: real -> real)
    requires Inv(cat, s) && AllWellFormed(cat.chemicals) && |draws| >= FreeDraws
    requires |s.selected| >= 2 && s.pending == []
    ensures var started := StartReaction(cat, s);
      var added := AddChemical(cat, started, id);
      Inv(cat, added) &&
      Complete(cat, added, draws, sqrt).result ==
        Some(Resolution(cat, Snapshot(s.reaction, s.selected, s.temperature, s.pressure), draws, sqrt))
  {
    var started := StartReaction(cat, s);
    var added := AddChemical(cat, started, id);
    assert added.pending == [Snapshot(s.reaction, s.selected, s.temperature, s.pressure)];
    SnapshotWellFormed(cat, added.pending[0]);
  }

  /** Selecting the same reaction twice is selecting it once. */
  lemma SelectIdempotent(cat: Catalogue, s: State, id: string)
    ensures SelectReaction(cat, SelectReaction(cat, s, id), id) == SelectReaction(cat, s, id)
  {
  }

  /** Removing what was just added restores the tube without that id. */
  lemma RemoveUndoesAdd(cat: Catalogue, s: State, id: string)
    ensures RemoveChemical(cat, AddChemical(cat, s, id), id) == RemoveChemical(cat, s, id)
  {
    var a := AddChemical(cat, s, id);
    if |a.selected| == |s.selected| + 1 {
      assert a.selected == s.selected + [a.selected[|s.selected|]];
      KeepAppendRejected(s.selected, a.selected[|s.selected|], OtherIds(id));
    }
  }

  /** Filtering a list with an element the filter rejects appended at the end. */
  lemma {:induction false} KeepAppendRejected(xs: seq<Chemical>, x: Chemical, p: Chemical -> bool)
    requires !p(x)
    ensures Keep(xs + [x], p) == Keep(xs, p)
  {
    if xs == [] {
      assert Keep([x], p) == Keep([x][1..], p);
    } else {
      assert (xs + [x])[1..] == xs[1..] + [x];
      KeepAppendRejected(xs[1..], x, p);
    }
  }

  /** Adding each id in turn, as the automatic fill does with a selected
      reaction's reactants (src/components/SimulationArea.tsx:188-197). */
  function AddAll(cat: Catalogue, s: State, ids: seq<string>): (r: State)
    ensures r.(selected := s.selected) == s
    ensures Inv(cat, s) ==> Inv(cat, r)
    decreases |ids|
  {
    if ids == [] then s
    else AddAll(cat, AddChemical(cat, s, ids[0]), ids[1..])
  }

  /** With a reaction selected, the automatic fill puts exactly the resolvable
      reactants into the tube, in order, and skips the rest. */
  lemma {:induction false} AutoFillResolves(cat: Catalogue, s: State, ids: seq<string>)
    requires s.reaction.Some?
    ensures AddAll(cat, s, ids).selected == s.selected + Resolve(cat.chemicals, ids)
    decreases |ids|
  {
    if ids != [] {
      var a := AddChemical(cat, s, ids[0]);
      AutoFillResolves(cat, a, ids[1..]);
      match FindChemical(cat.chemicals, ids[0])
      case None =>
      case Some(c) =>
        assert a.selected == s.selected + [c];
        assert s.selected + [c] + Resolve(cat.chemicals, ids[1..]) == s.selected + ([c] + Resolve(cat.chemicals, ids[1..]));
    }
  }
}

=== FILE: tables.dfy ===
/** The shipped reference data, src/data/chemicals.ts and
    src/data/reactions.ts, as constants, in source order and cut into rows of
    at most eight records so that facts about the whole table can be proved
    one row at a time. Ids, English chemical names, colours, densities,
    states, formulas, reactant and product lists, conditions and effect
    templates are copied; Arabic names and the names and descriptions of
    reactions are left empty because no property below depends on them. */
module Tables {
  import opened Text
  import opened Catalogue

  const ChemicalRows1: seq<Chemical> := [
    Chemical("hcl", "Hydrochloric Acid", "", "#DCFFDD", 1.49, Liquid, None, "HCl"),
    Chemical("h2so4", "Sulfuric Acid", "", "#F5F6CE", 1.84, Liquid, None, "H₂SO₄"),
    Chemical("hno3", "Nitric Acid", "", "#FCEAEA", 1.51, Liquid, None, "HNO₃"),
    Chemical("c2h4o2", "Acetic Acid (Vinegar)", "", "#FFF8E1", 1.05, Liquid, None, "CH₃COOH"),
    Chemical("naoh", "Sodium Hydroxide", "", "#F5F5F5", 2.13, Solid, None, "NaOH"),
    Chemical("koh", "Potassium Hydroxide", "", "#F2F2F2", 2.04, Solid, None, "KOH"),
    Chemical("mgoh2", "Magnesium Hydroxide", "", "#FFFFFF", 2.36, Solid, None, "Mg(OH)₂"),
    Chemical("caoh2", "Calcium Hydroxide", "", "#F8F8F8", 2.21, Solid, None, "Ca(OH)₂")
  ]

  const ChemicalRows2: seq<Chemical> := [
    Chemical("baoh2", "Barium Hydroxide", "", "#FFFFFF", 3.74, Solid, None, "Ba(OH)₂"),
    Chemical("nh4oh", "Ammonium Hydroxide", "", "#F5F5F5", 0.91, Liquid, None, "NH₄OH"),
    Chemical("nacl", "Sodium Chloride", "", "#FFFFFF", 2.16, Solid, None, "NaCl"),
    Chemical("cuso4", "Copper Sulfate", "", "#1E90FF", 3.6, Solid, None, "CuSO₄"),
    Chemical("agno3", "Silver Nitrate", "", "#E8E8E8", 4.35, Solid, None, "AgNO₃"),
    Chemical("nahco3", "Sodium Bicarbonate", "", "#FFFFFF", 2.20, Solid, None, "NaHCO₃"),
    Chemical("na2co3", "Sodium Carbonate", "", "#FFFFFF", 2.54, Solid, None, "Na₂CO₃"),
    Chemical("mgcl2", "Magnesium Chloride", "", "#FFFFFF", 2.32, Solid, None, "MgCl₂")
  ]

  const ChemicalRows3: seq<Chemical> := [
    Chemical("mgso4", "Magnesium Sulfate", "", "#FFFFFF", 2.66, Solid, None, "MgSO₄"),
    Chemical("znso4", "Zinc Sulfate", "", "#FFFFFF", 3.54, Solid, None, "ZnSO₄"),
    Chemical("zncl2", "Zinc Chloride", "", "#FFFFFF", 2.91, Solid, None, "ZnCl₂"),
    Chemical("na2so4", "Sodium Sulfate", "", "#FFFFFF", 2.68, Solid, None, "Na₂SO₄"),
    Chemical("caso4", "Calcium Sulfate", "", "#FFFFFF", 2.96, Solid, None, "CaSO₄"),
    Chemical("caco3", "Calcium Carbonate", "", "#FFFFFF", 2.71, Solid, None, "CaCO₃"),
    Chemical("feso4", "Iron(II) Sulfate", "", "#CCFFCC", 3.10, Solid, None, "FeSO₄"),
    Chemical("agcl", "Silver Chloride", "", "#F5F5F5", 5.56, Solid, None, "AgCl")
  ]

  const ChemicalRows4: seq<Chemical> := [
    Chemical("baso4", "Barium Sulfate", "", "#FFFFFF", 4.49, Solid, None, "BaSO₄"),
    Chemical("nh4cl", "Ammonium Chloride", "", "#FFFFFF", 1.53, Solid, None, "NH₄Cl"),
    Chemical("nano3", "Sodium Nitrate", "", "#FFFFFF", 2.26, Solid, None, "NaNO₃"),
    Chemical("kno3", "Potassium Nitrate", "", "#FFFFFF", 2.11, Solid, None, "KNO₃"),
    Chemical("mgno32", "Magnesium Nitrate", "", "#FFFFFF", 2.3, Solid, None, "Mg(NO₃)₂"),
    Chemical("kbr", "Potassium Bromide", "", "#FFFFFF", 2.75, Solid, None, "KBr"),
    Chemical("nabr", "Sodium Bromide", "", "#FFFFFF", 3.21, Solid, None, "NaBr"),
    Chemical("ch3coona", "Sodium Acetate", "", "#FFFFFF", 1.53, Solid, None, "CH₃COONa")
  ]

  const ChemicalRows5: seq<Chemical> := [
    Chemical("pbi2", "Lead(II) Iodide", "", "#FFFF00", 6.16, Solid, None, "PbI₂"),
    Chemical("fe", "Iron", "", "#708090", 7.87, Solid, None, "Fe"),
    Chemical("zn", "Zinc", "", "#D3D3D3", 7.14, Solid, None, "Zn"),
    Chemical("cu", "Copper", "", "#B87333", 8.96, Solid, None, "Cu"),
    Chemical("na", "Sodium", "", "#C0C0C0", 0.97, Solid, None, "Na"),
    Chemical("mg", "Magnesium", "", "#C0C0C0", 1.74, Solid, None, "Mg"),
    Chemical("ca", "Calcium", "", "#C0C0C0", 1.55, Solid, None, "Ca"),
    Chemical("al", "Aluminum", "", "#D3D3D3", 2.70, Solid, None, "Al")
  ]

  const ChemicalRows6: seq<Chemical> := [
    Chemical("k", "Potassium", "", "#C0C0C0", 0.89, Solid, None, "K"),
    Chemical("ag", "Silver", "", "#C0C0C0", 10.49, Solid, None, "Ag"),
    Chemical("pb", "Lead", "", "#778899", 11.29, Solid, None, "Pb"),
    Chemical("phenol", "Phenolphthalein", "", "#FFFFFF", 1.277, Liquid, None, "C₆H₄(OH)₂"),
    Chemical("methyl", "Methyl Orange", "", "#FF5733", 1.28, Liquid, None, "C₆H₅O"),
    Chemical("h2o2", "Hydrogen Peroxide", "", "#E6F7FF", 1.45, Liquid, None, "H₂O₂"),
    Chemical("h2o", "Water", "", "#D4F1F9", 1.0, Liquid, None, "H₂O"),
    Chemical("c2h5oh", "Ethanol", "", "#F5F5F5", 0.789, Liquid, None, "C₂H₅OH")
  ]

  const ChemicalRows7: seq<Chemical> := [
    Chemical("ch4", "Methane", "", "#FAFAFA", 0.657, Gas, None, "CH₄"),
    Chemical("o2", "Oxygen", "", "#E3F2FD", 1.429, Gas, None, "O₂"),
    Chemical("co2", "Carbon Dioxide", "", "#FFFFFF", 1.977, Gas, None, "CO₂"),
    Chemical("h2", "Hydrogen", "", "#F5F5F5", 0.0899, Gas, None, "H₂"),
    Chemical("no2", "Nitrogen Dioxide", "", "#BF360C", 1.88, Gas, None, "NO₂"),
    Chemical("cl2", "Chlorine", "", "#AAFF00", 3.214, Gas, None, "Cl₂"),
    Chemical("br2", "Bromine", "", "#A52A2A", 3.1028, Liquid, None, "Br₂"),
    Chemical("i2", "Iodine", "", "#4B0082", 4.933, Solid, None, "I₂")
  ]

  const ChemicalRows8: seq<Chemical> := [
    Chemical("s", "Sulfur", "", "#FFFF00", 2.07, Solid, None, "S"),
    Chemical("c", "Carbon", "", "#000000", 2.267, Solid, None, "C"),
    Chemical("n2", "Nitrogen", "", "#E6F7FF", 1.251, Gas, None, "N₂"),
    Chemical("nh3", "Ammonia", "", "#F5F5F5", 0.769, Gas, None, "NH₃"),
    Chemical("so2", "Sulfur Dioxide", "", "#FFFFFF", 2.6288, Gas, None, "SO₂"),
    Chemical("co", "Carbon Monoxide", "", "#FFFFFF", 1.145, Gas, None, "CO"),
    Chemical("cuo", "Copper(II) Oxide", "", "#000000", 6.315, Solid, None, "CuO"),
    Chemical("cao", "Calcium Oxide", "", "#FFFFFF", 3.34, Solid, None, "CaO")
  ]

  const ChemicalRows9: seq<Chemical> := [
    Chemical("fe2o3", "Iron(III) Oxide", "", "#A52A2A", 5.242, Solid, None, "Fe₂O₃"),
    Chemical("mgo", "Magnesium Oxide", "", "#FFFFFF", 3.58, Solid, None, "MgO"),
    Chemical("al2o3", "Aluminum Oxide", "", "#FFFFFF", 3.95, Solid, None, "Al₂O₃"),
    Chemical("cus", "Copper(II) Sulfide", "", "#000000", 5.6, Solid, None, "CuS"),
    Chemical("kclo3", "Potassium Chlorate", "", "#FFFFFF", 2.32, Solid, None, "KClO₃"),
    Chemical("kcl", "Potassium Chloride", "", "#FFFFFF", 1.98, Solid, None, "KCl"),
    Chemical("ki", "Potassium Iodide", "", "#FFFFFF", 3.13, Solid, None, "KI"),
    Chemical("fecl3", "Iron(III) Chloride", "", "#964B00", 2.9, Solid, None, "FeCl₃")
  ]

  const ChemicalRows10: seq<Chemical> := [
    Chemical("feoh3", "Iron(III) Hydroxide", "", "#A52A2A", 3.4, Solid, None, "Fe(OH)₃"),
    Chemical("znoh2", "Zinc Hydroxide", "", "#FFFFFF", 3.053, Solid, None, "Zn(OH)₂")
  ]

  const Chemicals: seq<Chemical> :=
    ChemicalRows1 + ChemicalRows2 + ChemicalRows3 + ChemicalRows4 + ChemicalRows5 + ChemicalRows6 + ChemicalRows7 + ChemicalRows8 + ChemicalRows9 + ChemicalRows10

  const ReactionRows1: seq<Reaction> := [
    Reaction("acid-base-1", "", "", "", "", ["hcl", "naoh"], ["nacl", "h2o"], Conditions(25.0, 1.0, None), Effects("#F5F5F5", false, false, true, Some(Increase), false, false, false, None, false), ""),
    Reaction("metal-acid-1", "", "", "", "", ["zn", "hcl"], ["zncl2", "h2"], Conditions(25.0, 1.0, None), Effects("#E6E6E6", false, true, false, Some(Increase), false, false, false, None, false), ""),
    Reaction("precipitation-1", "", "", "", "", ["cuso4", "naoh"], ["cu", "h2o"], Conditions(25.0, 1.0, None), Effects("#007FFF", false, false, true, None, false, false, false, None, false), ""),
    Reaction("redox-1", "", "", "", "", ["cu", "hno3"], ["nano3", "no2", "h2o"], Conditions(25.0, 1.0, None), Effects("#64AAD0", true, true, false, Some(Increase), false, false, false, None, false), ""),
    Reaction("catalytic-1", "", "", "", "", ["h2o2", "fe"], ["h2o", "o2"], Conditions(25.0, 1.0, Some("fe")), Effects("#FFFFFF", false, true, false, Some(Increase), false, false, false, None, false), ""),
    Reaction("combustion-1", "", "", "", "", ["h2", "o2"], ["h2o"], Conditions(400.0, 1.0, None), Effects("#D4F1F9", true, false, false, Some(Increase), false, false, false, None, false), ""),
    Reaction("metal-nonmetal-1", "", "", "", "", ["na", "cl2"], ["nacl"], Conditions(25.0, 1.0, None), Effects("#FFFFFF", true, false, false, Some(Increase), false, false, false, None, false), ""),
    Reaction("metal-nonmetal-2", "", "", "", "", ["mg", "o2"], ["mgo"], Conditions(400.0, 1.0, None), Effects("#FFFFFF", true, false, false, Some(Increase), false, false, false, None, false), "")
  ]

  const ReactionRows2: seq<Reaction> := [
    Reaction("metal-water-1", "", "", "", "", ["ca", "h2o"], ["caoh2", "h2"], Conditions(25.0, 1.0, None), Effects("#F8F8F8", false, true, false, Some(Increase), false, false, false, None, false), ""),
    Reaction("combustion-2", "", "", "", "", ["s", "o2"], ["so2"], Conditions(300.0, 1.0, None), Effects("#FFFF00", true, false, false, Some(Increase), false, false, false, None, false), ""),
    Reaction("redox-2", "", "", "", "", ["fe", "o2"], ["fe2o3"], Conditions(25.0, 1.0, None), Effects("#A52A2A", false, false, false, Some(Increase), false, false, false, None, false), ""),
    Reaction("combustion-3", "", "", "", "", ["c", "o2"], ["co2"], Conditions(500.0, 1.0, None), Effects("#000000", true, false, false, Some(Increase), false, false, false, None, false), ""),
    Reaction("acid-base-2", "", "", "", "", ["nh3", "hcl"], ["nh4cl"], Conditions(25.0, 1.0, None), Effects("#FFFFFF", true, false, false, Some(Increase), false, false, false, None, false), ""),
    Reaction("redox-3", "", "", "", "", ["cuso4", "zn"], ["znso4", "cu"], Conditions(25.0, 1.0, None), Effects("#1E90FF", false, false, true, None, false, false, false, None, false), ""),
    Reaction("gas-formation-1", "", "", "", "", ["c2h4o2", "nahco3"], ["ch3coona", "co2", "h2o"], Conditions(25.0, 1.0, None), Effects("#FFF8E1", false, true, false, None, false, false, false, None, false), ""),
    Reaction("metal-acid-2", "", "", "", "", ["mg", "hcl"], ["mgcl2", "h2"], Conditions(25.0, 1.0, None), Effects("#FFFFFF", false, true, false, Some(Increase), false, false, false, None, false), "")
  ]

  const ReactionRows3: seq<Reaction> := [
    Reaction("acid-base-3", "", "", "", "", ["naoh", "hcl"], ["nacl", "h2o"], Conditions(25.0, 1.0, None), Effects("#F5F5F5", false, false, false, Some(Increase), false, false, false, None, false), ""),
    Reaction("catalytic-2", "", "", "", "", ["n2", "h2"], ["nh3"], Conditions(450.0, 200.0, Some("fe")), Effects("#F5F5F5", false, false, false, Some(Decrease), false, false, false, None, false), ""),
    Reaction("decomposition-1", "", "", "", "", ["caco3"], ["cao", "co2"], Conditions(900.0, 1.0, None), Effects("#FFFFFF", false, true, false, None, false, false, false, None, false), ""),
    Reaction("metal-water-2", "", "", "", "", ["na", "h2o"], ["naoh", "h2"], Conditions(25.0, 1.0, None), Effects("#F5F5F5", false, true, false, Some(Increase), false, false, false, None, false), ""),
    Reaction("acid-oxide-1", "", "", "", "", ["cuo", "h2so4"], ["cuso4", "h2o"], Conditions(25.0, 1.0, None), Effects("#1E90FF", false, false, false, Some(Increase), false, false, false, None, false), ""),
    Reaction("redox-4", "", "", "", "", ["fe2o3", "co"], ["fe", "co2"], Conditions(800.0, 1.0, None), Effects("#708090", true, false, false, Some(Increase), false, false, false, None, false), ""),
    Reaction("double-displacement-1", "", "", "", "", ["agno3", "nacl"], ["agcl", "nano3"], Conditions(25.0, 1.0, None), Effects("#F5F5F5", false, false, true, None, false, false, false, None, false), ""),
    Reaction("precipitation-2", "", "", "", "", ["baoh2", "h2so4"], ["baso4", "nh4oh"], Conditions(25.0, 1.0, None), Effects("#FFFFFF", false, false, true, None, false, false, false, None, false), "")
  ]

  const ReactionRows4: seq<Reaction> := [
    Reaction("double-displacement-2", "", "", "", "", ["pbno32", "ki"], ["pbi2", "kno3"], Conditions(25.0, 1.0, None), Effects("#FFFF00", false, false, true, None, false, false, false, None, false), ""),
    Reaction("acid-base-4", "", "", "", "", ["nh3", "h2o"], ["nh4oh"], Conditions(25.0, 1.0, None), Effects("#F5F5F5", false, false, false, None, false, false, false, None, false), ""),
    Reaction("decomposition-2", "", "", "", "", ["h2o2"], ["h2o", "o2"], Conditions(25.0, 1.0, None), Effects("#E6F7FF", false, true, false, None, false, false, false, None, false), ""),
    Reaction("metal-nonmetal-3", "", "", "", "", ["na", "br2"], ["nabr"], Conditions(25.0, 1.0, None), Effects("#A52A2A", true, false, false, Some(Increase), false, false, false, None, false), ""),
    Reaction("precipitation-3", "", "", "", "", ["fecl3", "naoh"], ["feoh3", "nacl"], Conditions(25.0, 1.0, None), Effects("#A52A2A", false, false, true, None, false, false, false, None, false), ""),
    Reaction("combustion-4", "", "", "", "", ["co", "o2"], ["co2"], Conditions(400.0, 1.0, None), Effects("#FFFFFF", false, false, false, Some(Increase), false, false, false, None, false), ""),
    Reaction("metal-nonmetal-4", "", "", "", "", ["cu", "s"], ["cus"], Conditions(500.0, 1.0, None), Effects("#000000", false, false, false, Some(Increase), false, false, false, None, false), ""),
    Reaction("precipitation-4", "", "", "", "", ["naoh", "znso4"], ["na2so4", "znoh2"], Conditions(25.0, 1.0, None), Effects("#FFFFFF", false, false, true, None, false, false, false, None, false), "")
  ]

  const ReactionRows5: seq<Reaction> := [
    Reaction("metal-acid-3", "", "", "", "", ["mg", "hno3"], ["mgno32", "h2"], Conditions(25.0, 1.0, None), Effects("#FFFFFF", false, true, false, Some(Increase), false, false, false, None, false), ""),
    Reaction("displacement-1", "", "", "", "", ["br2", "ki"], ["kbr", "i2"], Conditions(25.0, 1.0, None), Effects("#4B0082", false, false, false, Some(Increase), false, false, false, None, false), ""),
    Reaction("decomposition-3", "", "", "", "", ["kclo3"], ["kcl", "o2"], Conditions(400.0, 1.0, None), Effects("#FFFFFF", false, true, false, Some(Decrease), false, false, false, None, false), ""),
    Reaction("double-displacement-3", "", "", "", "", ["caso4", "na2co3"], ["caco3", "na2so4"], Conditions(25.0, 1.0, None), Effects("#FFFFFF", false, false, true, None, false, false, false, None, false), "")
  ]

  const Reactions: seq<Reaction> :=
    ReactionRows1 + ReactionRows2 + ReactionRows3 + ReactionRows4 + ReactionRows5

  const Shipped: Catalogue := Catalogue(Chemicals, Reactions)
}

=== FILE: text.dfy ===
/** Character and string helpers shared by the whole model: the JavaScript
    string operations the application relies on (`toUpperCase`,
    `toLowerCase`, `includes`, `startsWith`, `slice`, `join`) and the
    decimal and hexadecimal digit codecs behind `toString`/`parseInt`.
    Case mapping is modelled for ASCII letters only; every other character
    (Arabic text, subscripts) is its own upper and lower case. */
module Text {

  datatype Option<+T> = None | Some(value: T)

  predicate IsDigit(c: char) {
    '0' <= c <= '9'
  }

  predicate IsHexDigit(c: char) {
    '0' <= c <= '9' || 'a' <= c <= 'f' || 'A' <= c <= 'F'
  }

  predicate IsLowerHexDigit(c: char) {
    '0' <= c <= '9' || 'a' <= c <= 'f'
  }

  function HexValue(c: char): (v: nat)
    requires IsHexDigit(c)
    ensures v < 16
  {
    if '0' <= c <= '9' then c as int - '0' as int
    else if 'a' <= c <= 'f' then c as int - 'a' as int + 10
    else c as int - 'A' as int + 10
  }

  /** The lower-case hexadecimal digit of a value below 16, as `toString(16)` writes it. */
  function HexDigit(v: nat): (c: char)
    requires v < 16
    ensures IsLowerHexDigit(c) && IsHexDigit(c) && HexValue(c) == v
  {
    if v < 10 then ('0' as int + v) as char else ('a' as int + v - 10) as char
  }

  function DigitValue(c: char): (v: nat)
    requires IsDigit(c)
    ensures v < 10
  {
    c as int - '0' as int
  }

  function DigitChar(v: nat): (c: char)
    requires v < 10
    ensures IsDigit(c) && DigitValue(c) == v
  {
    ('0' as int + v) as char
  }

  function LowerChar(c: char): char {
    if 'A' <= c <= 'Z' then (c as int + 32) as char else c
  }

  function UpperChar(c: char): char {
    if 'a' <= c <= 'z' then (c as int - 32) as char else c
  }

  /** `String.prototype.toLowerCase` on ASCII letters. */
  function ToLower(s: string): (r: string)
    ensures |r| == |s|
    ensures forall i :: 0 <= i < |s| ==> r[i] == LowerChar(s[i])
  {
    if s == [] then [] else [LowerChar(s[0])] + ToLower(s[1..])
  }

  /** `String.prototype.toUpperCase` on ASCII letters. */
  function ToUpper(s: string): (r: string)
    ensures |r| == |s|
    ensures forall i :: 0 <= i < |s| ==> r[i] == UpperChar(s[i])
  {
    if s == [] then [] else [UpperChar(s[0])] + ToUpper(s[1..])
  }

  /** `s.includes(q)`: `q` occurs in `s` at some offset. */
  predicate Contains(s: string, q: string) {
    exists i :: 0 <= i <= |s| && OccursAt(s, q, i)
  }

  predicate OccursAt(s: string, q: string, i: int) {
    0 <= i && i + |q| <= |s| && s[i..i + |q|] == q
  }

  /** `s.startsWith(p)`. */
  predicate StartsWith(s: string, p: string) {
    |p| <= |s| && s[..|p|] == p
  }

  /** `s.slice(a, b)` for non-negative bounds: both are clamped to the length. */
  function Slice(s: string, a: nat, b: nat): (r: string)
    ensures |r| <= 2 || |r| <= b - a
    ensures b <= |s| && a <= b ==> r == s[a..b]
  {
    var e := if b < |s| then b else |s|;
    var st := if a < e then a else e;
    s[st..e]
  }

  /** `xs.join(sep)`. */
  function Join(xs: seq<string>, sep: string): string {
    if |xs| == 0 then ""
    else if |xs| == 1 then xs[0]
    else xs[0] + sep + Join(xs[1..], sep)
  }

  /** Every element of a joined list occurs in the joined text. */
  lemma {:induction false} JoinContains(xs: seq<string>, sep: string, k: nat)
    requires k < |xs|
    ensures Contains(Join(xs, sep), xs[k])
  {
    var j := Join(xs, sep);
    if |xs| == 1 {
      assert OccursAt(j, xs[0], 0);
    } else if k == 0 {
      assert j == xs[0] + (sep + Join(xs[1..], sep));
      assert OccursAt(j, xs[0], 0);
    } else {
      JoinContains(xs[1..], sep, k - 1);
      var rest := Join(xs[1..], sep);
      var i :| 0 <= i <= |rest| && OccursAt(rest, xs[1..][k - 1], i);
      assert xs[1..][k - 1] == xs[k];
      assert 0 <= i && i + |xs[k]| <= |rest| && rest[i..i + |xs[k]|] == xs[k];
      var off := |xs[0]| + |sep|;
      assert j == (xs[0] + sep) + rest;
      assert j[off + i..off + i + |xs[k]|] == rest[i..i + |xs[k]|];
      assert OccursAt(j, xs[k], off + i);
    }
  }

  /** Text that is a prefix occurs in the whole text. */
  lemma PrefixContains(p: string, s: string)
    ensures Contains(p + s, p)
  {
    assert OccursAt(p + s, p, 0);
  }

  /** Text that is a suffix occurs in the whole text. */
  lemma SuffixContains(p: string, s: string)
    ensures Contains(p + s, s)
  {
    assert OccursAt(p + s, s, |p|);
  }

  /** `n.toString()` for a natural number. */
  function Decimal(n: nat): (r: string)
    ensures |r| > 0
    ensures forall i :: 0 <= i < |r| ==> IsDigit(r[i])
  {
    if n < 10 then [DigitChar(n)] else Decimal(n / 10) + [DigitChar(n % 10)]
  }

  /** The value of a string of decimal digits. */
  function DecimalValue(s: string): nat
    requires forall i :: 0 <= i < |s| ==> IsDigit(s[i])
  {
    if s == [] then 0 else DecimalValue(s[..|s| - 1]) * 10 + DigitValue(s[|s| - 1])
  }

  lemma {:induction false} DecimalRoundTrip(n: nat)
    ensures DecimalValue(Decimal(n)) == n
  {
    var d := Decimal(n);
    if n >= 10 {
      DecimalRoundTrip(n / 10);
      assert d[..|d| - 1] == Decimal(n / 10);
    }
  }

  /** Number of leading decimal digits of `s`. */
  function DigitSpan(s: string): (k: nat)
    ensures k <= |s|
    ensures forall i :: 0 <= i < k ==> IsDigit(s[i])
    ensures k < |s| ==> !IsDigit(s[k])
  {
    if s == [] || !IsDigit(s[0]) then 0 else 1 + DigitSpan(s[1..])
  }

  /** A run of digits followed by a non-digit (or nothing) is read back whole. */
  lemma {:induction false} DigitSpanOfRun(d: string, t: string)
    requires forall i :: 0 <= i < |d| ==> IsDigit(d[i])
    requires t == [] || !IsDigit(t[0])
    ensures DigitSpan(d + t) == |d|
  {
    if d != [] {
      assert (d + t)[1..] == d[1..] + t;
      DigitSpanOfRun(d[1..], t);
    } else {
      assert d + t == t;
    }
  }
}

=== FILE: tube.dfy ===
/** The test tube's arithmetic (src/components/TestTube.tsx): the layers
    the tube stacks from its portions (:221-235), the high-temperature glow
    (:262-264) and the colour of a broken tube (:64-73). */
module Tube {
  import opened Text
  import opened Seqs
  import opened Catalogue

  /** One entry of the `substances` prop: a substance and its volume. */
  datatype Portion = Portion(substance: Chemical, volume: real)

  /** One stacked layer: its height and its top, both in percent of the tube. */
  datatype Layer = Layer(substance: Chemical, height: real, top: real)

  predicate SortedByDensity(ps: seq<Portion>) {
    forall i, j :: 0 <= i < j < |ps| ==> ps[i].substance.density <= ps[j].substance.density
  }

  /** Inserts `x` before the first portion at least as dense, so that it
      stays ahead of equally dense portions that came after it. */
  function Insert(x: Portion, ys: seq<Portion>): (r: seq<Portion>)
    requires SortedByDensity(ys)
    ensures |r| == |ys| + 1
    ensures forall e :: e in r ==> e == x || e in ys
    ensures SortedByDensity(r)
  {
    if ys == [] || x.substance.density <= ys[0].substance.density then [x] + ys
    else
      var rest := Insert(x, ys[1..]);
      assert forall j :: 0 <= j < |rest| ==> rest[j] in rest;
      assert forall e :: e in ys[1..] ==> e in ys;
      [ys[0]] + rest
  }

  /** Insertion adds exactly the inserted portion. */
  lemma {:induction false} InsertPermutes(x: Portion, ys: seq<Portion>)
    requires SortedByDensity(ys)
    ensures multiset(Insert(x, ys)) == multiset(ys) + multiset{x}
  {
    if !(ys == [] || x.substance.density <= ys[0].substance.density) {
      InsertPermutes(x, ys[1..]);
      assert ys == [ys[0]] + ys[1..];
    }
  }

  /** `[...substances].sort((a, b) => a.substance.density - b.substance.density)`,
      the stable sort JavaScript engines implement. */
  function SortByDensity(ps: seq<Portion>): (r: seq<Portion>)
    ensures SortedByDensity(r)
    ensures multiset(r) == multiset(ps)
    ensures |r| == |ps|
  {
    if ps == [] then []
    else
      var rest := SortByDensity(ps[1..]);
      InsertPermutes(ps[0], rest);
      assert ps == [ps[0]] + ps[1..];
      Insert(ps[0], rest)
  }

  /** The portions of one density. */
  function DensityIs(d: real): Portion -> bool {
    (p: Portion) => p.substance.density == d
  }

  lemma {:induction false} InsertKeepsDensityOrder(x: Portion, ys: seq<Portion>, d: real)
    requires SortedByDensity(ys)
    ensures Keep(Insert(x, ys), DensityIs(d)) ==
      (if x.substance.density == d then [x] else []) + Keep(ys, DensityIs(d))
  {
    var q := DensityIs(d);
    if ys == [] || x.substance.density <= ys[0].substance.density {
      assert ([x] + ys)[0] == x && ([x] + ys)[1..] == ys;
    } else {
      var rest := Insert(x, ys[1..]);
      assert ([ys[0]] + rest)[0] == ys[0] && ([ys[0]] + rest)[1..] == rest;
      InsertKeepsDensityOrder(x, ys[1..], d);
    }
  }

  /** The sort is stable: the portions of any one density keep their order. */
  lemma {:induction false} SortIsStable(ps: seq<Portion>, d: real)
    ensures Keep(SortByDensity(ps), DensityIs(d)) == Keep(ps, DensityIs(d))
  {
    if ps != [] {
      SortIsStable(ps[1..], d);
      InsertKeepsDensityOrder(ps[0], SortByDensity(ps[1..]), d);
    }
  }

  /** `substances.reduce((sum, { volume }) => sum + volume, 0)`. */
  function TotalVolume(ps: seq<Portion>): real {
    if ps == [] then 0.0 else ps[0].volume + TotalVolume(ps[1..])
  }

  predicate NonNegativeVolumes(ps: seq<Portion>) {
    forall i :: 0 <= i < |ps| ==> ps[i].volume >= 0.0
  }

  lemma {:induction false} InsertKeepsVolume(x: Portion, ys: seq<Portion>)
    requires SortedByDensity(ys)
    ensures TotalVolume(Insert(x, ys)) == x.volume + TotalVolume(ys)
  {
    if !(ys == [] || x.substance.density <= ys[0].substance.density) {
      InsertKeepsVolume(x, ys[1..]);
      assert ([ys[0]] + Insert(x, ys[1..]))[1..] == Insert(x, ys[1..]);
    } else {
      assert ([x] + ys)[1..] == ys;
    }
  }

  /** Sorting moves volume around but neither adds nor loses any. */
  lemma {:induction false} SortKeepsVolume(ps: seq<Portion>)
    ensures TotalVolume(SortByDensity(ps)) == TotalVolume(ps)
  {
    if ps != [] {
      SortKeepsVolume(ps[1..]);
      InsertKeepsVolume(ps[0], SortByDensity(ps[1..]));
    }
  }

  /** Non-negative volumes in any order stay non-negative after sorting. */
  lemma SortKeepsNonNegative(ps: seq<Portion>)
    requires NonNegativeVolumes(ps)
    ensures NonNegativeVolumes(SortByDensity(ps))
  {
    var r := SortByDensity(ps);
    forall i | 0 <= i < |r| ensures r[i].volume >= 0.0 {
      assert r[i] in multiset(ps);
      var k :| 0 <= k < |ps| && ps[k] == r[i];
    }
  }

  /** `(volume / totalVolume) * 80`: a volume's share of the 80 percent the layers fill. */
  function Share(volume: real, total: real): real
    requires total > 0.0
  {
    volume / total * 80.0
  }

  lemma ShareBounds(volume: real, total: real)
    requires total > 0.0 && 0.0 <= volume <= total
    ensures 0.0 <= Share(volume, total) <= 80.0
  {
    assert volume / total <= 1.0;
  }

  /** Shares of one total add up like their volumes. */
  lemma ShareAdds(a: real, b: real, total: real)
    requires total > 0.0
    ensures Share(a, total) + Share(b, total) == Share(a + b, total)
  {
  }

  /** The whole total is the whole 80 percent. */
  lemma ShareWhole(total: real)
    requires total > 0.0
    ensures Share(total, total) == 80.0
  {
  }

  /** `Math.min((volume / totalVolume) * 80, 80)`. */
  function Height(volume: real, total: real): (h: real)
    requires total > 0.0
    ensures h <= 80.0
    ensures 0.0 <= volume <= total ==> h == Share(volume, total) && 0.0 <= h
  {
    var x := Share(volume, total);
    assert 0.0 <= volume <= total ==> 0.0 <= x <= 80.0 by {
      if 0.0 <= volume <= total {
        ShareBounds(volume, total);
      }
    }
    if x < 80.0 then x else 80.0
  }

  function HeightSum(ls: seq<Layer>): real {
    if ls == [] then 0.0 else ls[0].height + HeightSum(ls[1..])
  }

  /** The `map` of :225-234 from a running height `below`: each layer's top
      is 100 minus the height below it and its own. */
  function StackFrom(ps: seq<Portion>, total: real, below: real): (r: seq<Layer>)
    requires total > 0.0
    ensures |r| == |ps|
    ensures forall i :: 0 <= i < |ps| ==> r[i].substance == ps[i].substance && r[i].height == Height(ps[i].volume, total)
    ensures |r| > 0 ==> r[0].top == 100.0 - (below + r[0].height)
    ensures forall i :: 0 < i < |r| ==> r[i].top == r[i - 1].top - r[i].height
    ensures |r| > 0 ==> r[|r| - 1].top == 100.0 - (below + HeightSum(r))
  {
    if ps == [] then []
    else
      var h := Height(ps[0].volume, total);
      var rest := StackFrom(ps[1..], total, below + h);
      var r := [Layer(ps[0].substance, h, 100.0 - (below + h))] + rest;
      assert r[1..] == rest;
      r
  }

  /** Peeling the bottom layer off a stack leaves the stack of the rest. */
  lemma StackTail(ps: seq<Portion>, total: real, below: real)
    requires total > 0.0 && ps != []
    ensures StackFrom(ps, total, below)[1..] == StackFrom(ps[1..], total, below + Height(ps[0].volume, total))
    ensures HeightSum(StackFrom(ps, total, below)) ==
      Height(ps[0].volume, total) + HeightSum(StackFrom(ps[1..], total, below + Height(ps[0].volume, total)))
  {
  }

  /** The heights of a stack add up to its volume's share. */
  lemma {:induction false} StackHeights(ps: seq<Portion>, total: real, below: real)
    requires total > 0.0 && NonNegativeVolumes(ps) && TotalVolume(ps) <= total
    ensures HeightSum(StackFrom(ps, total, below)) == Share(TotalVolume(ps), total)
  {
    if ps == [] {
      assert Share(0.0, total) == 0.0;
    } else {
      assert NonNegativeVolumes(ps[1..]) by {
        forall i | 0 <= i < |ps[1..]| ensures ps[1..][i].volume >= 0.0 {
          assert ps[1..][i] == ps[i + 1];
        }
      }
      VolumeNonNegative(ps[1..]);
      var v := ps[0].volume;
      var rest := TotalVolume(ps[1..]);
      assert TotalVolume(ps) == v + rest;
      assert 0.0 <= v <= total;
      var h := Height(v, total);
      assert h == Share(v, total);
      StackTail(ps, total, below);
      StackHeights(ps[1..], total, below + h);
      var tail := HeightSum(StackFrom(ps[1..], total, below + h));
      assert tail == Share(rest, total);
      ShareAdds(v, rest, total);
      assert HeightSum(StackFrom(ps, total, below)) == h + tail;
    }
  }

  lemma {:induction false} VolumeNonNegative(ps: seq<Portion>)
    requires NonNegativeVolumes(ps)
    ensures TotalVolume(ps) >= 0.0
  {
    if ps != [] {
      assert NonNegativeVolumes(ps[1..]) by {
        forall i | 0 <= i < |ps[1..]| ensures ps[1..][i].volume >= 0.0 {
          assert ps[1..][i] == ps[i + 1];
        }
      }
      VolumeNonNegative(ps[1..]);
    }
  }

  /** One portion never holds more than the total of non-negative portions. */
  lemma {:induction false} PortionWithinTotal(ps: seq<Portion>, i: nat)
    requires NonNegativeVolumes(ps) && i < |ps|
    ensures ps[i].volume <= TotalVolume(ps)
  {
    assert NonNegativeVolumes(ps[1..]) by {
      forall k | 0 <= k < |ps[1..]| ensures ps[1..][k].volume >= 0.0 {
        assert ps[1..][k] == ps[k + 1];
      }
    }
    if i == 0 {
      VolumeNonNegative(ps[1..]);
    } else {
      PortionWithinTotal(ps[1..], i - 1);
    }
  }

  /** The layers of :221-235: the portions sorted by ascending density, each
      a share of 80 percent of the tube proportional to its volume, stacked
      from the bottom. When the portions exist but hold no volume at all,
      every share is 0/0, which JavaScript evaluates to NaN; the model
      answers `None` there. */
  function Layers(ps: seq<Portion>): (r: Option<seq<Layer>>)
    requires NonNegativeVolumes(ps)
    ensures r.None? <==> |ps| > 0 && TotalVolume(ps) == 0.0
    ensures r.Some? ==> |r.value| == |ps|
    ensures r.Some? ==> forall i :: 0 <= i < |ps| ==> r.value[i].substance == SortByDensity(ps)[i].substance
  {
    var total := TotalVolume(ps);
    VolumeNonNegative(ps);
    if ps == [] then Some([])
    else if total == 0.0 then None
    else Some(StackFrom(SortByDensity(ps), total, 0.0))
  }

  /** Every height lies in [0, 80], the heights fill 80 percent of the tube,
      the tops never rise from one layer to the next, and the last top is at 20. */
  lemma LayersFillTheTube(ps: seq<Portion>)
    requires NonNegativeVolumes(ps) && TotalVolume(ps) > 0.0
    ensures FillsTheTube(Layers(ps).value)
  {
    var total := TotalVolume(ps);
    var sorted := SortByDensity(ps);
    SortKeepsVolume(ps);
    SortKeepsNonNegative(ps);
    StackFills(sorted, total);
  }

  /** Heights within [0, 80] adding up to 80, tops that never rise, the last at 20. */
  predicate FillsTheTube(ls: seq<Layer>) {
    (forall i :: 0 <= i < |ls| ==> 0.0 <= ls[i].height <= 80.0) &&
    HeightSum(ls) == 80.0 &&
    (forall i, j :: 0 <= i < j < |ls| ==> ls[j].top <= ls[i].top) &&
    |ls| > 0 && ls[|ls| - 1].top == 20.0
  }

  lemma StackFills(ps: seq<Portion>, total: real)
    requires NonNegativeVolumes(ps) && TotalVolume(ps) == total && total > 0.0
    ensures FillsTheTube(StackFrom(ps, total, 0.0))
  {
    var ls := StackFrom(ps, total, 0.0);
    assert ps != [];
    StackHeightsBounded(ps, total);
    StackFillsEighty(ps, total);
    TopsNonIncreasing(ls);
  }

  /** Every layer of a stack of its whole total is between 0 and 80 percent high. */
  lemma StackHeightsBounded(ps: seq<Portion>, total: real)
    requires NonNegativeVolumes(ps) && TotalVolume(ps) == total && total > 0.0
    ensures var ls := StackFrom(ps, total, 0.0);
      forall i :: 0 <= i < |ls| ==> 0.0 <= ls[i].height <= 80.0
  {
    var ls := StackFrom(ps, total, 0.0);
    forall i | 0 <= i < |ls| ensures 0.0 <= ls[i].height <= 80.0 {
      PortionWithinTotal(ps, i);
    }
  }

  /** A stack of its whole total fills exactly 80 percent of the tube. */
  lemma StackFillsEighty(ps: seq<Portion>, total: real)
    requires NonNegativeVolumes(ps) && TotalVolume(ps) == total && total > 0.0
    ensures HeightSum(StackFrom(ps, total, 0.0)) == 80.0
  {
    StackHeights(ps, total, 0.0);
    ShareWhole(total);
  }

  lemma TopsNonIncreasing(ls: seq<Layer>)
    requires forall i :: 0 <= i < |ls| ==> ls[i].height >= 0.0
    requires forall i :: 0 < i < |ls| ==> ls[i].top == ls[i - 1].top - ls[i].height
    ensures forall i, j :: 0 <= i < j < |ls| ==> ls[j].top <= ls[i].top
  {
    forall i, j | 0 <= i < j < |ls| ensures ls[j].top <= ls[i].top {
      var k := j;
      while k > i
        invariant i <= k <= j
        invariant ls[j].top <= ls[k].top
        decreases k
      {
        k := k - 1;
      }
    }
  }

  /** The high-temperature glow of :262-264: whether it shows, how strong it
      is and its hue. */
  datatype Glow = Glow(show: bool, intensity: real, hue: real)

  function HighTempGlow(temperature: real): (r: Glow)
    ensures r.show <==> temperature > 60.0
    ensures r.intensity <= 1.0
    ensures r.show ==> 0.0 < r.intensity && 10.0 <= r.hue < 30.0
    ensures r.hue >= 0.0
  {
    var x := (temperature - 60.0) / 90.0;
    var intensity := if x < 1.0 then x else 1.0;
    var h := 30.0 - intensity * 20.0;
    Glow(temperature > 60.0, intensity, if h > 0.0 then h else 0.0)
  }

  /** A hotter tube glows at least as strongly and at least as red. */
  lemma GlowMonotone(t1: real, t2: real)
    requires t1 <= t2
    ensures HighTempGlow(t1).intensity <= HighTempGlow(t2).intensity
    ensures HighTempGlow(t2).hue <= HighTempGlow(t1).hue
  {
  }

  /** The colour the broken tube is drawn in (:64-73): the last portion's
      colour in the order given, or `'#cccccc'` for an empty tube. */
  function BrokenColor(ps: seq<Portion>): (c: string)
    ensures ps == [] ==> c == "#cccccc"
    ensures ps != [] ==> c == ps[|ps| - 1].substance.color
  {
    if ps == [] then "#cccccc" else ps[|ps| - 1].substance.color
  }
}
